=== FILE: README.md ===
# EEL interpreter core in Dafny

EEL is a small dynamically typed scripting language whose interpreter is
written in Python. A program goes through the lexer (`Lexer.make_tokens`),
which turns the text into tokens. The recursive-descent parser (`Parser`,
`ParseResult`) then turns the tokens into a node tree. Finally the tree-walking
interpreter (`Interpreter.visit_*`) evaluates that tree over values
(`Number`, `Boolean`, `Null`, `String`, `List`, `Dictionary`, `Function` and
`BuiltInFunction`).

The evaluator runs in contexts, each with a symbol table. It reports control
flow through an `RTResult` that carries a value, an error, a returned value,
or a `CONTINUE`/`BREAK` flag.

This project is a functional model of that core, with one module per source
file:

| module | models |
|---|---|
| `Basics` | the Python built-ins the core leans on: `int(s)`, `str(n)`, `s * n`, `%`, `//`, string order |
| `Positions` | `Position.advance` and walks over text |
| `Tokens` | token kinds, `Token`, `matches`, the keyword list |
| `Contexts` | `Context` and `SymbolTable` as a store of tables addressed by index |
| `Errors` | the error classes, `as_string` and the runtime traceback |
| `Signals` | `RTResult` |
| `Lexer` | `Lexer.make_tokens` and its helpers, one scanner step at a time |
| `Ast` | the node classes |
| `Parser` | `Parser` and `ParseResult`, one Dafny function per grammar rule |
| `Values` | the value classes, their operators, `copy`, argument checking and the built-ins that touch no I/O |
| `Interpreter` | every `visit_*` method except `visit_ImportNode`, and `Function.execute` |

Each module except `Basics`, `Ast` and `Signals` has a companion module of
lemmas: `LexerProperties`, `ParserProperties`, `ValueProperties` and
`InterpreterProperties`.

Several things are modelled explicitly rather than inherited from Python:

- Python objects with identity are modelled as a heap. A `Heap` holds the
  symbol tables and the element storage of lists, so a copied `List` still
  shares its storage with the original, exactly as `List.copy` shares the
  Python list.
- Python exceptions that the interpreter does not catch become a `Crash`
  outcome. Examples are `AttributeError` on the missing `.items` of an empty
  dictionary literal, and `TypeError` in `LS_POP` on a List and a Number.
- Evaluation takes a `fuel` argument, so that `WHILE` loops and recursion
  terminate. Running out is the `OutOfFuel` crash.
- Floating point, the host's float division and float powers, and the
  caret excerpt (`string_with_arrows`) are parameters (`Host`, `Arrows`).
  They are not modelled.

## Model

| member | source | states |
|---|---|---|
| Basics.DecimalRoundTrip | eel/base.py:212-231 | reading back the decimal text of any natural number with `int` gives the number |
| Basics.IntegerRoundTrip | eel/values.py:252-257 | the decimal text `str` gives any integer reads back with `int` as that integer, and starts with '-' exactly when the integer is negative |
| Basics.Repeat | eel/values.py:259-263 | Python's `s * n` has `n` copies' length, none for `n <= 0` |
| Basics.PyMod | eel/values.py:124-135 | Python's `%` remainder lies between 0 and the divisor and satisfies `a == b * (a // b) + r` |
| Basics.StrLessStrictTotal | eel/interpreter.py:217-222 | the Python string order that a FOR condition uses on String bounds is irreflexive and total on distinct strings |
| Positions.Advance | eel/base.py:30-38 | one step moves the offset by one; a newline moves to column 0 of the next line, anything else one column right |
| Positions.AdvanceOverSnoc | eel/base.py:56-58 | stepping over one more character extends a walk by exactly one `advance` |
| Positions.AdvanceOverCounts | eel/base.py:30-38 | after a walk over `s`, the offset moved by the length of `s`, the line by the newlines in `s`, and the column is the length after the last newline |
| Tokens.MakeToken | eel/tokens.py:57-70 | without an end position, a token ends one character after its start, on the same line |
| Tokens.KeywordsAreNineteenWords | eel/tokens.py:27-53 | the keyword list holds 19 distinct upper-case words, and membership is case-sensitive |
| Contexts.GetIsTwoLevelWalk | eel/context.py:14-18 | `get` equals an independent chain lookup limited to depth two: the own table, then the parent |
| Contexts.GrandparentIsNotConsulted | eel/context.py:14-18 | a name bound only in a grandparent is not found by `get`, although a depth-three walk finds it |
| Contexts.Set | eel/context.py:20-21 | `set` binds the name in that table only; every other table and every other name is unchanged |
| Contexts.Remove | eel/context.py:23-24 | `remove` succeeds exactly when the name is bound locally, and then unbinds only that name |
| Contexts.Copy | eel/context.py:26-29 | `copy` makes a new empty table whose parent is the original; no existing table changes |
| Contexts.CopyIsLive | eel/context.py:26-29 | a binding added to the original after copying is visible through the copy |
| Contexts.NewContext | eel/context.py:1-6 | a new context has the given name, parent and entry position, and a fresh empty table without a parent |
| Contexts.NewTable | eel/context.py:9-12 | a new table is empty, has the given parent, and is appended to the store |
| Errors.BaseAsString | eel/errors.py:20-24 | the rendering is "ERROR: name: details", the file name, the 1-based line number, then the caret excerpt; it raises AttributeError (`PositionMissing`) exactly when the error has no start |
| Errors.PrintedLineNumber | eel/errors.py:20-24 | the printed line number reads back as the 0-based line plus one |
| Errors.TracebackLoopIsJoin | eel/errors.py:57-67 | the traceback loop's accumulator equals the frames of the context chain, outermost first, joined |
| Errors.FramesShape | eel/errors.py:57-67 | there is one frame per context in the chain, and the innermost is the error's own position and context |
| Errors.TracebackIsOutermostFirst | eel/errors.py:57-67 | `generate_traceback` is its header followed by one line per frame, outermost first |
| Errors.RTTextShape | eel/errors.py:51-55 | when every position is present, the runtime text is the traceback header, one line per frame, "name: details", a blank line and the excerpt, and it begins with the header and ends with the excerpt |
| Errors.RTAsString | eel/errors.py:51-67 | a runtime error renders as the traceback, then "name: details" and the excerpt; it raises AttributeError (`PositionMissing`) exactly when the error has no start or the traceback reaches a context entered at no position |
| Errors.AsString | eel/errors.py:20-67 | `as_string` by class: it raises exactly when a position it reads is missing; otherwise a runtime error starts with the traceback header, any other with its "ERROR: name: details" line, and both end with a blank line and the excerpt |
| Signals.Success | eel/base.py:340-343 | `success` sets the value and nothing else |
| Signals.SuccessReturn | eel/base.py:345-348 | `success_return` sets the returned value and nothing else |
| Signals.SuccessContinue | eel/base.py:350-353 | `success_continue` sets the continue flag and nothing else |
| Signals.SuccessBreak | eel/base.py:355-358 | `success_break` sets the break flag and nothing else |
| Signals.Failure | eel/base.py:360-363 | `failure` sets the error and nothing else |
| Signals.Register | eel/base.py:313-318 | `register` takes over the sub-result's error, return and loop flags, keeps its own value, and hands back the sub-result's value |
| Signals.ShouldReturnOfConstructors | eel/base.py:340-372 | only a plain success lets the caller carry on |
| Signals.ShouldReturnOfExclusive | eel/base.py:365-372 | for a result with at most one field set, `should_return` holds exactly when it holds no value and is not empty |
| Signals.PropagateHandsBackSignal | eel/base.py:313-318 | returning right after `register` hands back the sub-result's signal unchanged |
| Signals.RegisterPropagates | eel/base.py:313-372 | after `register`, the receiver must return exactly when the sub-result must |
| Lexer.StartPos | eel/base.py:49-54 | the constructor plus the first `advance` leaves the lexer at offset 0, line 0, column 0 |
| Lexer.StringLoop | eel/base.py:184-210 | the string loop stops at an unescaped closing quote or at the end of the text |
| Lexer.MakeString | eel/base.py:184-210 | `make_string` yields one STRING token spanning the quotes and moves forward |
| Lexer.CommentEnd | eel/base.py:289-295 | a comment that ends, ends after its start |
| Lexer.StepOperator | eel/base.py:75-164 | an operator character yields exactly one non-EOF token and consumes text, or stops the scan with an error |
| Lexer.StepWord | eel/base.py:170-174 | a digit or letter yields one non-EOF token and consumes text; the only other outcome is the uncaught second-dot exception |
| Lexer.StepAt | eel/base.py:60-179 | one pass of the scanner loop yields at most one token, never EOF, and consumes text |
| Lexer.Scan | eel/base.py:60-182 | a scan that reports an error returns no tokens; one that does not returns the tokens collected plus exactly one final EOF |
| Lexer.CompletesAtEnd | eel/base.py:181-182 | at the end of the text, the collected tokens plus EOF are a complete scan |
| Lexer.CompletesStep | eel/base.py:60-182 | a complete scan after one step's tokens is a complete scan from before them |
| Lexer.LexEndsWithOneEof | eel/base.py:60-182 | a successful lex ends with EOF, and no earlier token is EOF |
| LexerProperties.BlankAndNewlineSteps | eel/base.py:66-67 | spaces and tabs yield no token; `;` and a newline yield one NEWLINE token |
| LexerProperties.OperatorStep | eel/base.py:75-164 | an operator character that may start a two-character token (`-`, `*`, `!`, `=`, `<`, `>`, `:`) is handled by the one-character-lookahead step; the token it picks is stated by TwoCharacterTokens and OneCharacterFallback |
| LexerProperties.TwoCharacterTokens | eel/base.py:79-164 | `->`, `**`, `==`, `!=`, `<=`, `>=` and `::` are each one token and both characters are consumed; `->`, `==`, `!=`, `<=` and `>=` span both characters, `**` starts and spans only its second character, and `::` starts and ends at its second colon, an empty span |
| LexerProperties.OneCharacterFallback | eel/base.py:79-164 | without the second character, `-`, `*`, `=`, `<`, `>` and `:` are single-character tokens; a lone `*` also skips the character after it, the others leave it for the next step |
| LexerProperties.CaretIsPow | eel/base.py:103-105 | `^` yields the same power token as `**` |
| LexerProperties.BangWithoutEquals | eel/base.py:244-254 | `!` not followed by `=` stops the whole scan with the Expected Char Error "Expected '=' after '!'" and no tokens |
| LexerProperties.IllegalCharacter | eel/base.py:176-179 | an unrecognised character stops the scan with an Illegal Character error naming it, and no tokens |
| LexerProperties.RecognisedIsNotIllegal | eel/base.py:60-179 | a recognised character never yields the illegal-character error |
| LexerProperties.CommentSkipsLine | eel/base.py:289-295 | a comment yields no token and resumes just past the next newline |
| LexerProperties.CommentEndFinds | eel/base.py:289-295 | the comment loop ends just past the first newline ahead |
| LexerProperties.CommentAtEndHangs | eel/base.py:289-295 | a comment with no newline after it never ends: `skip_comment` keeps advancing past the end of the text, where the current character stays absent, so the scan hangs |
| LexerProperties.CommentEndNone | eel/base.py:289-295 | with no newline ahead, the comment loop does not end |
| LexerProperties.EscapedCharStep | eel/base.py:184-210 | one character written in escaped form is read back as itself |
| LexerProperties.StringLoopAtQuote | eel/base.py:184-210 | an unescaped quote ends the string loop |
| LexerProperties.StringLoopReads | eel/base.py:184-210 | the string loop reads an escaped text back as the original text |
| LexerProperties.EscapedHead | eel/base.py:184-210 | the first written character of an escaped body is read as itself |
| LexerProperties.AdvanceOverAppend | eel/base.py:30-38 | walking over `a + b` is walking over `a`, then over `b` |
| LexerProperties.StringRoundTrip | eel/base.py:184-210 | a quoted, escaped text lexes to one STRING token holding the original text, spanning the literal |
| LexerProperties.EscapedCharacter | eel/base.py:184-210 | `\n \t \r \b \f` decode to control characters; any other escaped character stands for itself |
| LexerProperties.EscapeInLoop | eel/base.py:184-210 | the string loop reads a backslash and a character as the escape table's character |
| LexerProperties.UnterminatedString | eel/base.py:184-210 | a string with no closing quote is not an error: it takes the rest of the text |
| LexerProperties.StringLoopPlain | eel/base.py:184-210 | a body with no quote or backslash is read verbatim up to the end of the text |
| LexerProperties.PlainTail | eel/base.py:184-210 | after reading the first character of a plain body, the rest is still plain and ahead |
| LexerProperties.StringLoopPlainStep | eel/base.py:184-210 | one plain character read, given the rest, gives the whole body |
| LexerProperties.NumberLoopDigits | eel/base.py:212-231 | the number loop collects a run of digits verbatim |
| LexerProperties.NumberRoundTrip | eel/base.py:212-231 | the decimal text of `n` lexes to one INT token whose value is `n` |
| LexerProperties.OneDotIsFloat | eel/base.py:212-231 | digits with one dot make a FLOAT token keeping the text |
| LexerProperties.SecondDotRaises | eel/base.py:212-231 | a second dot in a number is not a lexing error but an uncaught exception |
| LexerProperties.SecondDotLoop | eel/base.py:212-231 | the number loop reaches a second dot and raises there |
| LexerProperties.IdentLoopWord | eel/base.py:233-242 | the identifier loop collects a run of letters, digits and underscores verbatim |
| LexerProperties.IdentifierWord | eel/base.py:233-242 | a word is a KEYWORD token when it is reserved, else an IDENTIFIER, holding the word |
| Parser.SpecificErrorWins | eel/parser.py:869-891 | after a failed sub-rule, a rule's own `failure` replaces the error only when no token was consumed |
| Parser.TryRegisterIsUndoable | eel/parser.py:875-879 | a failed `try_register` records only the count to reverse; a successful one is `register` |
| Parser.FailureIsSticky | eel/parser.py:888-891 | once an error is recorded and a token consumed, later failures change nothing |
| Parser.CursorIsClamped | eel/parser.py:8-25 | `advance` and `reverse` keep the current token within the list, on its last token once past the end |
| Parser.NotEofHasNext | eel/parser.py:13-16 | on any token but EOF, advancing moves to another token of the list |
| Parser.Parse | eel/parser.py:27-34 | a successful parse stops on EOF and never registers more advances than tokens read |
| Parser.SkipNewlines | eel/parser.py:38-77 | skipping NEWLINE tokens counts each one and stops on a non-NEWLINE |
| Parser.Statements | eel/parser.py:38-77 | `statements` moves forward and yields a node whenever it has no error |
| Parser.StatementsLoop | eel/parser.py:50-77 | the statement loop never fails, and its list starts with the statements already read |
| Parser.Statement | eel/parser.py:86-124 | `statement` moves forward and yields a node whenever it has no error |
| Parser.Expr | eel/parser.py:126-163 | `expr` moves forward and yields a node whenever it has no error |
| Parser.CompExpr | eel/parser.py:165-186 | `comp_expr` moves forward and yields a node whenever it has no error |
| Parser.ArithExpr | eel/parser.py:188-189 | `arith_expr` moves forward and yields a node whenever it has no error |
| Parser.Term | eel/parser.py:191-192 | `term` moves forward and yields a node whenever it has no error |
| Parser.Factor | eel/parser.py:194-206 | `factor` moves forward and yields a node whenever it has no error |
| Parser.Power | eel/parser.py:208-209 | `power` moves forward and yields a node whenever it has no error |
| Parser.Operand | eel/parser.py:841-859 | an operand of a level moves forward and yields a node whenever it has no error |
| Parser.BinOp | eel/parser.py:841-859 | `bin_op` moves forward and yields a node whenever it has no error |
| Parser.BinOpLoop | eel/parser.py:846-859 | the `bin_op` loop stops only on a token that is not an operator of its level |
| Parser.Call | eel/parser.py:211-252 | `call` moves forward and yields a node whenever it has no error |
| Parser.ExprListTail | eel/parser.py:232-252 | the comma loop stops on a non-comma and extends the list already read |
| Parser.Atom | eel/parser.py:254-342 | `atom` moves forward and yields a node whenever it has no error |
| Parser.CompoundAtom | eel/parser.py:306-336 | the compound atoms move forward and yield a node whenever they have no error |
| Parser.NameAtom | eel/parser.py:262-282 | an identifier atom moves forward and yields a node whenever it has no error |
| Parser.ParenAtom | eel/parser.py:284-297 | a parenthesised atom moves forward and yields a node whenever it has no error |
| Parser.ListExpr | eel/parser.py:344-389 | `list_expr` moves forward and yields a node whenever it has no error |
| Parser.DictExpr | eel/parser.py:391-469 | `dict_expr` moves forward and yields a node whenever it has no error |
| Parser.DictClose | eel/parser.py:457-469 | the closing check succeeds exactly on '}', and then yields the dictionary node ending at that brace |
| Parser.DictLoop | eel/parser.py:434-455 | the dictionary loop stops on a non-comma unless it fails |
| Parser.IfExpr | eel/parser.py:471-477 | `if_expr` moves forward and yields a node whenever it has no error |
| Parser.IfElif | eel/parser.py:479-480 | `if_expr_elif` moves forward and yields cases whenever it has no error |
| Parser.IfElse | eel/parser.py:482-515 | `if_expr_else` moves forward; a missing ELSE is a success with no branch |
| Parser.IfElifOrElse | eel/parser.py:517-532 | `if_expr_elif_or_else` moves forward and yields cases whenever it has no error |
| Parser.IfCases | eel/parser.py:534-592 | `if_expr_cases` moves forward and yields cases whenever it has no error |
| Parser.LoopBody | eel/parser.py:640-684 | a loop body moves forward and yields a body whenever it has no error |
| Parser.ForExpr | eel/parser.py:594-684 | `for_expr` moves forward and yields a node whenever it has no error |
| Parser.ForTail | eel/parser.py:616-684 | the rest of a FOR moves forward and yields a node whenever it has no error |
| Parser.WhileExpr | eel/parser.py:686-734 | `while_expr` moves forward and yields a node whenever it has no error |
| Parser.Params | eel/parser.py:757-790 | a parameter list stops on ')' unless it fails, and holds only identifiers |
| Parser.ParamTail | eel/parser.py:769-790 | the parameter comma loop stops on a non-comma and holds only identifiers |
| Parser.FuncDef | eel/parser.py:736-839 | `func_def` moves forward and yields a node whenever it has no error |
| Parser.FuncBody | eel/parser.py:792-839 | a function body moves forward and yields a node whenever it has no error |
| Parser.ToError | eel/parser.py:869-891 | a parse error becomes an Invalid Syntax error, or a runtime error for the `::` check, over the same span and without a context |
| Parser.Relay | eel/parser.py:188-209 | relaying a sub-rule keeps its position, count and error, and keeps its node only on success |
| ParserProperties.CallOfNumber | eel/parser.py:211-260 | a number not followed by '(' is a whole `call` of one token |
| ParserProperties.LevelOfNumber | eel/parser.py:841-859 | a level whose operand is a number followed by none of its operators yields that number |
| ParserProperties.PowerOfNumber | eel/parser.py:194-260 | a number followed by anything but '(' or '^' is a whole factor |
| ParserProperties.TermOfNumber | eel/parser.py:191-192 | a number followed by no term operator is a whole term |
| ParserProperties.ArithOfNumber | eel/parser.py:188-189 | a number followed by no arithmetic operator is a whole `arith_expr` |
| ParserProperties.ExprOfNumber | eel/parser.py:126-189 | a number followed by a token that continues no expression is a whole expression |
| ParserProperties.LeftTreeIsFoldLeft | eel/parser.py:841-859 | the tree the loop builds pair by pair equals an independent left fold of the pairs |
| ParserProperties.RightTreeIsFoldRight | eel/parser.py:194-209 | the `^` tree built along the tokens equals an independent right fold of the pairs |
| ParserProperties.LoopStep | eel/parser.py:846-859 | one round of `bin_op` over an operator and a number makes the tree so far the left operand |
| ParserProperties.ArithRunTail | eel/parser.py:846-859 | the rest of a `+`/`-` chain after one pair is again a chain |
| ParserProperties.ArithLoopRound | eel/parser.py:846-859 | one round of the `+`/`-` loop consumes two tokens and grows the tree to the left |
| ParserProperties.ArithLoopStep | eel/parser.py:846-859 | the `+`/`-` loop result for `k` pairs follows from that for the remaining `k-1` |
| ParserProperties.ArithLoopFoldsLeft | eel/parser.py:846-859 | the `+`/`-` loop over `k` pairs builds the left-grouped tree and consumes `2k` tokens |
| ParserProperties.ArithOfNumberStart | eel/parser.py:188-192 | an `arith_expr` starting with a whole-term number enters the loop after it |
| ParserProperties.ArithChainStart | eel/parser.py:188-192 | a number followed by a `+`/`-` chain starts as that chain |
| ParserProperties.ArithBuildsLeftTree | eel/parser.py:188-189 | an `arith_expr` over `k+1` numbers yields the left-grouped tree and consumes `2k+1` tokens |
| ParserProperties.ArithGroupsLeft | eel/parser.py:188-189 | `a - b - c ...` equals an independent left fold of the pairs |
| ParserProperties.PowLoopFirstRound | eel/parser.py:194-209 | the right operand of `^` is a whole factor, parsed recursively |
| ParserProperties.FactorOfNumberStart | eel/parser.py:194-209 | a factor starting with a number goes straight to `power` |
| ParserProperties.PowRunTail | eel/parser.py:194-209 | the rest of a `^` chain after one pair is again a chain |
| ParserProperties.PowerStep | eel/parser.py:194-209 | with the factor two tokens on built, `power` puts it as the right operand |
| ParserProperties.PowerBuildsRightTree | eel/parser.py:194-209 | `power` over `k+1` numbers yields the right-grouped tree |
| ParserProperties.PowerGroupsRight | eel/parser.py:194-209 | `a ^ b ^ c ...` equals an independent right fold of the pairs |
| ParserProperties.TwoPairs | eel/parser.py:841-859 | a two-operator chain spelled as the list of its pairs |
| ParserProperties.MinusChainGroupsLeft | eel/parser.py:188-189 | example of ArithGroupsLeft: `1 - 2 - 3` parses as `(1 - 2) - 3` |
| ParserProperties.PowChainGroupsRight | eel/parser.py:194-209 | example of PowerGroupsRight: `2 ^ 3 ^ 2` parses as `2 ^ (3 ^ 2)` |
| ParserProperties.CallRejectsNonStarter | eel/parser.py:338-342 | a token that starts no atom fails `call` without consuming anything |
| ParserProperties.ExprRejectsNonStarter | eel/parser.py:157-163 | a token that starts no expression fails `expr` with the expression-level message, consuming nothing |
| ParserProperties.StatementRejectsNonStarter | eel/parser.py:118-123 | a token that starts no statement fails with the statement-level message |
| ParserProperties.VarNeedsEquals | eel/parser.py:129-155 | after `VAR name`, a missing '=' is reported as "Expected '='" |
| ParserProperties.BareReturn | eel/parser.py:90-97 | RETURN with nothing expression-like after it returns no value and consumes one token |
| ParserProperties.ParseNeedsEof | eel/parser.py:27-34 | `parse` succeeds exactly when the statements do and the next token is EOF |
| ParserProperties.LoopBodyForms | eel/parser.py:652-684 | after THEN, a NEWLINE opens statements that must be closed by END (else "Expected 'END'" at the token found) and give the block flag true; any other token starts one statement whose node is the body with the flag false; a missing THEN is "Expected 'THEN'"; a failing body's error is the result's |
| ParserProperties.ForTakesLoopBody | eel/parser.py:629-684 | after `TO end` and an optional `STEP step`, the FOR node is built from the end, the step (absent without STEP), and the body and block flag its loop body read; an error in the loop body is the FOR's |
| ParserProperties.WhileTakesLoopBody | eel/parser.py:686-734 | after WHILE and its condition, the WHILE node is built from the condition and the body and block flag its loop body read; an error in the condition or the body is the WHILE's |
| ParserProperties.FuncBodyForms | eel/parser.py:800-839 | after `)`, `-> expr` makes a function that returns its expression automatically; a NEWLINE opens statements that must close with END (else "Expected 'END'") and make a function that returns only through RETURN; any other token is "Expected '->' or NEWLINE" |
| ParserProperties.ScopedName | eel/parser.py:267-282 | `a::b` becomes one variable access named "a::b" |
| ParserProperties.EmptyDictNeedsSecondBrace | eel/parser.py:405-407 | after `{}` the parser still demands a second '}' |
| ParserProperties.SecondDictEntryMisread | eel/parser.py:434-455 | `{1: 2, 3: 4}` is rejected, because a token after each later key is skipped |
| ParserProperties.DictFirstEntry | eel/parser.py:409-432 | after `{ a : b` with number entries, the literal reports the loop's error |
| ParserProperties.KeyAndValueOfNumbers | eel/parser.py:409-432 | number key and value before ':' and ',' are each whole expressions |
| ParserProperties.NumberBeforeSeparator | eel/parser.py:409-432 | a number followed by ':' or ',' is a whole expression |
| ParserProperties.DictEntryOfNumbers | eel/parser.py:409-434 | the first entry of numbers leads straight into the loop |
| ParserProperties.DictLoopMisread | eel/parser.py:434-455 | the loop's unconditional advance after a later key makes `, c : d` fail |
| Values.IllegalOperation | eel/values.py:77-84 | the default error is a runtime "Illegal Operation" in the left operand's context |
| Values.NumberOp | eel/values.py:93-207 | a Number operator's result is in the left operand's context with no position, and a non-Number right operand is illegal |
| Values.NullOp | eel/values.py:213-225 | Null produces values only for `==` and `!=`, and those are Booleans |
| Values.StringOp | eel/values.py:252-310 | a String operator produces a value only with a String or Number right operand |
| Values.ListOp | eel/values.py:331-378 | List operators change no table and only add storage |
| Values.Binary | eel/values.py:23-402 | no operator changes a table, and only a List operator touches storage |
| Values.Notted | eel/values.py:197-198 | `notted` succeeds exactly on Numbers and Booleans |
| Values.CopyOf | eel/values.py:374-402 | `copy` fails exactly on a Dictionary without items, the empty literal |
| Values.Alloc | eel/values.py:326-329 | new list storage is appended and holds the given elements |
| Values.NewFrame | eel/values.py:535-539 | a call frame is named after the function, its parent is the function's context, and its new table's parent is that context's table |
| Values.CheckArgs | eel/values.py:541-559 | `check_args` fails exactly when the argument count differs from the parameter count |
| Values.Populate | eel/values.py:561-569 | binding the arguments writes only the frame's table |
| Values.ListBuiltin | eel/values.py:730-793 | the list built-ins settle on one signal and change no table |
| Values.DictGetBuiltin | eel/values.py:795-809 | DICT_GET settles on one signal |
| Values.LenBuiltin | eel/values.py:811-826 | LEN settles on one signal |
| Values.RunBuiltin | eel/values.py:714-826 | every modelled built-in settles on one signal and changes no table |
| Values.BuiltinExecute | eel/values.py:621-636 | a built-in call settles on one signal |
| ValueProperties.UnsupportedOperatorsAreIllegal | eel/values.py:23-84 | Dictionary, Function and built-in values fail every operator with "Illegal Operation" from left start to right end |
| ValueProperties.NullComparesOnlyForEquality | eel/values.py:213-225 | Null `==` is true exactly against Null, `!=` is its negation, every other operator is illegal, and Null is false |
| ValueProperties.DivisionByZeroIsCheckedFirst | eel/values.py:111-135 | between Numbers, `/` and `%` fail "Division by zero" exactly when the divisor is 0 |
| ValueProperties.DivisionByZeroNeedsANumber | eel/values.py:111-122 | only a Number left operand checks the divisor; otherwise `/` is an illegal operation |
| ValueProperties.ModuloFollowsTheDivisor | eel/values.py:124-135 | Number `%` takes the sign of the divisor, as Python's does |
| ValueProperties.AddThenSubtract | eel/values.py:93-103 | subtracting what was added gives back the left number |
| ValueProperties.LogicAgreesWithTruth | eel/values.py:179-201 | AND, OR, XOR and NOT yield Booleans that agree with `is_true` of the operands |
| ValueProperties.ComparisonsAreConsistent | eel/values.py:143-177 | the Number comparisons yield Booleans; `<=` is not `>`, `>=` is not `<`, `!=` is not `==` |
| ValueProperties.ConcatenationAppendsText | eel/values.py:252-257 | String `+` appends the right operand's text; a number appends its decimal text, which reads back with `int` as that number (plain digits when it is not negative) |
| ValueProperties.RepetitionRepeatsText | eel/values.py:259-263 | String `*` repeats the text the given number of times, character by character |
| ValueProperties.EqualityComparesText | eel/values.py:265-275 | String `==` compares texts, so "1" equals 1 and "True" equals the Boolean true; `!=` is its negation |
| ValueProperties.OrderingIgnoresCharacterOrder | eel/values.py:277-307 | example of the code-point-sum ordering: "ab" and "ba" are neither less nor greater, although Python's own order puts "ab" first |
| ValueProperties.OrderingAgainstANumber | eel/values.py:277-307 | against a Number, String `<` compares the code-point sum with the number |
| ValueProperties.NegativeIndexCountsFromEnd | eel/values.py:361-372 | List `^` with a negative index counts from the end, as Python indexing does |
| ValueProperties.IndexOutOfBounds | eel/values.py:361-372 | List `^` fails "Index Out of Bounds" exactly when Python indexing would fail |
| ValueProperties.AdditionExtendsSharedStorage | eel/values.py:331-339 | `+` on a copied List appends to the storage it shares with the original |
| ValueProperties.WithoutKeepsTheOthers | eel/values.py:341-348 | removal keeps exactly the elements that differ from the operand |
| ValueProperties.SubtractionBuildsNewStorage | eel/values.py:341-348 | List `-` leaves the left storage alone and yields new storage without the matches |
| ValueProperties.CyclicOfDouble | eel/values.py:350-359 | reading a doubled sequence cyclically reads the original cyclically |
| ValueProperties.DoubledLength | eel/values.py:350-359 | doubling `k` times multiplies the length by `2^k` |
| ValueProperties.DoubledIndex | eel/values.py:350-359 | every element of the doubled sequence is an element of the original at the same cyclic index |
| ValueProperties.MultiplicationDoublesStorage | eel/values.py:350-359 | List `*` by n doubles the shared storage n-1 times |
| ValueProperties.ArityMessageNamesTheCount | eel/values.py:541-559 | two arity messages that agree name the same count |
| ValueProperties.ArityIsCheckedExactly | eel/values.py:541-559 | too many and too few arguments fail with messages naming the difference; the right number passes |
| ValueProperties.PopulateBindsPositionally | eel/values.py:561-569 | each parameter is bound to the argument at its position (the last duplicate wins); other names stay as they were |
| ValueProperties.TypeTestsAreDisjoint | eel/values.py:714-728 | IS_NUM accepts Booleans, IS_FUNC built-ins, and a value passes at most one test |
| ValueProperties.LookupFindsFirstMatch | eel/values.py:795-809 | the dictionary lookup finds the first entry whose key matches, and fails only when none matches |
| ValueProperties.ExecuteInFrame | eel/values.py:621-636 | a built-in runs in a new frame with its arguments bound, and no list changes before its body |
| ValueProperties.ArgumentsAreBound | eel/values.py:561-579 | in that frame each parameter names its argument |
| ValueProperties.LenCountsElements | eel/values.py:811-826 | LEN of a List is its element count, of a Dictionary its entry count |
| ValueProperties.AppendAddsAtEnd | eel/values.py:730-745 | LS_APPEND adds one element of the given value's class at the end of the shared storage, answers with Null, and leaves every other storage as it was |
| ValueProperties.AppendGrowsLenByOne | eel/values.py:730-745 | after LS_APPEND, LEN of the same List is one more |
| ValueProperties.ExtendJoinsStorage | eel/values.py:774-793 | LS_EXTEND appends the second List's elements to the first's storage, answers with Null, and leaves every other storage as it was |
| ValueProperties.ExtendAddsLengths | eel/values.py:774-793 | after LS_EXTEND, LEN of the first List is the sum of both lengths |
| ValueProperties.ListBuiltinsNeedAList | eel/values.py:730-793 | LS_APPEND, LS_POP and LS_EXTEND on a non-List first argument fail with the message naming the operation, e.g. "First argument of 'append' must be a list" |
| ValueProperties.PopAlwaysRaises | eel/values.py:747-772 | on a List and a Number, LS_POP always ends in an uncaught TypeError, because a Number object is passed to `list.pop` |
| ValueProperties.TypeTestsAnswerBooleans | eel/values.py:714-728 | the IS_ built-ins answer with a Boolean saying whether the argument has that type |
| ValueProperties.LookupByKind | eel/values.py:795-809 | two keys of the same kind and printed text look up the same entry |
| ValueProperties.DictGetReturnsFirstMatch | eel/values.py:795-809 | DICT_GET answers with the value of the first matching entry, and fails "Key '...' is not in dictionary" when there is none |
| ValueProperties.PresentKeyAppends | eel/interpreter.py:46-58 | a present key is taken to be a distinct object, so storing it always adds an entry at the end |
| ValueProperties.AbsentKeyIsUnique | eel/interpreter.py:46-58 | the absent key occurs at most once: storing it again replaces the old value |
| Interpreter.OpOf | eel/interpreter.py:60-118 | among keyword tokens only AND, OR and XOR select a value method, and the logical methods are selected exactly by keywords; OperatorTokensAreDistinct states that the token-to-method mapping is one-to-one |
| Interpreter.VisitNumber | eel/interpreter.py:23-26 | a number literal settles on one signal |
| Interpreter.VisitString | eel/interpreter.py:28-31 | a string literal settles on one signal |
| Interpreter.VisitVarAccess | eel/interpreter.py:143-161 | a variable access settles on one signal |
| Interpreter.VisitFuncDef | eel/interpreter.py:275-286 | a function definition settles on one signal |
| Interpreter.ApplyBinOp | eel/interpreter.py:60-118 | applying an operator to visited operands settles on one signal |
| Interpreter.ApplyUnary | eel/interpreter.py:120-141 | a unary operator settles on one signal |
| Interpreter.LoopResult | eel/interpreter.py:236-243 | a finished loop settles on one signal |
| Interpreter.Eval | eel/interpreter.py:15-339 | every visit that finishes carries exactly one signal |
| Interpreter.EvalMany | eel/interpreter.py:33-44 | visiting a node list either yields one value per node after those already held, or stops on a signal that must be returned |
| Interpreter.EvalItems | eel/interpreter.py:46-58 | visiting dictionary items yields entries, or stops on a signal that must be returned |
| Interpreter.EvalBinOp | eel/interpreter.py:60-118 | a binary operation settles on one signal |
| Interpreter.EvalUnary | eel/interpreter.py:120-141 | a unary operation settles on one signal |
| Interpreter.EvalVarAssign | eel/interpreter.py:163-171 | an assignment settles on one signal |
| Interpreter.EvalIf | eel/interpreter.py:173-194 | an IF settles on one signal |
| Interpreter.EvalFor | eel/interpreter.py:196-243 | a FOR settles on one signal |
| Interpreter.EvalForStep | eel/interpreter.py:208-243 | a FOR with its bounds visited settles on one signal |
| Interpreter.ForLoop | eel/interpreter.py:217-243 | the FOR loop settles on one signal |
| Interpreter.WhileLoop | eel/interpreter.py:245-273 | the WHILE loop settles on one signal |
| Interpreter.EvalCall | eel/interpreter.py:288-321 | a call settles on one signal |
| Interpreter.Execute | eel/values.py:592-636 | executing a function settles on one signal |
| Interpreter.EvalReturn | eel/interpreter.py:323-333 | a RETURN settles on one signal |
| InterpreterProperties.SignalHasNoValue | eel/base.py:313-372 | a settled signal that must be returned carries no value and is handed back unchanged |
| InterpreterProperties.IntegerLiteral | eel/interpreter.py:23-26 | an integer literal evaluates to itself at its own span in the current context, heap unchanged |
| InterpreterProperties.OperatorTokensAreDistinct | eel/interpreter.py:60-118 | two tokens that select the same operator have the same kind, and the logical ones are exactly the keywords |
| InterpreterProperties.BinOpVisitsBothOperands | eel/interpreter.py:60-63 | both operands are visited before any signal is looked at, so a failed left operand ends in Python's AttributeError on the missing value instead of its error |
| InterpreterProperties.BinOpAppliesMethod | eel/interpreter.py:60-118 | once the left operand has a value, the operator's value method is called with whatever the right operand holds: a value it makes is the result moved to the node's span, an error it reports is the node's failure, and the heap is the one the method leaves; a token selecting no method ends in Python's AttributeError |
| InterpreterProperties.ListPlusSwallowsRightError | eel/interpreter.py:60-69 | an error in the right operand is dropped when the left is a List, which appends None |
| InterpreterProperties.UnaryMinusMultipliesByMinusOne | eel/interpreter.py:120-141 | unary minus multiplies by a fresh `Number(-1)`: it negates a number, empties a String, gives a List moved to the node's span over the same storage in the same heap (repeating `-2` times adds nothing), and is illegal over the operand's start on Null, Dictionary, Function and built-in values |
| InterpreterProperties.NotNegatesTruth | eel/interpreter.py:120-141 | NOT yields whether a number is 0 and fails on other classes; unary plus yields the operand at the node's span |
| InterpreterProperties.ManyStopsAtFirstSignal | eel/interpreter.py:33-44 | list elements are visited in order, and the first that must return stops the visit with its signal |
| InterpreterProperties.ManySplits | eel/interpreter.py:37-40 | visiting a node list is visiting a prefix and then, from the heap and values it left, the rest; a prefix that stopped or crashed is the whole outcome |
| InterpreterProperties.ManyStopsAtIndex | eel/interpreter.py:37-40 | when the nodes before index `k` ran through and node `k` must return, the visit ends with node `k`'s signal and heap, and the later nodes are never visited |
| InterpreterProperties.ListLiteralAllocates | eel/interpreter.py:33-44 | a list literal whose elements ran through is the next new storage after those they made, holding in slot `i` the value of the `i`-th element, at the literal's span; an element's signal is the literal's result |
| InterpreterProperties.FailedKeyIsStoredAbsent | eel/interpreter.py:46-58 | a dictionary item whose key fails is still stored, under the absent key |
| InterpreterProperties.EmptyDictionaryCannotBeCopied | eel/interpreter.py:46-58 | an empty dictionary literal has no items, so copying it later crashes |
| InterpreterProperties.AccessYieldsBinding | eel/interpreter.py:143-161 | reading a variable yields a copy of its binding at the access span in the reader's context, and crashes only on the empty dictionary |
| InterpreterProperties.GrandparentBindingIsNotDefined | eel/interpreter.py:143-152 | a name bound only in the grandparent's table fails "is not defined" |
| InterpreterProperties.AssignThenAccess | eel/interpreter.py:143-171 | after an assignment succeeds, reading the name gives the assigned value |
| InterpreterProperties.DefinitionBindsNamedFunctions | eel/interpreter.py:275-286 | a definition yields a Function closing over the current context, bound under its name when it has one |
| InterpreterProperties.NoTrueCaseYieldsNull | eel/interpreter.py:173-194 | example: when every condition is the literal 0 and there is no ELSE, an IF yields Null |
| InterpreterProperties.StartlessErrorCannotBeShown | eel/interpreter.py:120-141 | `-(IF 0 THEN 1)` and `NOT (IF 0 THEN 1)` fail with an Illegal Operation that has no start, no end and no context, and rendering that error raises AttributeError instead of printing it (eel/main.py:64-66, eel/errors.py:51-55) |
| InterpreterProperties.FirstTrueCaseDecides | eel/interpreter.py:173-194 | example: a first condition that is a non-zero literal decides; later cases and the ELSE are not visited |
| InterpreterProperties.NoCaseHoldsFallsThrough | eel/interpreter.py:176-194 | when every condition, visited in turn, yields a value that is not true, the IF is its ELSE branch run in the heap the conditions left, and without ELSE it yields Null in that heap |
| InterpreterProperties.TrueCaseDecides | eel/interpreter.py:176-185 | when the first condition yields a true value, the IF does not depend on later cases or the ELSE: the branch body runs in the heap the condition left, its crash or signal is the IF's, and otherwise its value (Null in the block form) is |
| InterpreterProperties.StepDefaultsToOne | eel/interpreter.py:208-213 | without a STEP the step is 1 |
| InterpreterProperties.ZeroStepNeverRuns | eel/interpreter.py:217-222 | with step 0 the body never runs |
| InterpreterProperties.LoopStopsAtEnd | eel/interpreter.py:217-243 | a positive step runs while `i < end`, a negative one while `i > end` |
| InterpreterProperties.ForLoopShape | eel/interpreter.py:224-243 | a finished FOR yields Null in block form, else a new List of the collected values |
| InterpreterProperties.WhileLoopShape | eel/interpreter.py:245-273 | a finished WHILE yields Null in block form, else a new List of the collected values |
| InterpreterProperties.PassesCoverTheRange | eel/interpreter.py:217-243 | the pass count is the length of Python's `range(a, b, step)` |
| InterpreterProperties.ForCollectsOnePerPass | eel/interpreter.py:224-243 | a FOR whose body is an integer literal collects one copy per pass of the range |
| InterpreterProperties.ForPass | eel/interpreter.py:224-238 | in one FOR pass with the variable bound to the counter: a CONTINUE goes to the next counter without collecting, a BREAK ends the loop with the values collected before this pass, a RETURN or error is the loop's result, and a plain value is collected before the next counter |
| InterpreterProperties.ContinueAlwaysCollectsNothing | eel/interpreter.py:224-243 | a FOR whose body always CONTINUEs runs its whole range and collects nothing: its List is new storage holding only what was collected before, and the block form yields Null |
| InterpreterProperties.BreakAlwaysEndsFirstPass | eel/interpreter.py:224-243 | a FOR whose body always BREAKs ends in its first pass with nothing collected, in the heap where the variable holds the start value; a range that is already empty never runs |
| InterpreterProperties.WhilePass | eel/interpreter.py:249-268 | in one WHILE pass after a true condition: a BREAK ends the loop with the values collected before, a RETURN or error is the loop's result, a CONTINUE goes round again without collecting, and a plain value is collected before going round |
| InterpreterProperties.ContinueForeverRunsOut | eel/interpreter.py:249-263 | a WHILE whose condition always holds and whose body always CONTINUEs never finishes; the model runs out of fuel |
| InterpreterProperties.FalseWhileCollectsNothing | eel/interpreter.py:245-273 | a WHILE whose condition is 0 never runs its body and yields an empty List or Null |
| InterpreterProperties.ReturnCarriesValue | eel/interpreter.py:323-333 | RETURN without an expression returns Null; with one whose visit succeeds, it returns that value as a return signal |
| InterpreterProperties.CallResultRule | eel/values.py:592-608 | a returned value wins; an error, CONTINUE or BREAK is passed on; otherwise the result is the body's value under auto-return, else Null |
| InterpreterProperties.ArityFailureSkipsBody | eel/values.py:592-608 | with the wrong number of arguments the arity error is the result and the body is not run; a non-function value has no `execute` |

## Left out

- Floating point is not modelled. Float literals, float division (`/`), `^` with a negative exponent and the printed text of floats are parameters of the model (`Host`), so no property depends on them.
- Built-ins with I/O are left out: `PRINT`, `INPUT`, `INPUT_INT`, `INPUT_FLOAT`, `CLEAR` and `RUN`. So are the module bridge (`module_utils.py`, the `Libs` directory), `visit_ImportNode`, `EelFunction` and `EelVariable`. A call to any of these is the `NotModelled` crash.
- `ClassDef` and `ClassInstance` are left out; the parser in this core never builds them.
- `Error.alert`, the host's terminal colouring and `string_with_arrows` are left out. The caret excerpt is a parameter (`Arrows`).
- Node positions are modelled as the start and end a node is built with. The node classes' own derived spans are not modelled.
- The global symbol table that `main.py` sets up is not modelled; the evaluator takes any context.
- Python object identity is modelled for lists (shared storage) and tables only. `set_pos` and `set_context` return new values instead of mutating the receiver.
- A FOR whose start value is a Boolean: the first pass binds `Number(True)`, whose printed text is `True`. The model binds `Number(1)`.
- `populate_args` prints debugging output; that output is left out.
- Evaluation takes a `fuel` bound. A WHILE loop or a recursion deeper than the fuel ends in the `OutOfFuel` crash instead of running on.
- The model follows the code where it departs from the language's documented behaviour:
  - only a Number left operand checks for division by zero;
  - a Function's context is replaced by the reader's on every variable read, so a call frame's parent is the caller's context;
  - `get` looks at the own table and the parent only;
  - on a List and a Number, `LS_POP` always raises a TypeError (a non-List first or non-Number second argument is reported as a runtime error instead);
  - `0 ^ negative` ends in Python's uncaught ZeroDivisionError (the `ZeroDivision` crash), while any other base with a negative exponent goes to the host's float power.
- Parser.Statements: states only that the rule moves forward and yields a node on success; the trees built for particular inputs are stated by the lemmas of `ParserProperties`.
- Parser.Statement: states only that the rule moves forward and yields a node on success; the trees built for particular inputs are stated by the lemmas of `ParserProperties`.
- Parser.Expr: states only that the rule moves forward and yields a node on success; the trees built for particular inputs are stated by the lemmas of `ParserProperties`.
- Parser.CompExpr: states only that the rule moves forward and yields a node on success; the trees built for particular inputs are stated by the lemmas of `ParserProperties`.
- Parser.ArithExpr: states only that the rule moves forward and yields a node on success; the trees built for particular inputs are stated by the lemmas of `ParserProperties`.
- Parser.Term: states only that the rule moves forward and yields a node on success; the trees built for particular inputs are stated by the lemmas of `ParserProperties`.
- Parser.Factor: states only that the rule moves forward and yields a node on success; the trees built for particular inputs are stated by the lemmas of `ParserProperties`.
- Parser.Power: states only that the rule moves forward and yields a node on success; the trees built for particular inputs are stated by the lemmas of `ParserProperties`.
- Parser.Operand: states only that the rule moves forward and yields a node on success; the trees built for particular inputs are stated by the lemmas of `ParserProperties`.
- Parser.BinOp: states only that the rule moves forward and yields a node on success; the trees built for particular inputs are stated by the lemmas of `ParserProperties`.
- Parser.Call: states only that the rule moves forward and yields a node on success; the trees built for particular inputs are stated by the lemmas of `ParserProperties`.
- Parser.Atom: states only that the rule moves forward and yields a node on success; the trees built for particular inputs are stated by the lemmas of `ParserProperties`.
- Parser.CompoundAtom: states only that the rule moves forward and yields a node on success; the trees built for particular inputs are stated by the lemmas of `ParserProperties`.
- Parser.NameAtom: states only that the rule moves forward and yields a node on success; the trees built for particular inputs are stated by the lemmas of `ParserProperties`.
- Parser.ParenAtom: states only that the rule moves forward and yields a node on success; the trees built for particular inputs are stated by the lemmas of `ParserProperties`.
- Parser.ListExpr: states only that the rule moves forward and yields a node on success; the trees built for particular inputs are stated by the lemmas of `ParserProperties`.
- Parser.DictExpr: states only that the rule moves forward and yields a node on success; the trees built for particular inputs are stated by the lemmas of `ParserProperties`.
- Parser.IfExpr: states only that the rule moves forward and yields a node on success; the trees built for particular inputs are stated by the lemmas of `ParserProperties`.
- Parser.IfElif: states only that the rule moves forward and yields a node on success; the trees built for particular inputs are stated by the lemmas of `ParserProperties`.
- Parser.IfElse: states only that the rule moves forward and yields a node on success; the trees built for particular inputs are stated by the lemmas of `ParserProperties`.
- Parser.IfElifOrElse: states only that the rule moves forward and yields a node on success; the trees built for particular inputs are stated by the lemmas of `ParserProperties`.
- Parser.IfCases: states only that the rule moves forward and yields a node on success; the trees built for particular inputs are stated by the lemmas of `ParserProperties`.
- Parser.LoopBody: its own contract states only that it moves forward and yields a body on success; the two forms are stated by `ParserProperties.LoopBodyForms`.
- Parser.ForExpr: its own contract states only that it moves forward and yields a node on success; the node's parts after the start value are stated by `ParserProperties.ForTakesLoopBody`.
- Parser.ForTail: its own contract states only that it moves forward and yields a node on success; the node's parts are stated by `ParserProperties.ForTakesLoopBody`.
- Parser.WhileExpr: its own contract states only that it moves forward and yields a node on success; the node's parts are stated by `ParserProperties.WhileTakesLoopBody`.
- Parser.FuncDef: its own contract states only that it moves forward and yields a node on success; the two body forms are stated by `ParserProperties.FuncBodyForms`, the parameter list by nothing beyond its token kinds.
- Parser.FuncBody: its own contract states only that it moves forward and yields a node on success; the two forms are stated by `ParserProperties.FuncBodyForms`.
- Interpreter.VisitNumber: states only that the result carries exactly one signal; the values computed are stated by the lemmas of `InterpreterProperties`.
- Interpreter.VisitString: states only that the result carries exactly one signal; the values computed are stated by the lemmas of `InterpreterProperties`.
- Interpreter.VisitVarAccess: states only that the result carries exactly one signal; the values computed are stated by the lemmas of `InterpreterProperties`.
- Interpreter.VisitFuncDef: states only that the result carries exactly one signal; the values computed are stated by the lemmas of `InterpreterProperties`.
- Interpreter.ApplyBinOp: its own contract states only that the result carries exactly one signal; what the operator computes is stated by `InterpreterProperties.BinOpAppliesMethod`.
- Interpreter.ApplyUnary: states only that the result carries exactly one signal; the values computed are stated by the lemmas of `InterpreterProperties`.
- Interpreter.LoopResult: states only that the result carries exactly one signal; the values computed are stated by the lemmas of `InterpreterProperties`.
- Interpreter.Eval: states only that the result carries exactly one signal; the values computed are stated by the lemmas of `InterpreterProperties`.
- Interpreter.EvalItems: states only that the result carries exactly one signal; the values computed are stated by the lemmas of `InterpreterProperties`.
- Interpreter.EvalBinOp: its own contract states only that the result carries exactly one signal; the operand order and the method call are stated by `InterpreterProperties.BinOpVisitsBothOperands` and `InterpreterProperties.BinOpAppliesMethod`.
- Interpreter.EvalUnary: states only that the result carries exactly one signal; the values computed are stated by the lemmas of `InterpreterProperties`.
- Interpreter.EvalVarAssign: states only that the result carries exactly one signal; the values computed are stated by the lemmas of `InterpreterProperties`.
- Interpreter.EvalIf: its own contract states only that the result carries exactly one signal; which branch runs is stated by `InterpreterProperties.TrueCaseDecides` and `InterpreterProperties.NoCaseHoldsFallsThrough`.
- Interpreter.EvalFor: states only that the result carries exactly one signal; the values computed are stated by the lemmas of `InterpreterProperties`.
- Interpreter.EvalForStep: states only that the result carries exactly one signal; the values computed are stated by the lemmas of `InterpreterProperties`.
- Interpreter.ForLoop: its own contract states only that the result carries exactly one signal; each pass is stated by `InterpreterProperties.ForPass` and whole runs for particular bodies by the lemmas after it.
- Interpreter.WhileLoop: its own contract states only that the result carries exactly one signal; each pass is stated by `InterpreterProperties.WhilePass`.
- Interpreter.EvalCall: states only that the result carries exactly one signal; the values computed are stated by the lemmas of `InterpreterProperties`.
- Interpreter.Execute: states only that the result carries exactly one signal; the values computed are stated by the lemmas of `InterpreterProperties`.
- ValueProperties.PresentKeyAppends: takes every present key to be a distinct object. Python hashes value objects by identity, and `l ^ 0` hands back the stored element itself, so in `{l ^ 0: 1, l ^ 0 0: 2}` (the loop skips the token after a later key) both keys are one object and Python keeps one entry. The model keeps two, because value identity is not modelled.
- Interpreter.EvalReturn: states only that the result carries exactly one signal; the values computed are stated by the lemmas of `InterpreterProperties`.

=== FILE: ast.dfy ===
/** The syntax tree built by eel/parser.py and walked by eel/interpreter.py.

    eel/nodes.py is not part of this model. The node kinds and fields are
    those the parser passes to the node constructors and the interpreter
    reads back; the spans (`pos_start`/`pos_end`) follow the layout these
    constructors conventionally compute, written out in `Start` and `End`. */
module Ast {
  import opened Basics
  import opened Positions
  import opened Tokens

  datatype Node =
    | NumberNode(tok: Token)
    | StringNode(tok: Token)
    | ListNode(elements: seq<Node>, start: Position, end: Position)
    | DictNode(items: seq<DictItem>, start: Position, end: Position)
    | BinOpNode(left: Node, op: Token, right: Node)
    | UnaryOpNode(op: Token, operand: Node)
    | VarAccessNode(nameTok: Token)
    | VarAssignNode(nameTok: Token, valueNode: Node)
    | IfNode(cases: seq<IfCase>, elseCase: Option<ElseCase>)
    | ForNode(varTok: Token, startNode: Node, endNode: Node, stepNode: Option<Node>, body: Node, returnsNull: bool)
    | WhileNode(cond: Node, body: Node, returnsNull: bool)
    | FuncDefNode(funcName: Option<Token>, argToks: seq<Token>, body: Node, autoReturn: bool)
    | CallNode(callee: Node, args: seq<Node>)
    | ReturnNode(returned: Option<Node>, start: Position, end: Position)
    | ContinueNode(start: Position, end: Position)
    | BreakNode(start: Position, end: Position)
    | ImportNode(target: Option<Node>, start: Position, end: Position)

  /** One `key: value` entry of a dictionary literal, in source order. */
  datatype DictItem = DictItem(key: Node, value: Node)

  /** `(condition, body, should_return_null)` of an IF or ELIF branch. */
  datatype IfCase = IfCase(cond: Node, body: Node, returnsNull: bool)

  /** `(body, should_return_null)` of an ELSE branch. */
  datatype ElseCase = ElseCase(body: Node, returnsNull: bool)

  /** The text a name token carries. */
  function TokText(t: Token): string {
    if t.value.StrVal? then t.value.s else ""
  }

  function Start(n: Node): Position {
    match n
    case NumberNode(t) => t.start
    case StringNode(t) => t.start
    case ListNode(_, s, _) => s
    case DictNode(_, s, _) => s
    case BinOpNode(l, _, _) => Start(l)
    case UnaryOpNode(op, _) => op.start
    case VarAccessNode(t) => t.start
    case VarAssignNode(t, _) => t.start
    case IfNode(cases, _) => if |cases| > 0 then Start(cases[0].cond) else Position(0, 0, 0, "", "")
    case ForNode(t, _, _, _, _, _) => t.start
    case WhileNode(c, _, _) => Start(c)
    case FuncDefNode(name, args, body, _) =>
      if name.Some? then name.value.start else if |args| > 0 then args[0].start else Start(body)
    case CallNode(c, _) => Start(c)
    case ReturnNode(_, s, _) => s
    case ContinueNode(s, _) => s
    case BreakNode(s, _) => s
    case ImportNode(_, s, _) => s
  }

  function End(n: Node): Position {
    match n
    case NumberNode(t) => t.end
    case StringNode(t) => t.end
    case ListNode(_, _, e) => e
    case DictNode(_, _, e) => e
    case BinOpNode(_, _, r) => End(r)
    case UnaryOpNode(_, x) => End(x)
    case VarAccessNode(t) => t.end
    case VarAssignNode(_, v) => End(v)
    case IfNode(cases, els) =>
      // The last condition, not the last body, closes an IF without ELSE.
      if els.Some? then End(els.value.body)
      else if |cases| > 0 then End(cases[|cases| - 1].cond) else Position(0, 0, 0, "", "")
    case ForNode(_, _, _, _, body, _) => End(body)
    case WhileNode(_, body, _) => End(body)
    case FuncDefNode(_, _, body, _) => End(body)
    case CallNode(c, args) => if |args| > 0 then End(args[|args| - 1]) else End(c)
    case ReturnNode(_, _, e) => e
    case ContinueNode(_, e) => e
    case BreakNode(_, e) => e
    case ImportNode(_, _, e) => e
  }
}

=== FILE: basics.dfy ===
/** Small shared vocabulary: an optional value, and the decimal text and
    character arithmetic the lexer and the diagnostics rely on. */
module Basics {

  /** Python's `None` or a present value. */
  datatype Option<+T> = None | Some(value: T)

  predicate IsDigit(c: char) {
    '0' <= c <= '9'
  }

  predicate IsAsciiLetter(c: char) {
    ('a' <= c <= 'z') || ('A' <= c <= 'Z')
  }

  function DigitValue(c: char): nat
    requires IsDigit(c)
  {
    (c as int - '0' as int) as nat
  }

  function DigitChar(d: nat): (c: char)
    requires d < 10
    ensures IsDigit(c) && DigitValue(c) == d
  {
    ('0' as int + d) as char
  }

  /** The value of a run of decimal digits, as Python's `int(s)` computes it. */
  function DecimalValue(s: string): nat
    requires forall i :: 0 <= i < |s| ==> IsDigit(s[i])
  {
    if |s| == 0 then 0 else DecimalValue(s[..|s| - 1]) * 10 + DigitValue(s[|s| - 1])
  }

  /** Decimal text of a natural number, as Python's `str(n)` writes it. */
  function NatToString(n: nat): (s: string)
    ensures |s| > 0
    ensures forall i :: 0 <= i < |s| ==> IsDigit(s[i])
  {
    if n < 10 then [DigitChar(n)] else NatToString(n / 10) + [DigitChar(n % 10)]
  }

  /** Decimal text of any integer, with a leading '-' when negative. */
  function IntToString(n: int): string {
    if n < 0 then "-" + NatToString(-n) else NatToString(n)
  }

  /** Reading back the decimal text of a number gives the number. */
  lemma {:induction false} DecimalRoundTrip(n: nat)
    ensures DecimalValue(NatToString(n)) == n
  {
    if n >= 10 {
      var s := NatToString(n);
      assert s[..|s| - 1] == NatToString(n / 10);
      DecimalRoundTrip(n / 10);
    }
  }

  /** Text of the shape `str` gives an integer: an optional '-' followed by
      at least one digit. */
  predicate IsIntText(s: string) {
    |s| > 0 && (forall i | 1 <= i < |s| :: IsDigit(s[i])) &&
    (if s[0] == '-' then |s| > 1 else IsDigit(s[0]))
  }

  /** Python's `int(s)` on such text. */
  function SignedValue(s: string): int
    requires IsIntText(s)
  {
    if s[0] == '-' then -(DecimalValue(s[1..]) as int) else DecimalValue(s)
  }

  /** Reading back the decimal text of any integer gives the integer, and
      the text starts with '-' exactly when the integer is negative. */
  lemma IntegerRoundTrip(n: int)
    ensures IsIntText(IntToString(n))
    ensures IntToString(n)[0] == '-' <==> n < 0
    ensures SignedValue(IntToString(n)) == n
  {
    var s := IntToString(n);
    if n < 0 {
      assert s[1..] == NatToString(-n);
      DecimalRoundTrip(-n);
    } else {
      DecimalRoundTrip(n);
    }
  }

  /** Python's `s * n` on a string: `n` copies, none when `n <= 0`. */
  function Repeat(s: string, n: int): (r: string)
    ensures |r| == if n <= 0 then 0 else |s| * n
    decreases if n <= 0 then 0 else n
  {
    if n <= 0 then "" else s + Repeat(s, n - 1)
  }

  /** Python's `sum(ord(c) for c in s)`. */
  function OrdSum(s: string): nat {
    if |s| == 0 then 0 else OrdSum(s[..|s| - 1]) + s[|s| - 1] as nat
  }

  /** Python's `a // b` on integers: the quotient rounded towards minus
      infinity. */
  function PyFloorDiv(a: int, b: int): int
    requires b != 0
  {
    if b > 0 || a % b == 0 then a / b else a / b - 1
  }

  /** Python's `a % b` on integers: floored division, so the remainder takes
      the sign of the divisor. */
  function PyMod(a: int, b: int): (r: int)
    requires b != 0
    ensures b > 0 ==> 0 <= r < b
    ensures b < 0 ==> b < r <= 0
    ensures a == b * PyFloorDiv(a, b) + r
  {
    assert a == b * (a / b) + a % b;
    if b > 0 || a % b == 0 then a % b
    else
      assert b * (a / b - 1) == b * (a / b) - b;
      a % b + b
  }

  /** Python's `<` on strings: lexicographic by code point. */
  predicate StrLess(a: string, b: string)
    decreases |a|
  {
    if |a| == 0 then |b| > 0
    else if |b| == 0 then false
    else if a[0] != b[0] then a[0] < b[0]
    else StrLess(a[1..], b[1..])
  }

  /** Python's string order is strict: no string is less than itself, and of
      two different strings exactly one is the smaller. */
  lemma {:induction false} StrLessStrictTotal(a: string, b: string)
    ensures !StrLess(a, a)
    ensures a != b ==> (StrLess(a, b) <==> !StrLess(b, a))
    decreases |a|
  {
    if |a| > 0 {
      StrLessStrictTotal(a[1..], a[1..]);
      if |b| > 0 && a[0] == b[0] {
        StrLessStrictTotal(a[1..], b[1..]);
        if a != b {
          assert a == [a[0]] + a[1..] && b == [b[0]] + b[1..];
        }
      }
    }
  }

  /** A prefix of a prefix. */
  lemma PrefixOfLonger<T>(a: seq<T>, b: seq<T>, r: seq<T>)
    requires |r| >= |a + b| && r[..|a + b|] == a + b
    ensures r[..|a|] == a
  {
    assert r[..|a|] == r[..|a + b|][..|a|];
  }
}

=== FILE: contexts.dfy ===
/** Call frames and symbol tables (eel/context.py).

    Symbol tables are shared and mutable in the source (a function frame's
    table points at its caller's live table), so they live in a store: a
    table is named by its index in a `seq<Table<V>>`. A Context never changes
    after it is built, so it is an ordinary value that names its table.
    Reading an index outside the store yields nothing and writing one changes
    nothing; the interpreter only ever names tables it has allocated. */
module Contexts {
  import opened Basics
  import opened Positions

  datatype Table<V> = Table(symbols: map<string, V>, parent: Option<nat>)

  /** `Context(display_name, parent, parent_entry_pos)` together with the
      table it owns. */
  datatype Ctx = Ctx(name: string, parent: Option<Ctx>, entryPos: Option<Position>, table: nat)

  /** `SymbolTable(parent)`: a fresh, empty table appended to the store. */
  function NewTable<V>(ts: seq<Table<V>>, parent: Option<nat>): (r: (seq<Table<V>>, nat))
    ensures r.1 == |ts| && |r.0| == |ts| + 1
    ensures r.0[..|ts|] == ts
    ensures r.0[r.1].symbols == map[] && r.0[r.1].parent == parent
  {
    (ts + [Table(map[], parent)], |ts|)
  }

  /** A table's own binding for `name`, if any. */
  function Local<V>(ts: seq<Table<V>>, t: nat, name: string): Option<V> {
    if t < |ts| && name in ts[t].symbols then Some(ts[t].symbols[name]) else None
  }

  /** `SymbolTable.get(name)`: the table's own binding, else the parent
      table's own binding. The lookup stops there: a grandparent is never
      consulted. */
  function Get<V>(ts: seq<Table<V>>, t: nat, name: string): Option<V> {
    if Local(ts, t, name).Some? then Local(ts, t, name)
    else if t < |ts| && ts[t].parent.Some? then Local(ts, ts[t].parent.value, name)
    else None
  }

  /** Independent reference: a lookup that follows the parent chain for at
      most `depth` tables. */
  function ChainLookup<V>(ts: seq<Table<V>>, t: nat, name: string, depth: nat): Option<V>
    decreases depth
  {
    if depth == 0 || t >= |ts| then None
    else if name in ts[t].symbols then Some(ts[t].symbols[name])
    else if ts[t].parent.Some? then ChainLookup(ts, ts[t].parent.value, name, depth - 1)
    else None
  }

  /** `get` is exactly a chain walk of depth two: the local table and its
      parent. */
  lemma GetIsTwoLevelWalk<V>(ts: seq<Table<V>>, t: nat, name: string)
    ensures Get(ts, t, name) == ChainLookup(ts, t, name, 2)
  {
  }

  /** A binding that only a grandparent holds is invisible to `get`, although
      a walk of the whole chain finds it. */
  lemma GrandparentIsNotConsulted<V>(ts: seq<Table<V>>, t: nat, name: string)
    requires t < |ts| && name !in ts[t].symbols
    requires ts[t].parent.Some? && ts[t].parent.value < |ts|
    requires var p := ts[t].parent.value;
             name !in ts[p].symbols && ts[p].parent.Some? && ts[p].parent.value < |ts|
    requires name in ts[ts[ts[t].parent.value].parent.value].symbols
    ensures Get(ts, t, name) == None
    ensures ChainLookup(ts, t, name, 3).Some?
  {
  }

  /** `SymbolTable.set(name, value)`: writes the table's own map only. */
  function Set<V>(ts: seq<Table<V>>, t: nat, name: string, v: V): (r: seq<Table<V>>)
    ensures |r| == |ts|
    ensures forall u | 0 <= u < |ts| && u != t :: r[u] == ts[u]
    ensures t < |ts| ==> r[t].parent == ts[t].parent
    ensures t < |ts| ==> Get(r, t, name) == Some(v)
    ensures t < |ts| ==> forall n | n != name :: Local(r, t, n) == Local(ts, t, n)
  {
    if t < |ts| then ts[t := Table(ts[t].symbols[name := v], ts[t].parent)] else ts
  }

  /** `SymbolTable.remove(name)`: deletes a local binding; Python raises
      KeyError (here: None) when the table has no such binding. */
  function Remove<V>(ts: seq<Table<V>>, t: nat, name: string): (r: Option<seq<Table<V>>>)
    ensures r.Some? <==> Local(ts, t, name).Some?
    ensures r.Some? ==> |r.value| == |ts| && Local(r.value, t, name).None?
    ensures r.Some? ==> forall u | 0 <= u < |ts| && u != t :: r.value[u] == ts[u]
    ensures r.Some? ==> forall n | n != name :: Local(r.value, t, n) == Local(ts, t, n)
  {
    if Local(ts, t, name).Some? then
      Some(ts[t := Table(ts[t].symbols - {name}, ts[t].parent)])
    else None
  }

  /** `SymbolTable.copy()`: a new, empty table whose parent is the original
      table itself, not a snapshot of it. */
  function Copy<V>(ts: seq<Table<V>>, t: nat): (r: (seq<Table<V>>, nat))
    ensures r.1 == |ts| && |r.0| == |ts| + 1 && r.0[..|ts|] == ts
    ensures r.0[r.1] == Table(map[], Some(t))
  {
    NewTable(ts, Some(t))
  }

  /** The copy is a live link: a binding made in the original table after the
      copy was taken is visible through the copy. */
  lemma CopyIsLive<V>(ts: seq<Table<V>>, t: nat, name: string, v: V)
    requires t < |ts|
    ensures var (ts1, c) := Copy(ts, t);
            Get(Set(ts1, t, name, v), c, name) == Some(v)
  {
  }

  /** `Context(display_name, parent, parent_entry_pos)`: its table starts
      empty and without a parent. */
  function NewContext<V>(ts: seq<Table<V>>, name: string, parent: Option<Ctx>, entry: Option<Position>)
    : (r: (seq<Table<V>>, Ctx))
    ensures r.1.name == name && r.1.parent == parent && r.1.entryPos == entry
    ensures r.1.table == |ts| && |r.0| == |ts| + 1 && r.0[..|ts|] == ts
    ensures r.0[r.1.table] == Table(map[], None)
  {
    var (ts1, t) := NewTable(ts, None);
    (ts1, Ctx(name, parent, entry, t))
  }
}

=== FILE: errors.dfy ===
/** Diagnostics (eel/errors.py): typed errors with a span, and their text.

    The caret excerpt comes from `string_with_arrows` in eel/utils.py, which
    is not part of this model; it is passed in as the function `arrows`. */
module Errors {
  import opened Basics
  import opened Positions
  import opened Contexts

  datatype ErrorKind = IllegalChar | InvalidSyntax | Runtime | ExpectedChar | Conversion

  /** An error. Runtime errors (and their subclasses ExpectedChar and
      Conversion) also carry the context they were raised in; the others have
      none. Spans are optional because values built by the interpreter for
      its own use (`Number(-1)`, a fresh `Null()`) have no position. */
  datatype Error = Error(kind: ErrorKind, details: string, start: Option<Position>,
                         end: Option<Position>, ctx: Option<Ctx>)

  type Arrows = (string, Position, Option<Position>) -> string

  /** The `error_name` each class sets. */
  function ErrorName(k: ErrorKind): string {
    match k
    case IllegalChar => "Illegal Character"
    case InvalidSyntax => "Invalid Syntax"
    case Runtime => "Runtime Error"
    case ExpectedChar => "Expected Char Error"
    case Conversion => "Conversion Error"
  }

  /** ExpectedCharError and ConversionError derive from RTError and render
      like it. */
  predicate IsRuntime(e: Error) {
    e.kind == Runtime || e.kind == ExpectedChar || e.kind == Conversion
  }

  function IllegalCharError(details: string, start: Position, end: Position): Error {
    Error(IllegalChar, details, Some(start), Some(end), None)
  }

  function InvalidSyntaxError(details: string, start: Position, end: Position): Error {
    Error(InvalidSyntax, details, Some(start), Some(end), None)
  }

  function RTError(details: string, start: Option<Position>, end: Option<Position>, ctx: Option<Ctx>): Error {
    Error(Runtime, details, start, end, ctx)
  }

  function ExpectedCharError(details: string, start: Position, end: Position): Error {
    Error(ExpectedChar, details, Some(start), Some(end), None)
  }

  /** The message line and file line shared by every rendering. */
  function Header(e: Error): string
    requires e.start.Some?
  {
    "ERROR: " + ErrorName(e.kind) + ": " + e.details
    + "\nFile: " + e.start.value.fn + ", line: " + IntToString(e.start.value.ln + 1)
  }

  /** Every rendering ends with a blank line and the caret excerpt. */
  predicate EndsWithExcerpt(t: string, excerpt: string) {
    |excerpt| + 2 <= |t| && t[|t| - |excerpt| - 2..] == "\n\n" + excerpt
  }

  lemma ExcerptEnds(head: string, excerpt: string)
    ensures EndsWithExcerpt(head + "\n\n" + excerpt, excerpt)
  {
    var t := head + "\n\n" + excerpt;
    assert t[|head|..] == "\n\n" + excerpt;
  }

  /** A prefix stays a prefix when more text is appended. */
  lemma PrefixKept(a: string, b: string, c: string)
    requires a <= b
    ensures a <= b + c
  {
    assert (b + c)[..|a|] == b[..|a|];
  }

  /** What rendering an error gives: its text, or the AttributeError Python
      raises when a position it reads is None. That happens for an error
      without a start (one raised on a fresh `Null()`), and for a traceback
      that reaches a context entered at no position. */
  datatype Rendering = Text(text: string) | PositionMissing

  /** `Error.as_string`: the message line, the file line with the 1-based
      line number, a blank line, then the caret excerpt; reading the file
      name of a missing start raises. */
  function BaseAsString(e: Error, arrows: Arrows): (r: Rendering)
    ensures r.PositionMissing? <==> e.start.None?
    ensures e.start.Some? ==>
            var p := e.start.value;
            r.text == "ERROR: " + ErrorName(e.kind) + ": " + e.details + "\nFile: " + p.fn
                      + ", line: " + IntToString(p.ln + 1) + "\n\n" + arrows(p.ftxt, p, e.end)
    ensures e.start.Some? ==> EndsWithExcerpt(r.text, arrows(e.start.value.ftxt, e.start.value, e.end))
    ensures e.start.Some? && e.start.value.ln >= 0 ==> DecimalValue(IntToString(e.start.value.ln + 1)) == e.start.value.ln + 1
  {
    if e.start.None? then PositionMissing
    else
      var excerpt := arrows(e.start.value.ftxt, e.start.value, e.end);
      ExcerptEnds(Header(e), excerpt);
      if e.start.value.ln >= 0 then PrintedLineNumber(e); Text(Header(e) + "\n\n" + excerpt)
      else Text(Header(e) + "\n\n" + excerpt)
  }

  /** Line numbers are printed 1-based: reading the printed number back gives
      the 0-based line plus one. */
  lemma PrintedLineNumber(e: Error)
    requires e.start.Some? && e.start.value.ln >= 0
    ensures DecimalValue(IntToString(e.start.value.ln + 1)) == e.start.value.ln + 1
  {
    DecimalRoundTrip(e.start.value.ln + 1);
  }

  /** The traceback is defined when every frame it walks has a position: the
      error's start for the innermost frame, each context's entry position
      for the frame around it. */
  predicate TraceDefined(pos: Option<Position>, ctx: Option<Ctx>)
    decreases ctx
  {
    ctx.None? || (pos.Some? && TraceDefined(ctx.value.entryPos, ctx.value.parent))
  }

  function FrameLine(pos: Position, name: string): string {
    "  File " + pos.fn + ", line " + IntToString(pos.ln + 1) + ", in " + name + "\n"
  }

  /** The `while ctx:` loop of `generate_traceback`: each step prepends the
      current frame's line, then moves to the parent context and to the
      position at which that context was entered. */
  function TracebackLoop(acc: string, pos: Option<Position>, ctx: Option<Ctx>): string
    requires TraceDefined(pos, ctx)
    decreases ctx
  {
    if ctx.None? then acc
    else TracebackLoop(FrameLine(pos.value, ctx.value.name) + acc, ctx.value.entryPos, ctx.value.parent)
  }

  const TracebackHeader := "Traceback (most recent call last):\n"

  /** `RTError.generate_traceback`. */
  function GenerateTraceback(e: Error): string
    requires TraceDefined(e.start, e.ctx)
  {
    TracebackHeader + TracebackLoop("", e.start, e.ctx)
  }

  /** Independent reference: the frames of the context chain, outermost
      first, each paired with the position shown for it. */
  function Frames(pos: Option<Position>, ctx: Option<Ctx>): seq<(Position, string)>
    requires TraceDefined(pos, ctx)
    decreases ctx
  {
    if ctx.None? then []
    else Frames(ctx.value.entryPos, ctx.value.parent) + [(pos.value, ctx.value.name)]
  }

  function Depth(ctx: Option<Ctx>): nat
    decreases ctx
  {
    if ctx.None? then 0 else 1 + Depth(ctx.value.parent)
  }

  function JoinFrames(fs: seq<(Position, string)>): string {
    if |fs| == 0 then "" else JoinFrames(fs[..|fs| - 1]) + FrameLine(fs[|fs| - 1].0, fs[|fs| - 1].1)
  }

  /** The loop's accumulator ends up holding the frames outermost first: it
      equals the joined lines of `Frames` followed by what it started with. */
  lemma {:induction false} TracebackLoopIsJoin(acc: string, pos: Option<Position>, ctx: Option<Ctx>)
    requires TraceDefined(pos, ctx)
    ensures TracebackLoop(acc, pos, ctx) == JoinFrames(Frames(pos, ctx)) + acc
    decreases ctx
  {
    if ctx.Some? {
      var c := ctx.value;
      TracebackLoopIsJoin(FrameLine(pos.value, c.name) + acc, c.entryPos, c.parent);
      var fs := Frames(c.entryPos, c.parent);
      var all := fs + [(pos.value, c.name)];
      assert all[..|all| - 1] == fs;
    }
  }

  /** One frame per context in the chain; the last line, the innermost frame,
      names the context the error was raised in at the error's own start,
      and the first line names the outermost context. */
  lemma {:induction false} FramesShape(pos: Option<Position>, ctx: Option<Ctx>)
    requires TraceDefined(pos, ctx)
    ensures |Frames(pos, ctx)| == Depth(ctx)
    ensures ctx.Some? ==> Frames(pos, ctx)[|Frames(pos, ctx)| - 1] == (pos.value, ctx.value.name)
    ensures ctx.Some? && ctx.value.parent.None? ==> Frames(pos, ctx) == [(pos.value, ctx.value.name)]
    decreases ctx
  {
    if ctx.Some? {
      FramesShape(ctx.value.entryPos, ctx.value.parent);
    }
  }

  /** The traceback is the header followed by one line per frame, outermost
      first. */
  lemma TracebackIsOutermostFirst(e: Error)
    requires TraceDefined(e.start, e.ctx)
    ensures GenerateTraceback(e) == TracebackHeader + JoinFrames(Frames(e.start, e.ctx))
    ensures |Frames(e.start, e.ctx)| == Depth(e.ctx)
  {
    TracebackLoopIsJoin("", e.start, e.ctx);
    FramesShape(e.start, e.ctx);
  }

  /** The text `RTError.as_string` builds when every position it reads is
      present. */
  function RTText(e: Error, arrows: Arrows): string
    requires e.start.Some? && TraceDefined(e.start, e.ctx)
  {
    GenerateTraceback(e) + ErrorName(e.kind) + ": " + e.details + "\n"
    + "\n" + arrows(e.start.value.ftxt, e.start.value, e.end)
  }

  lemma RTTextShape(e: Error, arrows: Arrows)
    requires e.start.Some? && TraceDefined(e.start, e.ctx)
    ensures RTText(e, arrows) == TracebackHeader + JoinFrames(Frames(e.start, e.ctx)) + ErrorName(e.kind) + ": "
                                 + e.details + "\n\n" + arrows(e.start.value.ftxt, e.start.value, e.end)
    ensures TracebackHeader <= RTText(e, arrows)
    ensures EndsWithExcerpt(RTText(e, arrows), arrows(e.start.value.ftxt, e.start.value, e.end))
  {
    TracebackIsOutermostFirst(e);
    var head := GenerateTraceback(e) + ErrorName(e.kind) + ": " + e.details;
    var excerpt := arrows(e.start.value.ftxt, e.start.value, e.end);
    assert RTText(e, arrows) == head + "\n\n" + excerpt by {
      assert head + "\n" + "\n" == head + "\n\n";
    }
    assert TracebackHeader <= head by {
      PrefixKept(TracebackHeader, TracebackHeader, TracebackLoop("", e.start, e.ctx));
      PrefixKept(TracebackHeader, GenerateTraceback(e), ErrorName(e.kind));
      PrefixKept(TracebackHeader, GenerateTraceback(e) + ErrorName(e.kind), ": ");
      PrefixKept(TracebackHeader, GenerateTraceback(e) + ErrorName(e.kind) + ": ", e.details);
    }
    PrefixKept(TracebackHeader, head, "\n\n");
    PrefixKept(TracebackHeader, head + "\n\n", excerpt);
    ExcerptEnds(head, excerpt);
  }

  /** `RTError.as_string`: traceback, then "name: details", a blank line and
      the excerpt. With no context the traceback is the header alone. It
      raises when the traceback walks onto a missing position, or when the
      excerpt reads the text of a missing start. */
  function RTAsString(e: Error, arrows: Arrows): (r: Rendering)
    ensures r.PositionMissing? <==> e.start.None? || !TraceDefined(e.start, e.ctx)
    ensures r.Text? ==>
            r.text == TracebackHeader + JoinFrames(Frames(e.start, e.ctx)) + ErrorName(e.kind) + ": "
                      + e.details + "\n\n" + arrows(e.start.value.ftxt, e.start.value, e.end)
    ensures r.Text? ==> |Frames(e.start, e.ctx)| == Depth(e.ctx)
    ensures r.Text? ==> TracebackHeader <= r.text
    ensures r.Text? ==> EndsWithExcerpt(r.text, arrows(e.start.value.ftxt, e.start.value, e.end))
    ensures r.Text? && e.ctx.None? ==>
            r.text == TracebackHeader + ErrorName(e.kind) + ": " + e.details + "\n\n"
                      + arrows(e.start.value.ftxt, e.start.value, e.end)
  {
    if e.start.None? || !TraceDefined(e.start, e.ctx) then PositionMissing
    else
      RTTextShape(e, arrows);
      FramesShape(e.start, e.ctx);
      Text(RTText(e, arrows))
  }

  /** `as_string` dispatched on the error's class. It raises exactly when a
      position it needs is missing; otherwise a runtime error starts with
      the traceback header, any other error with its "ERROR:" line, and
      both end with a blank line and the excerpt. */
  function AsString(e: Error, arrows: Arrows): (r: Rendering)
    ensures r.PositionMissing? <==> e.start.None? || (IsRuntime(e) && !TraceDefined(e.start, e.ctx))
    ensures r.Text? && IsRuntime(e) ==> TracebackHeader <= r.text
    ensures r.Text? && !IsRuntime(e) ==> "ERROR: " + ErrorName(e.kind) + ": " + e.details <= r.text
    ensures r.Text? ==> EndsWithExcerpt(r.text, arrows(e.start.value.ftxt, e.start.value, e.end))
  {
    if IsRuntime(e) then RTAsString(e, arrows) else BaseAsString(e, arrows)
  }
}

=== FILE: interpreter.dfy ===
/** The tree-walking evaluator (eel/interpreter.py) together with
    `Function.execute` (eel/values.py), which calls back into it.

    `visit` dispatches on the node kind; each `visit_*` is a function from the
    heap and the current context to a result signal and the new heap, or a
    halt where Python would raise. WHILE need not terminate, so evaluation
    takes fuel and halts with `OutOfFuel` when it runs out. Importing is not
    part of this model: `ImportNode` halts with `NotModelled`. */
module Interpreter {
  import opened Basics
  import opened Tokens
  import opened Contexts
  import opened Errors
  import opened Signals
  import opened Ast
  import opened Values

  /** What evaluating a node leaves behind. */
  datatype Ran = Ran(res: RTResult<Value>, heap: Heap)

  /** The results of a run of sub-evaluations, or the signal that cut it
      short. */
  datatype Many<T> = Values(vs: seq<T>, heap: Heap) | Stopped(sig: RTResult<Value>, heap: Heap)

  /** Every result a visit hands back carries exactly one signal. */
  predicate Settled(o: Outcome<Ran>) {
    o.Ok? ==> SetCount(o.val.res) == 1
  }

  predicate SettledMany<T>(o: Outcome<Many<T>>) {
    o.Ok? && o.val.Stopped? ==> SetCount(o.val.sig) == 1 && ShouldReturn(o.val.sig)
  }

  /** The value method `visit_BinOpNode` calls for an operator token. Only
      the keywords AND, OR and XOR select one among the keywords, and they
      select exactly the logical methods. */
  function OpOf(t: Token): (r: Option<Op>)
    ensures t.kind == KEYWORD ==> (r.Some? <==> t.value in {StrVal("AND"), StrVal("OR"), StrVal("XOR")})
    ensures r.Some? ==> (r.value in {And, Or, Xor} <==> t.kind == KEYWORD)
  {
    match t.kind
    case PLUS => Some(Add)
    case MINUS => Some(Sub)
    case MUL => Some(Mul)
    case DIV => Some(Div)
    case MOD => Some(Mod)
    case POW => Some(Pow)
    case EE => Some(Eq)
    case NE => Some(Ne)
    case LT => Some(Lt)
    case GT => Some(Gt)
    case LTE => Some(Lte)
    case GTE => Some(Gte)
    case KEYWORD =>
      if t.value == StrVal("AND") then Some(And)
      else if t.value == StrVal("OR") then Some(Or)
      else if t.value == StrVal("XOR") then Some(Xor)
      else None
    case _ => None
  }

  /** The node's own span, as `set_pos(node.pos_start, node.pos_end)` gives it. */
  function Spanned(v: Value, n: Node): Value {
    At(v, Some(Start(n)), Some(End(n)))
  }

  // ---------------------------------------------------------------------
  // Visits that do not evaluate sub-nodes

  function VisitNumber(host: Host, h: Heap, n: Node, ctx: Ctx): (o: Outcome<Ran>)
    requires n.NumberNode?
    ensures Settled(o)
  {
    match n.tok.value
    case IntVal(i) => Ok(Ran(Success(Spanned(Value(Number(i), None, None, Some(ctx)), n)), h))
    case FloatVal(text) => Ok(Ran(Success(Spanned(Value(Number(host.floatLit(text)), None, None, Some(ctx)), n)), h))
    // The parser builds number nodes from INT and FLOAT tokens only.
    case _ => Crash(NotModelled)
  }

  function VisitString(h: Heap, n: Node, ctx: Ctx): (o: Outcome<Ran>)
    requires n.StringNode?
    ensures Settled(o)
  {
    if n.tok.value.StrVal? then Ok(Ran(Success(Spanned(Value(Str(n.tok.value.s), None, None, Some(ctx)), n)), h))
    else Crash(NotModelled)
  }

  /** `visit_VarAccessNode`: a copy of the binding, moved to the access site
      and re-homed to the reader's context. */
  function VisitVarAccess(h: Heap, n: Node, ctx: Ctx): (o: Outcome<Ran>)
    requires n.VarAccessNode?
    ensures Settled(o)
  {
    var name := TokText(n.nameTok);
    match Get(h.tables, ctx.table, name)
    case None => Ok(Ran(Failure(RTError("'" + name + "' is not defined", Some(Start(n)), Some(End(n)), Some(ctx))), h))
    case Some(v) =>
      match CopyOf(v)
      case Crash(why) => Crash(why)
      case Ok(c) => Ok(Ran(Success(Spanned(c, n).(ctx := Some(ctx))), h))
  }

  /** `visit_FuncDefNode`: a Function closing over the current context,
      bound in the current table when it has a name. */
  function VisitFuncDef(h: Heap, n: Node, ctx: Ctx): (o: Outcome<Ran>)
    requires n.FuncDefNode?
    ensures Settled(o)
  {
    var given := if n.funcName.Some? then TokText(n.funcName.value) else "";
    var params := seq(|n.argToks|, i requires 0 <= i < |n.argToks| => TokText(n.argToks[i]));
    var f := Spanned(Value(Function(if given == "" then "<anonymous>" else given, n.body, params, n.autoReturn),
                           None, None, Some(ctx)), n);
    if n.funcName.Some? then Ok(Ran(Success(f), h.(tables := Set(h.tables, ctx.table, given, f))))
    else Ok(Ran(Success(f), h))
  }

  /** `visit_BinOpNode` after both operands were visited: the operator's
      method on the left operand's value (Python raises on `None`), an error
      as the node's failure, a result moved to the node's span. */
  function ApplyBinOp(host: Host, h: Heap, n: Node, l: Option<Value>, r: Option<Value>): (o: Outcome<Ran>)
    requires n.BinOpNode?
    ensures Settled(o)
  {
    var op := OpOf(n.op);
    if l.None? || op.None? then Crash(AttributeError)
    else
      match Binary(host, op.value, h, l.value, r)
      case Crash(why) => Crash(why)
      case Ok((h1, Failed(e))) => Ok(Ran(Failure(e), h1))
      case Ok((h1, Made(v))) => Ok(Ran(Success(Spanned(v, n)), h1))
  }

  /** `visit_UnaryOpNode` after the operand was visited: minus multiplies by
      a fresh `Number(-1)`, NOT calls `notted`, any other operator leaves the
      value as it is. */
  function ApplyUnary(host: Host, h: Heap, n: Node, v: Value): (o: Outcome<Ran>)
    requires n.UnaryOpNode?
    ensures Settled(o)
  {
    var applied :=
      if n.op.kind == MINUS then Binary(host, Mul, h, v, Some(New(Number(-1))))
      else if IsKeywordTok(n.op, "NOT") then Ok((h, Notted(v)))
      else Ok((h, Made(v)));
    match applied
    case Crash(why) => Crash(why)
    case Ok((h1, Failed(e))) => Ok(Ran(Failure(e), h1))
    case Ok((h1, Made(x))) => Ok(Ran(Success(Spanned(x, n)), h1))
  }

  /** The value of a FOR or WHILE: Null for the block form, otherwise a new
      List of the collected values at the node's span. */
  function LoopResult(h: Heap, n: Node, ctx: Ctx, returnsNull: bool, acc: seq<Option<Value>>): (o: Outcome<Ran>)
    ensures Settled(o)
  {
    if returnsNull then Ok(Ran(Success(New(Null)), h))
    else
      var (h1, ref) := Alloc(h, acc);
      Ok(Ran(Success(Spanned(Value(List(ref), None, None, Some(ctx)), n)), h1))
  }

  /** Python's `a < b` on the payloads a FOR compares. */
  function PyLess(a: Py, b: Py): Outcome<bool> {
    if a.PyInt? && b.PyInt? then Ok(a.i < b.i)
    else if a.PyStr? && b.PyStr? then Ok(StrLess(a.s, b.s))
    else Crash(TypeError)
  }

  /** The FOR loop's condition: `i < end` for a positive step, `i > end` for
      a negative one, never for a zero step (and then the end value is not
      read at all). */
  function ForCondition(i: Py, end: Value, step: int): Outcome<bool> {
    if step == 0 then Ok(false)
    else if PyValue(end.kind).None? then Crash(AttributeError)
    else if step > 0 then PyLess(i, PyValue(end.kind).value)
    else PyLess(PyValue(end.kind).value, i)
  }

  /** `(value if should_auto_return else None) or func_return_value or Null()`:
      every value object is truthy, so only absence falls through. */
  function ReturnedValue(autoReturn: bool, r: RTResult<Value>): Value {
    if autoReturn && r.value.Some? then r.value.value
    else if r.funcReturn.Some? then r.funcReturn.value
    else New(Null)
  }

  // ---------------------------------------------------------------------
  // The evaluator

  /** `visit(node, context)`. */
  function Eval(host: Host, fuel: nat, h: Heap, n: Node, ctx: Ctx): (o: Outcome<Ran>)
    ensures Settled(o)
    decreases fuel, 0, 0
  {
    if fuel == 0 then Crash(OutOfFuel)
    else
      match n
      case NumberNode(_) => VisitNumber(host, h, n, ctx)
      case StringNode(_) => VisitString(h, n, ctx)
      case ListNode(elements, _, _) =>
        (match EvalMany(host, fuel - 1, h, elements, ctx, [])
         case Crash(why) => Crash(why)
         case Ok(Stopped(sig, h1)) => Ok(Ran(sig, h1))
         case Ok(Values(vs, h1)) =>
           LoopResult(h1, n, ctx, false, seq(|vs|, i requires 0 <= i < |vs| => Some(vs[i]))))
      case DictNode(items, _, _) =>
        (match EvalItems(host, fuel - 1, h, items, ctx, [])
         case Crash(why) => Crash(why)
         case Ok(Stopped(sig, h1)) => Ok(Ran(sig, h1))
         case Ok(Values(es, h1)) =>
           Ok(Ran(Success(Spanned(Value(Dict(if |es| == 0 then None else Some(es)), None, None, Some(ctx)), n)), h1)))
      case BinOpNode(_, _, _) => EvalBinOp(host, fuel - 1, h, n, ctx)
      case UnaryOpNode(_, _) => EvalUnary(host, fuel - 1, h, n, ctx)
      case VarAccessNode(_) => VisitVarAccess(h, n, ctx)
      case VarAssignNode(_, _) => EvalVarAssign(host, fuel - 1, h, n, ctx)
      case IfNode(cases, els) => EvalIf(host, fuel - 1, h, cases, els, ctx)
      case ForNode(_, _, _, _, _, _) => EvalFor(host, fuel - 1, h, n, ctx)
      case WhileNode(_, _, _) => WhileLoop(host, fuel - 1, h, n, ctx, [])
      case FuncDefNode(_, _, _, _) => VisitFuncDef(h, n, ctx)
      case CallNode(_, _) => EvalCall(host, fuel - 1, h, n, ctx)
      case ReturnNode(returned, _, _) => EvalReturn(host, fuel - 1, h, returned, ctx)
      case ContinueNode(_, _) => Ok(Ran(SuccessContinue(), h))
      case BreakNode(_, _) => Ok(Ran(SuccessBreak(), h))
      case ImportNode(_, _, _) => Crash(NotModelled)
  }

  /** List elements and call arguments: visited left to right; the first
      result that makes the caller return stops the run and is handed back. */
  function EvalMany(host: Host, fuel: nat, h: Heap, nodes: seq<Node>, ctx: Ctx, acc: seq<Value>)
    : (o: Outcome<Many<Value>>)
    ensures SettledMany(o)
    ensures o.Ok? && o.val.Values? ==> |o.val.vs| == |acc| + |nodes| && o.val.vs[..|acc|] == acc
    decreases fuel, 1, |nodes|
  {
    if |nodes| == 0 then Ok(Values(acc, h))
    else
      match Eval(host, fuel, h, nodes[0], ctx)
      case Crash(why) => Crash(why)
      case Ok(Ran(r, h1)) =>
        if ShouldReturn(r) then Ok(Stopped(Propagate(r), h1))
        else EvalMany(host, fuel, h1, nodes[1..], ctx, acc + [r.value.value])
  }

  /** Dictionary items: the key and then the value are visited, and only the
      value's signal is checked, so a failed key is stored as `None`. */
  function EvalItems(host: Host, fuel: nat, h: Heap, items: seq<DictItem>, ctx: Ctx, acc: seq<Entry>)
    : (o: Outcome<Many<Entry>>)
    ensures SettledMany(o)
    decreases fuel, 1, |items|
  {
    if |items| == 0 then Ok(Values(acc, h))
    else
      match Eval(host, fuel, h, items[0].key, ctx)
      case Crash(why) => Crash(why)
      case Ok(Ran(k, h1)) =>
        match Eval(host, fuel, h1, items[0].value, ctx)
        case Crash(why) => Crash(why)
        case Ok(Ran(v, h2)) =>
          if ShouldReturn(v) then Ok(Stopped(Propagate(v), h2))
          else EvalItems(host, fuel, h2, items[1..], ctx, Insert(acc, k.value, v.value.value))
  }

  /** `visit_BinOpNode`: both operands are visited before either signal is
      looked at. */
  function EvalBinOp(host: Host, fuel: nat, h: Heap, n: Node, ctx: Ctx): (o: Outcome<Ran>)
    requires n.BinOpNode?
    ensures Settled(o)
    decreases fuel, 3, 0
  {
    match Eval(host, fuel, h, n.left, ctx)
    case Crash(why) => Crash(why)
    case Ok(Ran(l, h1)) =>
      match Eval(host, fuel, h1, n.right, ctx)
      case Crash(why) => Crash(why)
      case Ok(Ran(r, h2)) => ApplyBinOp(host, h2, n, l.value, r.value)
  }

  function EvalUnary(host: Host, fuel: nat, h: Heap, n: Node, ctx: Ctx): (o: Outcome<Ran>)
    requires n.UnaryOpNode?
    ensures Settled(o)
    decreases fuel, 3, 0
  {
    match Eval(host, fuel, h, n.operand, ctx)
    case Crash(why) => Crash(why)
    case Ok(Ran(r, h1)) =>
      if ShouldReturn(r) then Ok(Ran(Propagate(r), h1))
      else ApplyUnary(host, h1, n, r.value.value)
  }

  /** `visit_VarAssignNode`: bind in the current table and yield the value. */
  function EvalVarAssign(host: Host, fuel: nat, h: Heap, n: Node, ctx: Ctx): (o: Outcome<Ran>)
    requires n.VarAssignNode?
    ensures Settled(o)
    decreases fuel, 3, 0
  {
    match Eval(host, fuel, h, n.valueNode, ctx)
    case Crash(why) => Crash(why)
    case Ok(Ran(r, h1)) =>
      if ShouldReturn(r) then Ok(Ran(Propagate(r), h1))
      else
        var v := r.value.value;
        Ok(Ran(Success(v), h1.(tables := Set(h1.tables, ctx.table, TokText(n.nameTok), v))))
  }

  /** `visit_IfNode`: the cases in order; the first whose condition is true
      runs, and otherwise the ELSE branch; no match and no ELSE gives Null. */
  function EvalIf(host: Host, fuel: nat, h: Heap, cases: seq<IfCase>, els: Option<ElseCase>, ctx: Ctx)
    : (o: Outcome<Ran>)
    ensures Settled(o)
    decreases fuel, 1, |cases|
  {
    if |cases| == 0 then
      if els.None? then Ok(Ran(Success(New(Null)), h))
      else
        match Eval(host, fuel, h, els.value.body, ctx)
        case Crash(why) => Crash(why)
        case Ok(Ran(r, h1)) =>
          if ShouldReturn(r) then Ok(Ran(Propagate(r), h1))
          else Ok(Ran(Success(if els.value.returnsNull then New(Null) else r.value.value), h1))
    else
      match Eval(host, fuel, h, cases[0].cond, ctx)
      case Crash(why) => Crash(why)
      case Ok(Ran(c, h1)) =>
        if ShouldReturn(c) then Ok(Ran(Propagate(c), h1))
        else if IsTrue(c.value.value) then
          match Eval(host, fuel, h1, cases[0].body, ctx)
          case Crash(why) => Crash(why)
          case Ok(Ran(r, h2)) =>
            if ShouldReturn(r) then Ok(Ran(Propagate(r), h2))
            else Ok(Ran(Success(if cases[0].returnsNull then New(Null) else r.value.value), h2))
        else EvalIf(host, fuel, h1, cases[1..], els, ctx)
  }

  /** `visit_ForNode`: start, end and (if given) step are visited in order;
      the step defaults to `Number(1)`. */
  function EvalFor(host: Host, fuel: nat, h: Heap, n: Node, ctx: Ctx): (o: Outcome<Ran>)
    requires n.ForNode?
    ensures Settled(o)
    decreases fuel, 3, 0
  {
    match Eval(host, fuel, h, n.startNode, ctx)
    case Crash(why) => Crash(why)
    case Ok(Ran(s, h1)) =>
      if ShouldReturn(s) then Ok(Ran(Propagate(s), h1))
      else
        match Eval(host, fuel, h1, n.endNode, ctx)
        case Crash(why) => Crash(why)
        case Ok(Ran(e, h2)) =>
          if ShouldReturn(e) then Ok(Ran(Propagate(e), h2))
          else EvalForStep(host, fuel, h2, n, ctx, s.value.value, e.value.value)
  }

  function EvalForStep(host: Host, fuel: nat, h: Heap, n: Node, ctx: Ctx, start: Value, end: Value)
    : (o: Outcome<Ran>)
    requires n.ForNode?
    ensures Settled(o)
    decreases fuel, 2, 0
  {
    var stepped: Outcome<Ran> :=
      if n.stepNode.None? then Ok(Ran(Success(New(Number(1))), h))
      else Eval(host, fuel, h, n.stepNode.value, ctx);
    match stepped
    case Crash(why) => Crash(why)
    case Ok(Ran(st, h1)) =>
      if ShouldReturn(st) then Ok(Ran(Propagate(st), h1))
      // `i = start_value.value`, then `step_value.value > 0`.
      else if PyValue(start.kind).None? || PyValue(st.value.value.kind).None? then Crash(AttributeError)
      else if PyValue(st.value.value.kind).value.PyStr? then Crash(TypeError)
      else ForLoop(host, fuel, h1, n, ctx, PyValue(start.kind).value, end, PyValue(st.value.value.kind).value.i, [])
  }

  /** The FOR loop proper: bind the variable to `Number(i)`, step `i`, then
      run the body; CONTINUE skips collecting, BREAK leaves, any other signal
      is returned. */
  function ForLoop(host: Host, fuel: nat, h: Heap, n: Node, ctx: Ctx, i: Py, end: Value, step: int,
                   acc: seq<Option<Value>>): (o: Outcome<Ran>)
    requires n.ForNode?
    ensures Settled(o)
    decreases fuel, 1, 0
  {
    match ForCondition(i, end, step)
    case Crash(why) => Crash(why)
    case Ok(go) =>
      if !go then LoopResult(h, n, ctx, n.returnsNull, acc)
      // The variable is bound to `Number(i)`, then `i += step` raises on text.
      else if i.PyStr? then Crash(TypeError)
      else if fuel == 0 then Crash(OutOfFuel)
      else
        var h1 := h.(tables := Set(h.tables, ctx.table, TokText(n.varTok), New(Number(i.i))));
        match Eval(host, fuel, h1, n.body, ctx)
        case Crash(why) => Crash(why)
        case Ok(Ran(r, h2)) =>
          if ShouldReturn(r) && !r.loopContinue && !r.loopBreak then Ok(Ran(Propagate(r), h2))
          else if r.loopContinue then ForLoop(host, fuel - 1, h2, n, ctx, PyInt(i.i + step), end, step, acc)
          else if r.loopBreak then LoopResult(h2, n, ctx, n.returnsNull, acc)
          else ForLoop(host, fuel - 1, h2, n, ctx, PyInt(i.i + step), end, step, acc + [r.value])
  }

  /** `visit_WhileNode`: the condition is visited afresh before every pass. */
  function WhileLoop(host: Host, fuel: nat, h: Heap, n: Node, ctx: Ctx, acc: seq<Option<Value>>)
    : (o: Outcome<Ran>)
    requires n.WhileNode?
    ensures Settled(o)
    decreases fuel, 1, 0
  {
    match Eval(host, fuel, h, n.cond, ctx)
    case Crash(why) => Crash(why)
    case Ok(Ran(c, h1)) =>
      if ShouldReturn(c) then Ok(Ran(Propagate(c), h1))
      else if !IsTrue(c.value.value) then LoopResult(h1, n, ctx, n.returnsNull, acc)
      else
        match Eval(host, fuel, h1, n.body, ctx)
        case Crash(why) => Crash(why)
        case Ok(Ran(r, h2)) =>
          if ShouldReturn(r) && !r.loopContinue && !r.loopBreak then Ok(Ran(Propagate(r), h2))
          else if !r.loopContinue && r.loopBreak then LoopResult(h2, n, ctx, n.returnsNull, acc)
          else if fuel == 0 then Crash(OutOfFuel)
          else WhileLoop(host, fuel - 1, h2, n, ctx, if r.loopContinue then acc else acc + [r.value])
  }

  /** `visit_CallNode`: the callee is copied and moved to the call site, the
      arguments are visited, the callee runs, and its result is copied, moved
      to the call site and re-homed to the caller's context. */
  function EvalCall(host: Host, fuel: nat, h: Heap, n: Node, ctx: Ctx): (o: Outcome<Ran>)
    requires n.CallNode?
    ensures Settled(o)
    decreases fuel, 3, 0
  {
    match Eval(host, fuel, h, n.callee, ctx)
    case Crash(why) => Crash(why)
    case Ok(Ran(c, h1)) =>
      if ShouldReturn(c) then Ok(Ran(Propagate(c), h1))
      else
        match CopyOf(c.value.value)
        case Crash(why) => Crash(why)
        case Ok(f) =>
          match EvalMany(host, fuel, h1, n.args, ctx, [])
          case Crash(why) => Crash(why)
          case Ok(Stopped(sig, h2)) => Ok(Ran(sig, h2))
          case Ok(Values(args, h2)) =>
            match Execute(host, fuel, h2, Spanned(f, n), args)
            case Crash(why) => Crash(why)
            case Ok(Ran(r, h3)) =>
              if ShouldReturn(r) then Ok(Ran(Propagate(r), h3))
              else
                match CopyOf(r.value.value)
                case Crash(why) => Crash(why)
                case Ok(v) => Ok(Ran(Success(Spanned(v, n).(ctx := Some(ctx))), h3))
  }

  /** `execute(args)` of a Function (`Function.execute`) or a built-in; any
      other value has no `execute` method. A Function's body runs in a new
      frame; errors, CONTINUE and BREAK leave the call unchanged, and the
      result is the body's value under auto-return, else the returned value,
      else Null. */
  function Execute(host: Host, fuel: nat, h: Heap, f: Value, args: seq<Value>): (o: Outcome<Ran>)
    ensures Settled(o)
    decreases fuel, 2, 0
  {
    match f.kind
    case Function(name, body, params, autoReturn) =>
      var (h1, frame) := NewFrame(h, name, f.ctx, f.start);
      var chk := CheckArgs(f, name, params, args);
      if ShouldReturn(chk) then Ok(Ran(Propagate(chk), h1))
      else
        var h2 := h1.(tables := Populate(h1.tables, frame.table, params, args, frame));
        (match Eval(host, fuel, h2, body, frame)
         case Crash(why) => Crash(why)
         case Ok(Ran(r, h3)) =>
           if ShouldReturn(r) && r.funcReturn.None? then Ok(Ran(Propagate(r), h3))
           else Ok(Ran(Success(ReturnedValue(autoReturn, r)), h3)))
    case BuiltIn(b) =>
      (match BuiltinExecute(host, h, f, b, args)
       case Crash(why) => Crash(why)
       case Ok((h1, r)) => Ok(Ran(r, h1)))
    case _ => Crash(AttributeError)
  }

  /** `visit_ReturnNode`: a return signal carrying the value, or Null. */
  function EvalReturn(host: Host, fuel: nat, h: Heap, returned: Option<Node>, ctx: Ctx): (o: Outcome<Ran>)
    ensures Settled(o)
    decreases fuel, 3, 0
  {
    if returned.None? then Ok(Ran(SuccessReturn(New(Null)), h))
    else
      match Eval(host, fuel, h, returned.value, ctx)
      case Crash(why) => Crash(why)
      case Ok(Ran(r, h1)) =>
        if ShouldReturn(r) then Ok(Ran(Propagate(r), h1))
        else Ok(Ran(SuccessReturn(r.value.value), h1))
  }
}

=== FILE: interpreter_props.dfy ===
/** Properties of the evaluator (eel/interpreter.py) and of calling a
    Function (eel/values.py). */
module InterpreterProperties {
  import opened Basics
  import opened Tokens
  import opened Contexts
  import opened Errors
  import opened Signals
  import opened Ast
  import opened Values
  import opened Interpreter

  /** A settled result that makes the caller return carries no value, and
      `Propagate` hands it back unchanged. */
  lemma SignalHasNoValue(r: RTResult<Value>)
    requires SetCount(r) == 1 && ShouldReturn(r)
    ensures r.value.None? && Propagate(r) == r
  {
    PropagateHandsBackSignal(Fresh(), r);
  }

  /** A literal integer evaluates to itself at its own span, in the current
      context, and changes nothing. */
  lemma IntegerLiteral(host: Host, fuel: nat, h: Heap, n: Node, ctx: Ctx, k: int)
    requires fuel > 0 && n.NumberNode? && n.tok.value == IntVal(k)
    ensures Eval(host, fuel, h, n, ctx) == Ok(Ran(Success(Value(Number(k), Some(Start(n)), Some(End(n)), Some(ctx))), h))
  {
  }

  // ---------------------------------------------------------------------
  // Operators

  /** Each operator token selects its own value method: two tokens that
      select the same one are of the same kind (and the same keyword). */
  lemma OperatorTokensAreDistinct(t1: Token, t2: Token)
    requires OpOf(t1).Some? && OpOf(t1) == OpOf(t2)
    ensures t1.kind == t2.kind
    ensures t1.kind == KEYWORD ==> t1.value == t2.value
    ensures OpOf(t1).value in {And, Or, Xor} <==> t1.kind == KEYWORD
  {
  }

  /** Both operands are visited before either signal is looked at: when the
      left operand fails, the right one is still visited, and then Python
      raises on the missing left value. */
  lemma BinOpVisitsBothOperands(host: Host, fuel: nat, h: Heap, n: Node, ctx: Ctx)
    requires n.BinOpNode?
    ensures var lo := Eval(host, fuel, h, n.left, ctx);
            lo.Ok? && ShouldReturn(lo.val.res) && Eval(host, fuel, lo.val.heap, n.right, ctx).Ok? ==>
              EvalBinOp(host, fuel, h, n, ctx) == Crash(AttributeError)
  {
    var lo := Eval(host, fuel, h, n.left, ctx);
    if lo.Ok? && ShouldReturn(lo.val.res) {
      SignalHasNoValue(lo.val.res);
    }
  }

  /** Once the left operand has a value, the operator's value method decides,
      called with whatever the right operand holds: a value it makes is moved
      to the node's span, an error it reports becomes the node's failure, and
      the heap is the one the method leaves. A token that selects no method
      leaves Python calling `set_pos` on `None`. */
  lemma BinOpAppliesMethod(host: Host, fuel: nat, h: Heap, n: Node, ctx: Ctx, lr: RTResult<Value>, h1: Heap,
                           rr: RTResult<Value>, h2: Heap)
    requires n.BinOpNode? && lr.value.Some?
    requires Eval(host, fuel, h, n.left, ctx) == Ok(Ran(lr, h1))
    requires Eval(host, fuel, h1, n.right, ctx) == Ok(Ran(rr, h2))
    ensures OpOf(n.op).None? ==> EvalBinOp(host, fuel, h, n, ctx) == Crash(AttributeError)
    ensures OpOf(n.op).Some? ==>
            var b := Binary(host, OpOf(n.op).value, h2, lr.value.value, rr.value);
            (b.Crash? ==> EvalBinOp(host, fuel, h, n, ctx) == Crash(b.why)) &&
            (b.Ok? && b.val.1.Made? ==>
               EvalBinOp(host, fuel, h, n, ctx) ==
               Ok(Ran(Success(Value(b.val.1.v.kind, Some(Start(n)), Some(End(n)), b.val.1.v.ctx)), b.val.0))) &&
            (b.Ok? && b.val.1.Failed? ==> EvalBinOp(host, fuel, h, n, ctx) == Ok(Ran(Failure(b.val.1.e), b.val.0)))
  {
  }

  /** An error in the right operand is not reported when the left operand is
      a List and the operator is `+`: Python's `None` is appended instead. */
  lemma ListPlusSwallowsRightError(host: Host, fuel: nat, h: Heap, n: Node, ctx: Ctx)
    requires n.BinOpNode? && n.op.kind == PLUS
    ensures var lo := Eval(host, fuel, h, n.left, ctx);
            lo.Ok? && !ShouldReturn(lo.val.res) && lo.val.res.value.value.kind.List? ==>
              var ref := lo.val.res.value.value.kind.ref;
              var ro := Eval(host, fuel, lo.val.heap, n.right, ctx);
              ro.Ok? && ShouldReturn(ro.val.res) && ref < |ro.val.heap.lists| ==>
                var o := EvalBinOp(host, fuel, h, n, ctx);
                o.Ok? && !ShouldReturn(o.val.res) && Elems(o.val.heap, ref) == Elems(ro.val.heap, ref) + [None]
  {
    var lo := Eval(host, fuel, h, n.left, ctx);
    if lo.Ok? && !ShouldReturn(lo.val.res) && lo.val.res.value.value.kind.List? {
      var ro := Eval(host, fuel, lo.val.heap, n.right, ctx);
      if ro.Ok? && ShouldReturn(ro.val.res) {
        SignalHasNoValue(ro.val.res);
      }
    }
  }

  /** Unary minus multiplies by a fresh `Number(-1)`: it negates a number,
      empties a String, leaves a List's storage as it is (repeating it
      `-2` times adds nothing) and moves it to the node's span, and on a
      class without `*` fails over the operand's start only, since the fresh
      number has no span. */
  lemma UnaryMinusMultipliesByMinusOne(host: Host, h: Heap, n: Node, v: Value)
    requires n.UnaryOpNode? && n.op.kind == MINUS
    ensures IsNumber(v.kind) ==>
            ApplyUnary(host, h, n, v) == Ok(Ran(Success(Value(Number(-NumOf(v.kind)), Some(Start(n)), Some(End(n)), v.ctx)), h))
    ensures v.kind.Str? ==>
            ApplyUnary(host, h, n, v) == Ok(Ran(Success(Value(Str(""), Some(Start(n)), Some(End(n)), v.ctx)), h))
    ensures v.kind.List? ==>
            ApplyUnary(host, h, n, v) == Ok(Ran(Success(Value(v.kind, Some(Start(n)), Some(End(n)), v.ctx)), h))
    ensures v.kind.Null? || v.kind.Dict? || v.kind.Function? || v.kind.BuiltIn? ==>
            ApplyUnary(host, h, n, v) == Ok(Ran(Failure(RTError("Illegal Operation", v.start, None, v.ctx)), h))
  {
    if v.kind.List? {
      // `range(-2)` is empty: the storage is written back unchanged.
      var es := Elems(h, v.kind.ref);
      assert Doubled(es, -2) == es;
      if v.kind.ref < |h.lists| {
        assert h.lists[v.kind.ref := es] == h.lists;
      }
    }
  }

  /** NOT answers whether a number is 0, and fails on any other class; any
      other unary operator returns the operand moved to the node's span. */
  lemma NotNegatesTruth(host: Host, h: Heap, n: Node, v: Value)
    requires n.UnaryOpNode?
    ensures IsKeywordTok(n.op, "NOT") && IsNumber(v.kind) ==>
            ApplyUnary(host, h, n, v) == Ok(Ran(Success(Value(Boolean(!IsTrue(v)), Some(Start(n)), Some(End(n)), v.ctx)), h))
    ensures IsKeywordTok(n.op, "NOT") && !IsNumber(v.kind) ==>
            ApplyUnary(host, h, n, v) == Ok(Ran(Failure(IllegalOperation(v, None)), h))
    ensures n.op.kind == PLUS ==> ApplyUnary(host, h, n, v) == Ok(Ran(Success(Spanned(v, n)), h))
  {
  }

  // ---------------------------------------------------------------------
  // Collections

  /** List elements are visited in order and the first that makes the
      caller return cuts the run short; its signal is handed back as it is. */
  lemma ManyStopsAtFirstSignal(host: Host, fuel: nat, h: Heap, nodes: seq<Node>, ctx: Ctx, acc: seq<Value>)
    requires |nodes| > 0
    ensures var first := Eval(host, fuel, h, nodes[0], ctx);
            first.Ok? && ShouldReturn(first.val.res) ==>
              EvalMany(host, fuel, h, nodes, ctx, acc) == Ok(Stopped(first.val.res, first.val.heap))
    ensures var first := Eval(host, fuel, h, nodes[0], ctx);
            first.Crash? ==> EvalMany(host, fuel, h, nodes, ctx, acc) == Crash(first.why)
  {
    var first := Eval(host, fuel, h, nodes[0], ctx);
    if first.Ok? && ShouldReturn(first.val.res) {
      SignalHasNoValue(first.val.res);
    }
  }

  /** Visiting a run of nodes is visiting a prefix and then, if the prefix
      ran through, the rest from the heap and values the prefix left; a
      prefix that stopped or crashed is the whole run's outcome. */
  lemma {:induction false} ManySplits(host: Host, fuel: nat, h: Heap, nodes: seq<Node>, ctx: Ctx, acc: seq<Value>, k: nat)
    requires k <= |nodes|
    ensures var pre := EvalMany(host, fuel, h, nodes[..k], ctx, acc);
            EvalMany(host, fuel, h, nodes, ctx, acc) ==
              if pre.Ok? && pre.val.Values? then EvalMany(host, fuel, pre.val.heap, nodes[k..], ctx, pre.val.vs) else pre
    decreases k
  {
    if k == 0 {
      assert nodes[..0] == [] && nodes[0..] == nodes;
    } else {
      assert nodes[..k][0] == nodes[0];
      match Eval(host, fuel, h, nodes[0], ctx)
      case Crash(_) =>
      case Ok(Ran(r, h1)) =>
        if !ShouldReturn(r) {
          ManySplits(host, fuel, h1, nodes[1..], ctx, acc + [r.value.value], k - 1);
          assert nodes[..k][1..] == nodes[1..][..k - 1];
          assert nodes[1..][k - 1..] == nodes[k..];
        }
    }
  }

  /** The node at index `k` that makes the caller return, after every node
      before it ran through, ends the run with its own signal and heap: the
      nodes after it are never visited. */
  lemma ManyStopsAtIndex(host: Host, fuel: nat, h: Heap, nodes: seq<Node>, ctx: Ctx, acc: seq<Value>, k: nat,
                         vs: seq<Value>, hk: Heap, sig: RTResult<Value>, h1: Heap)
    requires k < |nodes|
    requires EvalMany(host, fuel, h, nodes[..k], ctx, acc) == Ok(Values(vs, hk))
    requires Eval(host, fuel, hk, nodes[k], ctx) == Ok(Ran(sig, h1)) && ShouldReturn(sig)
    ensures EvalMany(host, fuel, h, nodes, ctx, acc) == Ok(Stopped(sig, h1))
    ensures |vs| == |acc| + k
  {
    ManySplits(host, fuel, h, nodes, ctx, acc, k);
    ManyStopsAtFirstSignal(host, fuel, hk, nodes[k..], ctx, vs);
    assert nodes[k..][0] == nodes[k];
  }

  /** A list literal whose elements all succeed is new storage holding one
      element per expression, at the literal's span: slot `i` holds the value
      of the `i`-th element, and the storage is the next one after those the
      elements made. A signal from an element is the literal's result. */
  lemma ListLiteralAllocates(host: Host, fuel: nat, h: Heap, n: Node, ctx: Ctx)
    requires fuel > 0 && n.ListNode?
    ensures var o := Eval(host, fuel, h, n, ctx);
            o.Ok? && !ShouldReturn(o.val.res) ==>
              o.val.res.value.value.kind.List? && o.val.res.value.value.start == Some(n.start) &&
              |Elems(o.val.heap, o.val.res.value.value.kind.ref)| == |n.elements| &&
              forall i | 0 <= i < |n.elements| :: Elems(o.val.heap, o.val.res.value.value.kind.ref)[i].Some?
    ensures var m := EvalMany(host, fuel - 1, h, n.elements, ctx, []);
            var o := Eval(host, fuel, h, n, ctx);
            m.Ok? && m.val.Values? ==>
              o.Ok? && o.val.res.value.Some? && o.val.res.value.value.kind == List(|m.val.heap.lists|) &&
              o.val.heap.tables == m.val.heap.tables &&
              |Elems(o.val.heap, |m.val.heap.lists|)| == |m.val.vs| &&
              forall i | 0 <= i < |m.val.vs| :: Elems(o.val.heap, |m.val.heap.lists|)[i] == Some(m.val.vs[i])
    ensures var m := EvalMany(host, fuel - 1, h, n.elements, ctx, []);
            m.Ok? && m.val.Stopped? ==> Eval(host, fuel, h, n, ctx) == Ok(Ran(m.val.sig, m.val.heap))
  {
    match EvalMany(host, fuel - 1, h, n.elements, ctx, [])
    case Crash(_) =>
    case Ok(Stopped(_, _)) =>
    case Ok(Values(vs, h1)) =>
      var es := seq(|vs|, i requires 0 <= i < |vs| => Some(vs[i]));
      var (h2, ref) := Alloc(h1, es);
      assert Eval(host, fuel, h, n, ctx) == LoopResult(h1, n, ctx, false, es);
      assert Elems(h2, ref) == es;
  }

  /** A dictionary item whose key fails is still stored, under the absent
      key: only the value's signal is checked. */
  lemma FailedKeyIsStoredAbsent(host: Host, fuel: nat, h: Heap, items: seq<DictItem>, ctx: Ctx, acc: seq<Entry>)
    requires |items| > 0
    ensures var ko := Eval(host, fuel, h, items[0].key, ctx);
            ko.Ok? && ShouldReturn(ko.val.res) ==>
              var vo := Eval(host, fuel, ko.val.heap, items[0].value, ctx);
              vo.Ok? && !ShouldReturn(vo.val.res) ==>
                EvalItems(host, fuel, h, items, ctx, acc) ==
                EvalItems(host, fuel, vo.val.heap, items[1..], ctx, Insert(acc, None, vo.val.res.value.value))
  {
    var ko := Eval(host, fuel, h, items[0].key, ctx);
    if ko.Ok? && ShouldReturn(ko.val.res) {
      SignalHasNoValue(ko.val.res);
    }
  }

  /** An empty dictionary literal builds a Dictionary without entries,
      which cannot even be read back from a variable: copying it raises. */
  lemma EmptyDictionaryCannotBeCopied(host: Host, fuel: nat, h: Heap, n: Node, ctx: Ctx)
    requires fuel > 0 && n.DictNode? && |n.items| == 0
    ensures var o := Eval(host, fuel, h, n, ctx);
            o.Ok? && o.val.res.value.Some? && o.val.res.value.value.kind == Dict(None) &&
            CopyOf(o.val.res.value.value).Crash?
  {
  }

  // ---------------------------------------------------------------------
  // Variables and functions

  /** Reading a variable yields a copy of its binding, moved to the access
      and re-homed to the reader's context; an empty Dictionary cannot be
      read. */
  lemma AccessYieldsBinding(h: Heap, n: Node, ctx: Ctx, v: Value)
    requires n.VarAccessNode? && Get(h.tables, ctx.table, TokText(n.nameTok)) == Some(v)
    ensures VisitVarAccess(h, n, ctx).Crash? <==> v.kind == Dict(None)
    ensures v.kind != Dict(None) ==>
            VisitVarAccess(h, n, ctx) == Ok(Ran(Success(Value(v.kind, Some(Start(n)), Some(End(n)), Some(ctx))), h))
  {
  }

  /** A name bound only in the grandparent's table is not defined, although
      it is visible further up the chain. */
  lemma GrandparentBindingIsNotDefined(h: Heap, n: Node, ctx: Ctx)
    requires n.VarAccessNode?
    requires var ts, t, name := h.tables, ctx.table, TokText(n.nameTok);
             t < |ts| && name !in ts[t].symbols && ts[t].parent.Some? && ts[t].parent.value < |ts| &&
             name !in ts[ts[t].parent.value].symbols &&
             ts[ts[t].parent.value].parent.Some? && ts[ts[t].parent.value].parent.value < |ts| &&
             name in ts[ts[ts[t].parent.value].parent.value].symbols
    ensures VisitVarAccess(h, n, ctx) ==
            Ok(Ran(Failure(RTError("'" + TokText(n.nameTok) + "' is not defined", Some(Start(n)), Some(End(n)), Some(ctx))), h))
    ensures ChainLookup(h.tables, ctx.table, TokText(n.nameTok), 3).Some?
  {
    GrandparentIsNotConsulted(h.tables, ctx.table, TokText(n.nameTok));
  }

  /** An assignment yields the value and binds it in the current table, so
      reading the same name afterwards yields that value. */
  lemma AssignThenAccess(host: Host, fuel: nat, h: Heap, n: Node, m: Node, ctx: Ctx)
    requires n.VarAssignNode? && m.VarAccessNode? && TokText(m.nameTok) == TokText(n.nameTok)
    ensures var o := EvalVarAssign(host, fuel, h, n, ctx);
            o.Ok? && !ShouldReturn(o.val.res) && ctx.table < |o.val.heap.tables| ==>
              var v := o.val.res.value.value;
              Eval(host, fuel, h, n.valueNode, ctx).Ok? &&
              Eval(host, fuel, h, n.valueNode, ctx).val.res == Success(v) &&
              Get(o.val.heap.tables, ctx.table, TokText(n.nameTok)) == Some(v) &&
              (v.kind != Dict(None) ==>
                VisitVarAccess(o.val.heap, m, ctx) ==
                Ok(Ran(Success(Value(v.kind, Some(Start(m)), Some(End(m)), Some(ctx))), o.val.heap)))
  {
    var o := EvalVarAssign(host, fuel, h, n, ctx);
    if o.Ok? && !ShouldReturn(o.val.res) && ctx.table < |o.val.heap.tables| {
      AccessYieldsBinding(o.val.heap, m, ctx, o.val.res.value.value);
    }
  }

  /** A function definition yields a Function closing over the current
      context with one parameter per name; a named one is bound in the
      current table, an anonymous one (named "<anonymous>") binds nothing. */
  lemma DefinitionBindsNamedFunctions(h: Heap, n: Node, ctx: Ctx)
    requires n.FuncDefNode?
    ensures var o := VisitFuncDef(h, n, ctx);
            o.Ok? && o.val.res.value.Some? && o.val.res.value.value.kind.Function? &&
            o.val.res.value.value.kind.body == n.body && o.val.res.value.value.ctx == Some(ctx) &&
            |o.val.res.value.value.kind.params| == |n.argToks| &&
            o.val.res.value.value.kind.autoReturn == n.autoReturn
    ensures n.funcName.None? ==>
            VisitFuncDef(h, n, ctx).val.heap == h && VisitFuncDef(h, n, ctx).val.res.value.value.kind.name == "<anonymous>"
    ensures n.funcName.Some? && ctx.table < |h.tables| ==>
            Get(VisitFuncDef(h, n, ctx).val.heap.tables, ctx.table, TokText(n.funcName.value)) ==
            VisitFuncDef(h, n, ctx).val.res.value
  {
  }

  // ---------------------------------------------------------------------
  // IF

  /** When no condition holds and there is no ELSE, an IF yields Null and
      changes nothing. */
  lemma {:induction false} NoTrueCaseYieldsNull(host: Host, fuel: nat, h: Heap, cases: seq<IfCase>, ctx: Ctx)
    requires fuel > 0
    requires forall i | 0 <= i < |cases| :: cases[i].cond.NumberNode? && cases[i].cond.tok.value == IntVal(0)
    ensures EvalIf(host, fuel, h, cases, None, ctx) == Ok(Ran(Success(New(Null)), h))
    decreases |cases|
  {
    if |cases| > 0 {
      IntegerLiteral(host, fuel, h, cases[0].cond, ctx, 0);
      NoTrueCaseYieldsNull(host, fuel, h, cases[1..], ctx);
    }
  }

  /** `-(IF 0 THEN 1)` and `NOT (IF 0 THEN 1)`: the IF yields a Null with no
      span and no context, so the Illegal Operation raised on it has no
      position either, and rendering that error, as the prompt does with
      every error it gets back, raises AttributeError. */
  lemma StartlessErrorCannotBeShown(host: Host, fuel: nat, h: Heap, n: Node, ctx: Ctx, arrows: Arrows)
    requires fuel > 2
    requires n.UnaryOpNode? && (n.op.kind == MINUS || IsKeywordTok(n.op, "NOT"))
    requires n.operand.IfNode? && n.operand.elseCase.None?
    requires forall i | 0 <= i < |n.operand.cases| ::
               n.operand.cases[i].cond.NumberNode? && n.operand.cases[i].cond.tok.value == IntVal(0)
    ensures Eval(host, fuel, h, n, ctx) == Ok(Ran(Failure(RTError("Illegal Operation", None, None, None)), h))
    ensures AsString(RTError("Illegal Operation", None, None, None), arrows) == PositionMissing
  {
    NoTrueCaseYieldsNull(host, fuel - 2, h, n.operand.cases, ctx);
    assert Eval(host, fuel - 1, h, n.operand, ctx) == Ok(Ran(Success(New(Null)), h));
    if n.op.kind == MINUS {
      UnaryMinusMultipliesByMinusOne(host, h, n, New(Null));
    } else {
      NotNegatesTruth(host, h, n, New(Null));
    }
  }

  /** The first true case decides: the later cases and the ELSE branch are
      never visited. */
  lemma FirstTrueCaseDecides(host: Host, fuel: nat, h: Heap, cases: seq<IfCase>, els: Option<ElseCase>, ctx: Ctx, k: int)
    requires fuel > 0 && |cases| > 0 && k != 0
    requires cases[0].cond.NumberNode? && cases[0].cond.tok.value == IntVal(k)
    ensures EvalIf(host, fuel, h, cases, els, ctx) == EvalIf(host, fuel, h, cases[..1], None, ctx)
    ensures var o := EvalIf(host, fuel, h, cases, els, ctx);
            o.Ok? && !ShouldReturn(o.val.res) && cases[0].returnsNull ==> o.val.res == Success(New(Null))
  {
    IntegerLiteral(host, fuel, h, cases[0].cond, ctx, k);
    assert cases[..1][0] == cases[0];
  }

  /** Every condition, visited in turn from `h`, yields a value that is not
      true, and after the last one the heap is `hEnd`. */
  predicate NoCaseHolds(host: Host, fuel: nat, h: Heap, cases: seq<IfCase>, ctx: Ctx, hEnd: Heap)
    decreases |cases|
  {
    if |cases| == 0 then h == hEnd
    else
      match Eval(host, fuel, h, cases[0].cond, ctx)
      case Crash(_) => false
      case Ok(Ran(c, h1)) =>
        !ShouldReturn(c) && c.value.Some? && !IsTrue(c.value.value) && NoCaseHolds(host, fuel, h1, cases[1..], ctx, hEnd)
  }

  /** When no condition holds, the IF is its ELSE branch run in the heap the
      conditions left, and without an ELSE it yields Null. */
  lemma {:induction false} NoCaseHoldsFallsThrough(host: Host, fuel: nat, h: Heap, cases: seq<IfCase>,
                                                   els: Option<ElseCase>, ctx: Ctx, hEnd: Heap)
    requires NoCaseHolds(host, fuel, h, cases, ctx, hEnd)
    ensures EvalIf(host, fuel, h, cases, els, ctx) == EvalIf(host, fuel, hEnd, [], els, ctx)
    ensures els.None? ==> EvalIf(host, fuel, h, cases, els, ctx) == Ok(Ran(Success(New(Null)), hEnd))
    decreases |cases|
  {
    if |cases| > 0 {
      var c :| Eval(host, fuel, h, cases[0].cond, ctx) == Ok(c);
      NoCaseHoldsFallsThrough(host, fuel, c.heap, cases[1..], els, ctx, hEnd);
    }
  }

  /** A first condition that yields a true value decides the IF: the branch
      body runs in the heap the condition left, its signal is handed back,
      and otherwise its value (or Null, in the block form) is the IF's. The
      later cases and the ELSE branch are never visited. */
  lemma TrueCaseDecides(host: Host, fuel: nat, h: Heap, cases: seq<IfCase>, els: Option<ElseCase>, ctx: Ctx,
                        v: Value, h1: Heap)
    requires |cases| > 0
    requires Eval(host, fuel, h, cases[0].cond, ctx) == Ok(Ran(Success(v), h1)) && IsTrue(v)
    ensures EvalIf(host, fuel, h, cases, els, ctx) == EvalIf(host, fuel, h, cases[..1], None, ctx)
    ensures var b := Eval(host, fuel, h1, cases[0].body, ctx);
            var o := EvalIf(host, fuel, h, cases, els, ctx);
            (b.Crash? ==> o == Crash(b.why)) &&
            (b.Ok? && ShouldReturn(b.val.res) ==> o == b) &&
            (b.Ok? && !ShouldReturn(b.val.res) && cases[0].returnsNull ==> o == Ok(Ran(Success(New(Null)), b.val.heap))) &&
            (b.Ok? && !ShouldReturn(b.val.res) && !cases[0].returnsNull ==> o == b)
  {
    assert cases[..1][0] == cases[0];
    ShouldReturnOfConstructors<Value>(v, RTError("", None, None, None));
    var b := Eval(host, fuel, h1, cases[0].body, ctx);
    if b.Ok? {
      if ShouldReturn(b.val.res) {
        SignalHasNoValue(b.val.res);
      } else {
        ShouldReturnOfExclusive(b.val.res);
        assert b.val.res == Success(b.val.res.value.value);
      }
    }
  }

  // ---------------------------------------------------------------------
  // FOR and WHILE

  /** The step defaults to `Number(1)`. */
  lemma StepDefaultsToOne(host: Host, fuel: nat, h: Heap, n: Node, ctx: Ctx, start: Value, end: Value, a: int)
    requires n.ForNode? && n.stepNode.None? && PyValue(start.kind) == Some(PyInt(a))
    ensures EvalForStep(host, fuel, h, n, ctx, start, end) == ForLoop(host, fuel, h, n, ctx, PyInt(a), end, 1, [])
  {
  }

  /** With a step of 0 the loop never runs, and the end value is not even
      read. */
  lemma ZeroStepNeverRuns(host: Host, fuel: nat, h: Heap, n: Node, ctx: Ctx, i: Py, end: Value, acc: seq<Option<Value>>)
    requires n.ForNode?
    ensures ForLoop(host, fuel, h, n, ctx, i, end, 0, acc) == LoopResult(h, n, ctx, n.returnsNull, acc)
  {
  }

  /** A positive step runs while `i < end`, a negative one while `i > end`;
      past the end the loop finishes without visiting the body. */
  lemma LoopStopsAtEnd(host: Host, fuel: nat, h: Heap, n: Node, ctx: Ctx, a: int, end: Value, b: int, step: int,
                       acc: seq<Option<Value>>)
    requires n.ForNode? && PyValue(end.kind) == Some(PyInt(b))
    requires (step > 0 && a >= b) || (step < 0 && a <= b)
    ensures ForLoop(host, fuel, h, n, ctx, PyInt(a), end, step, acc) == LoopResult(h, n, ctx, n.returnsNull, acc)
  {
  }

  /** The shape of a finished loop's value: Null in the block form,
      otherwise a List at the loop's span in the current context. */
  predicate LoopShaped(o: Outcome<Ran>, n: Node, ctx: Ctx)
    requires n.ForNode? || n.WhileNode?
  {
    o.Ok? && !ShouldReturn(o.val.res) ==>
      if n.returnsNull then o.val.res == Success(New(Null))
      else o.val.res.value.Some? && o.val.res.value.value.kind.List? &&
           o.val.res.value.value.start == Some(Start(n)) && o.val.res.value.value.ctx == Some(ctx)
  }

  lemma {:induction false} ForLoopShape(host: Host, fuel: nat, h: Heap, n: Node, ctx: Ctx, i: Py, end: Value, step: int,
                                        acc: seq<Option<Value>>)
    requires n.ForNode?
    ensures LoopShaped(ForLoop(host, fuel, h, n, ctx, i, end, step, acc), n, ctx)
    decreases fuel
  {
    match ForCondition(i, end, step)
    case Crash(_) =>
    case Ok(go) =>
      if go && i.PyInt? && fuel > 0 {
        var h1 := h.(tables := Set(h.tables, ctx.table, TokText(n.varTok), New(Number(i.i))));
        match Eval(host, fuel, h1, n.body, ctx)
        case Crash(_) =>
        case Ok(Ran(r, h2)) =>
          ForLoopShape(host, fuel - 1, h2, n, ctx, PyInt(i.i + step), end, step, acc);
          ForLoopShape(host, fuel - 1, h2, n, ctx, PyInt(i.i + step), end, step, acc + [r.value]);
      }
  }

  lemma {:induction false} WhileLoopShape(host: Host, fuel: nat, h: Heap, n: Node, ctx: Ctx, acc: seq<Option<Value>>)
    requires n.WhileNode?
    ensures LoopShaped(WhileLoop(host, fuel, h, n, ctx, acc), n, ctx)
    decreases fuel
  {
    match Eval(host, fuel, h, n.cond, ctx)
    case Crash(_) =>
    case Ok(Ran(c, h1)) =>
      match Eval(host, fuel, h1, n.body, ctx)
      case Crash(_) =>
      case Ok(Ran(r, h2)) =>
        if fuel > 0 {
          WhileLoopShape(host, fuel - 1, h2, n, ctx, acc);
          WhileLoopShape(host, fuel - 1, h2, n, ctx, acc + [r.value]);
        }
  }

  /** How many passes a FOR from `a` below `b` in steps of `step` makes. */
  function Passes(a: int, b: int, step: int): nat
    requires step > 0
    decreases if a < b then b - a else 0
  {
    if a >= b then 0 else 1 + Passes(a + step, b, step)
  }

  /** `Passes` is the length of Python's `range(a, b, step)`: the number of
      steps of size `step` it takes to cover `b - a`, rounded up. */
  lemma {:induction false} PassesCoverTheRange(a: int, b: int, step: int)
    requires step > 0
    ensures a >= b ==> Passes(a, b, step) == 0
    ensures a < b ==> (Passes(a, b, step) - 1) * step < b - a <= Passes(a, b, step) * step
    decreases if a < b then b - a else 0
  {
    if a < b {
      var p := Passes(a + step, b, step);
      PassesCoverTheRange(a + step, b, step);
      assert (p + 1) * step == p * step + step;
    }
  }

  /** A FOR whose body is an integer literal collects one copy of it per
      pass, into new storage, given fuel for every pass. */
  lemma {:induction false} ForCollectsOnePerPass(host: Host, fuel: nat, h: Heap, n: Node, ctx: Ctx, a: int, end: Value,
                                                 b: int, step: int, c: int, acc: seq<Option<Value>>)
    requires n.ForNode? && !n.returnsNull && n.body.NumberNode? && n.body.tok.value == IntVal(c)
    requires PyValue(end.kind) == Some(PyInt(b)) && step > 0 && fuel >= Passes(a, b, step)
    ensures var o := ForLoop(host, fuel, h, n, ctx, PyInt(a), end, step, acc);
            var lit := Value(Number(c), Some(Start(n.body)), Some(End(n.body)), Some(ctx));
            o.Ok? && o.val.res.value.Some? && o.val.res.value.value.kind == List(|h.lists|) &&
            Elems(o.val.heap, |h.lists|) == acc + seq(Passes(a, b, step), _ => Some(lit))
    decreases if a < b then b - a else 0
  {
    var lit := Value(Number(c), Some(Start(n.body)), Some(End(n.body)), Some(ctx));
    if a < b {
      var h1 := h.(tables := Set(h.tables, ctx.table, TokText(n.varTok), New(Number(a))));
      IntegerLiteral(host, fuel, h1, n.body, ctx, c);
      ForCollectsOnePerPass(host, fuel - 1, h1, n, ctx, a + step, end, b, step, c, acc + [Some(lit)]);
      assert (acc + [Some(lit)]) + seq(Passes(a + step, b, step), _ => Some(lit))
          == acc + seq(Passes(a, b, step), _ => Some(lit));
    } else {
      var (h2, ref) := Alloc(h, acc);
      assert Elems(h2, ref) == acc;
    }
  }

  /** The heap a FOR pass runs its body in: the loop variable bound to the
      counter in the current table. */
  function PassHeap(h: Heap, n: Node, ctx: Ctx, a: int): Heap
    requires n.ForNode?
  {
    h.(tables := Set(h.tables, ctx.table, TokText(n.varTok), New(Number(a))))
  }

  /** One FOR pass, by what the body yields: a CONTINUE goes on to the next
      counter without collecting, a BREAK ends the loop with the values
      collected before this pass, a RETURN or an error is the loop's result,
      and a plain value is collected before going on. */
  lemma ForPass(host: Host, fuel: nat, h: Heap, n: Node, ctx: Ctx, a: int, end: Value, step: int,
                acc: seq<Option<Value>>, r: RTResult<Value>, h2: Heap)
    requires n.ForNode? && fuel > 0 && ForCondition(PyInt(a), end, step) == Ok(true)
    requires Eval(host, fuel, PassHeap(h, n, ctx, a), n.body, ctx) == Ok(Ran(r, h2))
    ensures var o := ForLoop(host, fuel, h, n, ctx, PyInt(a), end, step, acc);
            (r.loopContinue ==> o == ForLoop(host, fuel - 1, h2, n, ctx, PyInt(a + step), end, step, acc)) &&
            (r.loopBreak && !r.loopContinue ==> o == LoopResult(h2, n, ctx, n.returnsNull, acc)) &&
            (ShouldReturn(r) && !r.loopContinue && !r.loopBreak ==> o == Ok(Ran(r, h2))) &&
            (!ShouldReturn(r) ==> o == ForLoop(host, fuel - 1, h2, n, ctx, PyInt(a + step), end, step, acc + [r.value]))
  {
    if ShouldReturn(r) && !r.loopContinue && !r.loopBreak {
      SignalHasNoValue(r);
    }
  }

  /** A body that yields the given signal from every heap, leaving the heap
      as it found it. */
  ghost predicate AlwaysYields(host: Host, body: Node, ctx: Ctx, sig: RTResult<Value>)
  {
    forall f: nat, hh: Heap | f > 0 :: Eval(host, f, hh, body, ctx) == Ok(Ran(sig, hh))
  }

  /** A FOR whose body always CONTINUEs runs every pass and collects
      nothing: the loop's List is new storage holding just what was
      collected before, and the block form yields Null. */
  lemma {:induction false} ContinueAlwaysCollectsNothing(host: Host, fuel: nat, h: Heap, n: Node, ctx: Ctx, a: int,
                                                         end: Value, b: int, step: int, acc: seq<Option<Value>>)
    requires n.ForNode? && AlwaysYields(host, n.body, ctx, SuccessContinue())
    requires PyValue(end.kind) == Some(PyInt(b)) && step > 0 && fuel >= Passes(a, b, step)
    ensures var o := ForLoop(host, fuel, h, n, ctx, PyInt(a), end, step, acc);
            o.Ok? && (n.returnsNull ==> o.val.res == Success(New(Null))) &&
            (!n.returnsNull ==> o.val.res.value.Some? && o.val.res.value.value.kind == List(|h.lists|) &&
                                Elems(o.val.heap, |h.lists|) == acc)
    decreases if a < b then b - a else 0
  {
    if a < b {
      var h1 := PassHeap(h, n, ctx, a);
      assert Eval(host, fuel, h1, n.body, ctx) == Ok(Ran(SuccessContinue(), h1));
      ForPass(host, fuel, h, n, ctx, a, end, step, acc, SuccessContinue(), h1);
      ContinueAlwaysCollectsNothing(host, fuel - 1, h1, n, ctx, a + step, end, b, step, acc);
    } else {
      var (h2, ref) := Alloc(h, acc);
      assert Elems(h2, ref) == acc;
    }
  }

  /** A FOR whose body always BREAKs ends in its first pass with the values
      collected before it; if the counter is already past the end it never
      runs at all. Either way nothing is collected. */
  lemma BreakAlwaysEndsFirstPass(host: Host, fuel: nat, h: Heap, n: Node, ctx: Ctx, a: int, end: Value, b: int,
                                 step: int, acc: seq<Option<Value>>)
    requires n.ForNode? && AlwaysYields(host, n.body, ctx, SuccessBreak())
    requires PyValue(end.kind) == Some(PyInt(b)) && step > 0 && fuel > 0
    ensures var o := ForLoop(host, fuel, h, n, ctx, PyInt(a), end, step, acc);
            a < b ==> o == LoopResult(PassHeap(h, n, ctx, a), n, ctx, n.returnsNull, acc)
    ensures a >= b ==> ForLoop(host, fuel, h, n, ctx, PyInt(a), end, step, acc) == LoopResult(h, n, ctx, n.returnsNull, acc)
  {
    if a < b {
      var h1 := PassHeap(h, n, ctx, a);
      assert Eval(host, fuel, h1, n.body, ctx) == Ok(Ran(SuccessBreak(), h1));
      ForPass(host, fuel, h, n, ctx, a, end, step, acc, SuccessBreak(), h1);
    }
  }

  /** One WHILE pass, once the condition has yielded a true value: a BREAK
      ends the loop with the values collected before this pass, a RETURN or
      an error is the loop's result, a CONTINUE goes round again without
      collecting, and a plain value is collected before going round. */
  lemma WhilePass(host: Host, fuel: nat, h: Heap, n: Node, ctx: Ctx, acc: seq<Option<Value>>, v: Value, h1: Heap,
                  r: RTResult<Value>, h2: Heap)
    requires n.WhileNode? && fuel > 0
    requires Eval(host, fuel, h, n.cond, ctx) == Ok(Ran(Success(v), h1)) && IsTrue(v)
    requires Eval(host, fuel, h1, n.body, ctx) == Ok(Ran(r, h2))
    ensures var o := WhileLoop(host, fuel, h, n, ctx, acc);
            (r.loopContinue ==> o == WhileLoop(host, fuel - 1, h2, n, ctx, acc)) &&
            (r.loopBreak && !r.loopContinue ==> o == LoopResult(h2, n, ctx, n.returnsNull, acc)) &&
            (ShouldReturn(r) && !r.loopContinue && !r.loopBreak ==> o == Ok(Ran(r, h2))) &&
            (!ShouldReturn(r) ==> o == WhileLoop(host, fuel - 1, h2, n, ctx, acc + [r.value]))
  {
    ShouldReturnOfConstructors<Value>(v, RTError("", None, None, None));
    if ShouldReturn(r) && !r.loopContinue && !r.loopBreak {
      SignalHasNoValue(r);
    }
  }

  /** A WHILE whose condition always holds and whose body always CONTINUEs
      never finishes: it runs until the fuel is spent. */
  lemma {:induction false} ContinueForeverRunsOut(host: Host, fuel: nat, h: Heap, n: Node, ctx: Ctx,
                                                  acc: seq<Option<Value>>, v: Value)
    requires n.WhileNode? && IsTrue(v)
    requires AlwaysYields(host, n.cond, ctx, Success(v)) && AlwaysYields(host, n.body, ctx, SuccessContinue())
    ensures fuel > 0 ==> WhileLoop(host, fuel, h, n, ctx, acc) == Crash(OutOfFuel)
    decreases fuel
  {
    if fuel > 0 {
      assert Eval(host, fuel, h, n.cond, ctx) == Ok(Ran(Success(v), h));
      assert Eval(host, fuel, h, n.body, ctx) == Ok(Ran(SuccessContinue(), h));
      WhilePass(host, fuel, h, n, ctx, acc, v, h, SuccessContinue(), h);
      if fuel > 1 {
        ContinueForeverRunsOut(host, fuel - 1, h, n, ctx, acc, v);
      } else {
        ShouldReturnOfConstructors<Value>(v, RTError("", None, None, None));
      }
    }
  }

  /** A WHILE whose condition is the literal 0 never runs its body, and in
      expression form yields new, empty storage. */
  lemma FalseWhileCollectsNothing(host: Host, fuel: nat, h: Heap, n: Node, ctx: Ctx)
    requires fuel > 1 && n.WhileNode? && !n.returnsNull
    requires n.cond.NumberNode? && n.cond.tok.value == IntVal(0)
    ensures var o := Eval(host, fuel, h, n, ctx);
            o.Ok? && o.val.res.value.Some? && o.val.res.value.value.kind == List(|h.lists|) &&
            Elems(o.val.heap, |h.lists|) == []
  {
    IntegerLiteral(host, fuel - 1, h, n.cond, ctx, 0);
  }

  // ---------------------------------------------------------------------
  // RETURN and calls

  /** RETURN with no expression returns Null; with one, it returns the
      expression's value as a return signal. */
  lemma ReturnCarriesValue(host: Host, fuel: nat, h: Heap, returned: Option<Node>, ctx: Ctx)
    ensures returned.None? ==> EvalReturn(host, fuel, h, returned, ctx) == Ok(Ran(SuccessReturn(New(Null)), h))
    ensures var vo := if returned.Some? then Eval(host, fuel, h, returned.value, ctx) else Crash(NotModelled);
            vo.Ok? && !ShouldReturn(vo.val.res) ==>
              EvalReturn(host, fuel, h, returned, ctx) == Ok(Ran(SuccessReturn(vo.val.res.value.value), vo.val.heap))
  {
  }

  /** The frame a Function's body runs in, with its arguments bound. */
  function CallFrame(h: Heap, f: Value, args: seq<Value>): (Heap, Ctx)
    requires f.kind.Function? && |args| <= |f.kind.params|
  {
    var (h1, frame) := NewFrame(h, f.kind.name, f.ctx, f.start);
    (h1.(tables := Populate(h1.tables, frame.table, f.kind.params, args, frame)), frame)
  }

  /** What a call yields once the body ran: a returned value wins; an error,
      CONTINUE or BREAK leaves the call unchanged; otherwise the body's value
      under auto-return, else Null. */
  lemma CallResultRule(host: Host, fuel: nat, h: Heap, f: Value, args: seq<Value>)
    requires f.kind.Function? && |args| == |f.kind.params|
    ensures var (h2, frame) := CallFrame(h, f, args);
            var body := Eval(host, fuel, h2, f.kind.body, frame);
            var o := Execute(host, fuel, h, f, args);
            body.Ok? ==>
              o.Ok? && o.val.heap == body.val.heap &&
              (body.val.res.funcReturn.Some? ==> o.val.res == Success(body.val.res.funcReturn.value)) &&
              (ShouldReturn(body.val.res) && body.val.res.funcReturn.None? ==> o.val.res == body.val.res) &&
              (!ShouldReturn(body.val.res) ==>
                 o.val.res == Success(if f.kind.autoReturn then body.val.res.value.value else New(Null)))
  {
    var (h2, frame) := CallFrame(h, f, args);
    var body := Eval(host, fuel, h2, f.kind.body, frame);
    if body.Ok? && ShouldReturn(body.val.res) {
      SignalHasNoValue(body.val.res);
    }
  }

  /** A call with the wrong number of arguments fails with the arity error
      and never runs the body: the heap only gains the new frame. Calling a
      value that is neither a Function nor a built-in raises. */
  lemma ArityFailureSkipsBody(host: Host, fuel: nat, h: Heap, f: Value, args: seq<Value>)
    ensures f.kind.Function? && |args| != |f.kind.params| ==>
            Execute(host, fuel, h, f, args) ==
            Ok(Ran(CheckArgs(f, f.kind.name, f.kind.params, args), NewFrame(h, f.kind.name, f.ctx, f.start).0))
    ensures !f.kind.Function? && !f.kind.BuiltIn? ==> Execute(host, fuel, h, f, args) == Crash(AttributeError)
  {
    if f.kind.Function? && |args| != |f.kind.params| {
      SignalHasNoValue(CheckArgs(f, f.kind.name, f.kind.params, args));
    }
  }
}

=== FILE: lexer.dfy ===
/** The lexer (eel/base.py, class Lexer): a character-driven state machine
    over a `Position` that walks the program text.

    The text is the position's `ftxt`; the current character is the one at
    the position's offset, or none past the end. `advance` steps over the
    current character. */
module Lexer {
  import opened Basics
  import opened Positions
  import opened Tokens
  import opened Errors

  function Cur(p: Position): Option<char> {
    if 0 <= p.idx < |p.ftxt| then Some(p.ftxt[p.idx]) else None
  }

  /** `Lexer.advance`: move past the current character. */
  function Adv(p: Position): Position {
    Advance(p, Cur(p))
  }

  /** Characters left to read. */
  function Remaining(p: Position): nat {
    if 0 <= p.idx < |p.ftxt| then |p.ftxt| - p.idx else 0
  }

  /** `Lexer(fn, text)`: the position starts at offset -1, column -1 and is
      advanced once over no character. */
  function StartPos(fn: string, text: string): (p: Position)
    ensures p == Position(0, 0, 0, fn, text)
  {
    Advance(Position(-1, 0, -1, fn, text), None)
  }

  predicate IsIdentChar(c: char) {
    IsAsciiLetter(c) || IsDigit(c) || c == '_'
  }

  /** The characters some case of the scanner's match handles; reading any
      other character is an error. */
  predicate Recognised(c: char) {
    c == ' ' || c == '\t' || c == '#' || c == '"' || SingleKind(c).Some?
    || c == '-' || c == '*' || c == '!' || c == '=' || c == '<' || c == '>' || c == ':'
    || IsDigit(c) || IsAsciiLetter(c)
  }

  /** The kind of a token that is always one character long. */
  function SingleKind(c: char): Option<Kind> {
    match c
    case '+' => Some(PLUS)
    case '/' => Some(DIV)
    case '^' => Some(POW)
    case '%' => Some(MOD)
    case '(' => Some(LPAREN)
    case ')' => Some(RPAREN)
    case '[' => Some(LBRACKET)
    case ']' => Some(RBRACKET)
    case '{' => Some(LCURLY)
    case '}' => Some(RCURLY)
    case ',' => Some(COMMA)
    case ';' => Some(NEWLINE)
    case '\n' => Some(NEWLINE)
    case _ => None
  }

  /** One lexer step's effect: tokens to append and the position to go on
      from, an error that makes `make_tokens` return `([], error)`, a Python
      exception, or a loop that never ends. */
  datatype Step = Emit(toks: seq<Token>, next: Position) | Stop(error: Error) | Raise(msg: string) | Hang

  /** The shape shared by `make_equals`, `make_less_than`,
      `make_greater_than` and the `-` case: one character of lookahead turns
      `single` into `double` when the next character is `second`. */
  function Lookahead(p: Position, single: Kind, second: char, double: Kind): (r: (Token, Position))
    requires Cur(p).Some?
    ensures r.0.start == p && r.0.end == r.1
    ensures Cur(Adv(p)) == Some(second) ==> r.0.kind == double && r.1 == Adv(Adv(p))
    ensures Cur(Adv(p)) != Some(second) ==> r.0.kind == single && r.1 == Adv(p)
  {
    var q := Adv(p);
    if Cur(q) == Some(second) then (MakeToken(double, NoValue, p, Some(Adv(q))), Adv(q))
    else (MakeToken(single, NoValue, p, Some(q)), q)
  }

  /** `make_string`'s escape table: the five letters with a control-character
      meaning; any other escaped character stands for itself. */
  function EscapeChar(c: char): char {
    match c
    case 'n' => '\n'
    case 't' => '\t'
    case 'r' => '\r'
    case 'b' => 8 as char
    case 'f' => 12 as char
    case _ => c
  }

  /** The loop of `make_string`: reads up to the closing quote that is not
      escaped, or to the end of the text. */
  function StringLoop(q: Position, escape: bool, acc: string): (r: (string, Position))
    ensures r.1.fn == q.fn && r.1.ftxt == q.ftxt && r.1.idx >= q.idx
    ensures Cur(r.1).None? || (Cur(r.1) == Some('"'))
    decreases Remaining(q)
  {
    if Cur(q).None? || (Cur(q) == Some('"') && !escape) then (acc, q)
    else
      var c := Cur(q).value;
      if escape then StringLoop(Adv(q), false, acc + [EscapeChar(c)])
      else if c == '\\' then StringLoop(Adv(q), true, acc)
      else StringLoop(Adv(q), false, acc + [c])
  }

  /** `make_string`: the token spans the quotes, and the position moves past
      the closing quote, or one step past the end when there is none. */
  function MakeString(p: Position): (r: (Token, Position))
    requires Cur(p) == Some('"')
    ensures r.0.kind == STRING && r.0.value.StrVal? && r.0.start == p && r.0.end == r.1
    ensures r.1.idx > p.idx && r.1.fn == p.fn && r.1.ftxt == p.ftxt
  {
    var (s, q) := StringLoop(Adv(p), false, "");
    var e := Adv(q);
    (MakeToken(STRING, StrVal(s), p, Some(e)), e)
  }

  predicate AllDigits(s: string) {
    forall i :: 0 <= i < |s| ==> IsDigit(s[i])
  }

  /** The loop of `make_number` over digits and dots; None is the Python
      exception raised by a second dot. */
  function NumberLoop(q: Position, dots: nat, acc: string): (r: Option<(string, nat, Position)>)
    requires dots <= 1 && (dots == 0 ==> AllDigits(acc))
    ensures r.Some? ==> r.value.1 <= 1 && (r.value.1 == 0 ==> AllDigits(r.value.0))
    ensures r.Some? ==> |r.value.0| >= |acc| && r.value.2.idx >= q.idx
    ensures r.Some? ==> r.value.2.fn == q.fn && r.value.2.ftxt == q.ftxt
    ensures r.Some? ==> Cur(r.value.2).None? || !(IsDigit(Cur(r.value.2).value) || Cur(r.value.2) == Some('.'))
    decreases Remaining(q)
  {
    if Cur(q).None? || !(IsDigit(Cur(q).value) || Cur(q) == Some('.')) then Some((acc, dots, q))
    else if Cur(q) == Some('.') then
      if dots == 1 then None else NumberLoop(Adv(q), dots + 1, acc + ".")
    else NumberLoop(Adv(q), dots, acc + [Cur(q).value])
  }

  const TooManyDots := "Too many dots in number"

  /** `make_number`: INT with the digits' value when there is no dot, FLOAT
      (its text; floating point is not modelled) with one dot. */
  function MakeNumber(p: Position): (r: Option<(Token, Position)>)
    requires Cur(p).Some? && IsDigit(Cur(p).value)
    ensures r.Some? ==> r.value.0.kind in {INT, FLOAT} && r.value.0.start == p && r.value.0.end == r.value.1
    ensures r.Some? ==> r.value.1.idx > p.idx && r.value.1.fn == p.fn && r.value.1.ftxt == p.ftxt
  {
    match NumberLoop(p, 0, "")
    case None => None
    case Some((s, dots, q)) =>
      if dots == 0 then Some((MakeToken(INT, IntVal(DecimalValue(s)), p, Some(q)), q))
      else Some((MakeToken(FLOAT, FloatVal(s), p, Some(q)), q))
  }

  /** The loop of `make_identifier` over letters, digits and underscores. */
  function IdentLoop(q: Position, acc: string): (r: (string, Position))
    ensures |r.0| >= |acc| && r.1.idx >= q.idx && r.1.fn == q.fn && r.1.ftxt == q.ftxt
    ensures Cur(r.1).None? || !IsIdentChar(Cur(r.1).value)
    decreases Remaining(q)
  {
    if Cur(q).None? || !IsIdentChar(Cur(q).value) then (acc, q)
    else IdentLoop(Adv(q), acc + [Cur(q).value])
  }

  /** `make_identifier`: a keyword when the text is one of the reserved
      words, an identifier otherwise. */
  function MakeIdentifier(p: Position): (r: (Token, Position))
    requires Cur(p).Some? && IsAsciiLetter(Cur(p).value)
    ensures r.0.kind in {KEYWORD, IDENTIFIER} && r.0.value.StrVal?
    ensures r.0.kind == KEYWORD <==> IsKeyword(r.0.value.s)
    ensures r.0.start == p && r.0.end == r.1 && r.1.idx > p.idx
    ensures r.1.fn == p.fn && r.1.ftxt == p.ftxt
  {
    var (s, q) := IdentLoop(p, "");
    (MakeToken(if IsKeyword(s) then KEYWORD else IDENTIFIER, StrVal(s), p, Some(q)), q)
  }

  /** `skip_comment`: the position just past the next newline; None when
      the text ends first, where the source loops forever. */
  function CommentEnd(q: Position): (r: Option<Position>)
    ensures r.Some? ==> r.value.idx > q.idx && r.value.fn == q.fn && r.value.ftxt == q.ftxt
    decreases Remaining(q)
  {
    if Cur(q) == Some('\n') then Some(Adv(q))
    else if Cur(q).None? then None
    else CommentEnd(Adv(q))
  }

  const ExpectedEquals := "Expected '=' after '!'"

  /** The characters that look one character ahead: the operators that may
      be the first half of a two-character token. */
  function StepOperator(p: Position): (r: Step)
    requires Cur(p).Some? && Cur(p).value in "-*!=<>:"
    ensures r.Emit? ==> |r.toks| == 1 && r.toks[0].kind != EOF && Remaining(r.next) < Remaining(p)
    ensures r.Emit? ==> r.next.fn == p.fn && r.next.ftxt == p.ftxt
    ensures !r.Emit? ==> r.Stop?
  {
    var c := Cur(p).value;
    if c == '-' then
      var (t, q) := Lookahead(p, MINUS, '>', ARROW);
      Emit([t], q)
    else if c == '*' then
      var q := Adv(p);
      Emit([MakeToken(if Cur(q) == Some('*') then POW else MUL, NoValue, q, None)], Adv(q))
    else if c == '!' then
      var q := Adv(p);
      if Cur(q) == Some('=') then Emit([MakeToken(NE, NoValue, p, Some(Adv(q)))], Adv(q))
      else Stop(ExpectedCharError(ExpectedEquals, p, Adv(q)))
    else if c == '=' then
      var (t, q) := Lookahead(p, EQ, '=', EE);
      Emit([t], q)
    else if c == '<' then
      var (t, q) := Lookahead(p, LT, '=', LTE);
      Emit([t], q)
    else if c == '>' then
      var (t, q) := Lookahead(p, GT, '=', GTE);
      Emit([t], q)
    else
      // The start of the token is the lexer's own position object, which
      // the following `advance` has already moved.
      var q := Adv(p);
      if Cur(q) == Some(':') then Emit([MakeToken(DUBCOL, NoValue, q, Some(q))], Adv(q))
      else Emit([MakeToken(COLON, NoValue, q, None)], q)
  }

  /** One pass of the `while` loop of `make_tokens`, by the current
      character. */
  function StepAt(p: Position): (r: Step)
    requires Cur(p).Some?
    ensures r.Emit? ==> |r.toks| <= 1 && NoEof(r.toks) && Remaining(r.next) < Remaining(p)
    ensures r.Emit? ==> r.next.fn == p.fn && r.next.ftxt == p.ftxt
  {
    var c := Cur(p).value;
    if c == ' ' || c == '\t' then Emit([], Adv(p))
    else if c == '#' then
      match CommentEnd(Adv(p))
      case None => Hang
      case Some(q) => Emit([], q)
    else if c == '"' then
      var (t, q) := MakeString(p);
      Emit([t], q)
    else if SingleKind(c).Some? then Emit([MakeToken(SingleKind(c).value, NoValue, p, None)], Adv(p))
    else if c in "-*!=<>:" then StepOperator(p)
    else if IsDigit(c) || IsAsciiLetter(c) then StepWord(p)
    else Stop(IllegalCharError("'" + [c] + "'", p, Adv(p)))
  }

  /** A number or a name. */
  function StepWord(p: Position): (r: Step)
    requires Cur(p).Some? && (IsDigit(Cur(p).value) || IsAsciiLetter(Cur(p).value))
    ensures r.Emit? ==> |r.toks| == 1 && r.toks[0].kind != EOF && Remaining(r.next) < Remaining(p)
    ensures r.Emit? ==> r.next.fn == p.fn && r.next.ftxt == p.ftxt
    ensures !r.Emit? ==> r == Raise(TooManyDots)
  {
    if IsDigit(Cur(p).value) then
      match MakeNumber(p)
      case None => Raise(TooManyDots)
      case Some((t, q)) => Emit([t], q)
    else
      var (t, q) := MakeIdentifier(p);
      Emit([t], q)
  }

  /** What `make_tokens` ends with: its return value (tokens and error), an
      uncaught Python exception, or no answer at all. */
  datatype Outcome = Returned(toks: seq<Token>, error: Option<Error>) | Raised(msg: string) | Diverges

  predicate NoEof(ts: seq<Token>) {
    forall i :: 0 <= i < |ts| ==> ts[i].kind != EOF
  }

  /** The shape of a successful scan from `p` with `acc` collected: `acc`
      extended, and exactly one EOF token, last, placed at the end of the
      text `p` walks. */
  predicate Completes(toks: seq<Token>, acc: seq<Token>, p: Position) {
    |toks| > |acc| && toks[..|acc|] == acc && NoEof(toks[..|toks| - 1])
    && toks[|toks| - 1].kind == EOF
    && toks[|toks| - 1].start.fn == p.fn && toks[|toks| - 1].start.ftxt == p.ftxt
    && Cur(toks[|toks| - 1].start).None?
  }

  /** The `while` loop of `make_tokens` from position `p` with `acc` already
      collected. A successful scan extends `acc` and ends in exactly one EOF
      token, placed at the final position; an error discards every token. */
  function Scan(p: Position, acc: seq<Token>): (r: Outcome)
    requires NoEof(acc)
    ensures r.Returned? && r.error.Some? ==> r.toks == []
    ensures r.Returned? && r.error.None? ==> Completes(r.toks, acc, p)
    decreases Remaining(p)
  {
    if Cur(p).None? then
      var eof := MakeToken(EOF, NoValue, p, None);
      CompletesAtEnd(acc, p, eof);
      Returned(acc + [eof], None)
    else
      match StepAt(p)
      case Emit(ts, q) =>
        NoEofAppend(acc, ts);
        var r := Scan(q, acc + ts);
        if r.Returned? && r.error.None? then CompletesStep(acc, ts, q, p, r.toks); r else r
      case Stop(e) => Returned([], Some(e))
      case Raise(m) => Raised(m)
      case Hang => Diverges
  }

  lemma CompletesAtEnd(acc: seq<Token>, p: Position, eof: Token)
    requires NoEof(acc) && Cur(p).None? && eof == MakeToken(EOF, NoValue, p, None)
    ensures Completes(acc + [eof], acc, p)
  {
    assert (acc + [eof])[..|acc|] == acc;
  }

  lemma CompletesStep(acc: seq<Token>, ts: seq<Token>, q: Position, p: Position, toks: seq<Token>)
    requires Completes(toks, acc + ts, q) && q.fn == p.fn && q.ftxt == p.ftxt
    ensures Completes(toks, acc, p)
  {
    assert toks[..|acc|] == toks[..|acc + ts|][..|acc|];
  }

  lemma NoEofAppend(a: seq<Token>, b: seq<Token>)
    requires NoEof(a) && NoEof(b)
    ensures NoEof(a + b)
  {
  }

  /** `Lexer(fn, text).make_tokens()`. */
  function Lex(fn: string, text: string): Outcome {
    Scan(StartPos(fn, text), [])
  }

  /** A successful lex has exactly one EOF token, and it is the last. */
  lemma LexEndsWithOneEof(fn: string, text: string)
    requires Lex(fn, text).Returned? && Lex(fn, text).error.None?
    ensures var ts := Lex(fn, text).toks;
            |ts| > 0 && ts[|ts| - 1].kind == EOF
            && forall i :: 0 <= i < |ts| && ts[i].kind == EOF ==> i == |ts| - 1
  {
    var ts := Lex(fn, text).toks;
    forall i | 0 <= i < |ts| - 1
      ensures ts[i].kind != EOF
    {
      assert ts[i] == ts[..|ts| - 1][i];
    }
  }
}

=== FILE: lexer_props.dfy ===
/** What the lexer of eel/base.py accepts and produces, stated over the
    text that lies ahead of a position. */
module LexerProperties {
  import opened Basics
  import opened Positions
  import opened Tokens
  import opened Errors
  import opened Lexer

  /** The text starting at `p` begins with `w`. */
  predicate TextAt(p: Position, w: string) {
    0 <= p.idx && p.idx + |w| <= |p.ftxt| && p.ftxt[p.idx..p.idx + |w|] == w
  }

  /** Reading the first character of `w` and advancing over it. */
  lemma TextAtHead(p: Position, w: string)
    requires TextAt(p, w) && |w| > 0
    ensures Cur(p) == Some(w[0])
    ensures Adv(p) == Advance(p, Some(w[0]))
    ensures TextAt(Adv(p), w[1..])
  {
    assert p.ftxt[p.idx] == p.ftxt[p.idx..p.idx + |w|][0];
    assert p.ftxt[p.idx + 1..p.idx + |w|] == p.ftxt[p.idx..p.idx + |w|][1..];
  }

  /** Text ahead of `p` that starts with `a + b` has `b` ahead once `a` has
      been walked over. */
  lemma TextAtSplit(p: Position, a: string, b: string)
    requires TextAt(p, a + b)
    ensures TextAt(p, a) && TextAt(AdvanceOver(p, a), b)
  {
    var q := AdvanceOver(p, a);
    assert q.idx == p.idx + |a| && q.ftxt == p.ftxt by { AdvanceOverCounts(p, a); }
    var s := p.ftxt[p.idx..p.idx + |a| + |b|];
    assert s == a + b;
    assert p.ftxt[p.idx..p.idx + |a|] == s[..|a|] == a;
    assert q.ftxt[q.idx..q.idx + |b|] == s[|a|..] == b;
  }

  // ---------------------------------------------------------------------
  // Single steps

  /** Spaces and tabs produce no token; `;` and a newline produce one
      NEWLINE token one column wide. */
  lemma BlankAndNewlineSteps(p: Position)
    requires Cur(p).Some?
    ensures Cur(p).value in " \t" ==> StepAt(p) == Emit([], Adv(p))
    ensures Cur(p).value in ";\n" ==>
      StepAt(p) == Emit([Token(NEWLINE, NoValue, p, Advance(p, None))], Adv(p))
  {
  }

  /** The two-character tokens: the pair each one is spelled with. */
  function PairKind(c1: char, c2: char): Option<Kind> {
    if c1 == '-' && c2 == '>' then Some(ARROW)
    else if c1 == '=' && c2 == '=' then Some(EE)
    else if c1 == '<' && c2 == '=' then Some(LTE)
    else if c1 == '>' && c2 == '=' then Some(GTE)
    else if c1 == '!' && c2 == '=' then Some(NE)
    else if c1 == ':' && c2 == ':' then Some(DUBCOL)
    else if c1 == '*' && c2 == '*' then Some(POW)
    else None
  }

  /** The one-character token a lookahead character falls back to. */
  function LeadKind(c: char): Option<Kind> {
    match c
    case '-' => Some(MINUS)
    case '=' => Some(EQ)
    case '<' => Some(LT)
    case '>' => Some(GT)
    case ':' => Some(COLON)
    case '*' => Some(MUL)
    case _ => None
  }

  lemma OperatorStep(p: Position)
    requires Cur(p).Some? && Cur(p).value in "-*!=<>:"
    ensures StepAt(p) == StepOperator(p)
  {
    assert SingleKind(Cur(p).value).None?;
  }

  /** Each two-character spelling is read as one token and both characters
      are consumed. `*` and `:` place the token's start on the second
      character, because the lexer has advanced before building it: `**`
      then spans only that character, and `::` ends where it starts. The
      others span both characters. */
  lemma TwoCharacterTokens(p: Position)
    requires Cur(p).Some? && Cur(Adv(p)).Some?
    requires PairKind(Cur(p).value, Cur(Adv(p)).value).Some?
    ensures StepAt(p).Emit? && |StepAt(p).toks| == 1
    ensures StepAt(p).toks[0].kind == PairKind(Cur(p).value, Cur(Adv(p)).value).value
    ensures StepAt(p).next == Adv(Adv(p))
    ensures StepAt(p).toks[0].start == if Cur(p).value in "*:" then Adv(p) else p
    ensures StepAt(p).toks[0].end ==
            if Cur(p).value == '*' then Advance(Adv(p), None)
            else if Cur(p).value == ':' then Adv(p)
            else Adv(Adv(p))
  {
    OperatorStep(p);
  }

  /** Without the second character, a lookahead character is a token on its
      own. A single `*` still consumes the character after it, whatever that
      is; the others leave it for the next step. */
  lemma OneCharacterFallback(p: Position)
    requires Cur(p).Some? && LeadKind(Cur(p).value).Some?
    requires Cur(Adv(p)).None? || PairKind(Cur(p).value, Cur(Adv(p)).value).None?
    ensures StepAt(p).Emit? && |StepAt(p).toks| == 1
    ensures StepAt(p).toks[0].kind == LeadKind(Cur(p).value).value
    ensures StepAt(p).next == if Cur(p).value == '*' then Adv(Adv(p)) else Adv(p)
  {
    OperatorStep(p);
  }

  /** `^` is a second spelling of the power operator. */
  lemma CaretIsPow(p: Position)
    requires Cur(p) == Some('^')
    ensures StepAt(p) == Emit([MakeToken(POW, NoValue, p, None)], Adv(p))
  {
  }

  /** `!` must be followed by `=`; otherwise the whole scan returns no tokens
      and an Expected Char Error spanning the `!` and the character after
      it. */
  lemma BangWithoutEquals(p: Position, acc: seq<Token>)
    requires Cur(p) == Some('!') && Cur(Adv(p)) != Some('=') && NoEof(acc)
    ensures Scan(p, acc) == Returned([], Some(ExpectedCharError(ExpectedEquals, p, Adv(Adv(p)))))
    ensures ErrorName(Scan(p, acc).error.value.kind) == "Expected Char Error"
  {
    OperatorStep(p);
    assert StepAt(p) == Stop(ExpectedCharError(ExpectedEquals, p, Adv(Adv(p))));
  }

  /** A character no case of the scanner handles stops the scan with no
      tokens and an Illegal Character error naming it in quotes; every
      other character yields no Illegal Character error at this step. */
  lemma IllegalCharacter(p: Position, acc: seq<Token>)
    requires Cur(p).Some? && NoEof(acc)
    ensures var c := Cur(p).value;
            !Recognised(c) <==> StepAt(p) == Stop(IllegalCharError("'" + [c] + "'", p, Adv(p)))
    ensures !Recognised(Cur(p).value) ==>
            Scan(p, acc) == Returned([], Some(IllegalCharError("'" + [Cur(p).value] + "'", p, Adv(p))))
  {
    var c := Cur(p).value;
    if Recognised(c) {
      RecognisedIsNotIllegal(p);
    }
  }

  lemma RecognisedIsNotIllegal(p: Position)
    requires Cur(p).Some? && Recognised(Cur(p).value)
    ensures !(StepAt(p).Stop? && StepAt(p).error.kind == IllegalChar)
  {
  }

  // ---------------------------------------------------------------------
  // Comments

  /** A comment runs to the next newline, which it consumes without emitting
      a NEWLINE token. */
  lemma CommentSkipsLine(p: Position, body: string)
    requires TextAt(p, "#" + body + "\n") && '\n' !in body
    ensures StepAt(p) == Emit([], AdvanceOver(p, "#" + body + "\n"))
  {
    TextAtHead(p, "#" + body + "\n");
    assert ("#" + body + "\n")[1..] == body + "\n";
    CommentEndFinds(Adv(p), body);
    assert "#" + body + "\n" == ['#'] + (body + "\n");
  }

  lemma {:induction false} CommentEndFinds(q: Position, body: string)
    requires TextAt(q, body + "\n") && '\n' !in body
    ensures CommentEnd(q) == Some(AdvanceOver(q, body + "\n"))
    decreases |body|
  {
    TextAtHead(q, body + "\n");
    if |body| > 0 {
      assert (body + "\n")[1..] == body[1..] + "\n";
      assert body[0] in body;
      CommentEndFinds(Adv(q), body[1..]);
    } else {
      assert AdvanceOver(Adv(q), "") == Adv(q);
    }
  }

  /** A comment with no newline after it never ends: `skip_comment` keeps
      advancing past the end of the text. */
  lemma CommentAtEndHangs(p: Position)
    requires Cur(p) == Some('#')
    requires forall i :: p.idx <= i < |p.ftxt| ==> p.ftxt[i] != '\n'
    ensures StepAt(p) == Hang
  {
    CommentEndNone(Adv(p));
  }

  lemma {:induction false} CommentEndNone(q: Position)
    requires forall i :: 0 <= i < |q.ftxt| && q.idx <= i ==> q.ftxt[i] != '\n'
    ensures CommentEnd(q) == None
    decreases Remaining(q)
  {
    if Cur(q).Some? {
      CommentEndNone(Adv(q));
    }
  }

  // ---------------------------------------------------------------------
  // Strings

  /** A string body that reads back as `s`: quotes and backslashes get a
      backslash in front, every other character is written as is. */
  function Escape(s: string): (r: string)
    ensures |r| >= |s|
  {
    if |s| == 0 then "" else EscapeOne(s[0]) + Escape(s[1..])
  }

  /** How one character is written inside a literal. */
  function EscapeOne(c: char): string {
    if c == '"' || c == '\\' then ['\\', c] else [c]
  }

  /** Reading one written character inside a literal. */
  lemma EscapedCharStep(q: Position, c: char, rest: string, acc: string)
    requires TextAt(q, EscapeOne(c) + rest)
    ensures TextAt(AdvanceOver(q, EscapeOne(c)), rest)
    ensures StringLoop(q, false, acc) == StringLoop(AdvanceOver(q, EscapeOne(c)), false, acc + [c])
  {
    var head := EscapeOne(c);
    TextAtSplit(q, head, rest);
    TextAtHead(q, head);
    if |head| == 2 {
      TextAtHead(Adv(q), head[1..]);
      assert head[1..][1..] == [];
      assert AdvanceOver(q, head) == AdvanceOver(Adv(q), head[1..]);
      assert AdvanceOver(Adv(q), head[1..]) == AdvanceOver(Adv(Adv(q)), []);
      assert EscapeChar(c) == c;
    } else {
      assert AdvanceOver(q, head) == Adv(q);
    }
  }

  /** The loop of `make_string` stops at a closing quote. */
  lemma StringLoopAtQuote(q: Position, acc: string)
    requires TextAt(q, "\"")
    ensures StringLoop(q, false, acc) == (acc, q)
  {
    TextAtHead(q, "\"");
  }

  lemma {:induction false} StringLoopReads(q: Position, s: string, acc: string)
    requires TextAt(q, Escape(s) + "\"")
    ensures StringLoop(q, false, acc) == (acc + s, AdvanceOver(q, Escape(s)))
    decreases |s|
  {
    var w := Escape(s) + "\"";
    if |s| == 0 {
      assert w == "\"";
      StringLoopAtQuote(q, acc);
      assert acc + s == acc;
    } else {
      var head, rest := EscapeOne(s[0]), Escape(s[1..]);
      calc {
        StringLoop(q, false, acc);
        == { EscapedHead(q, s, acc); }
        StringLoop(AdvanceOver(q, head), false, acc + [s[0]]);
        == { EscapedHead(q, s, acc);
             StringLoopReads(AdvanceOver(q, head), s[1..], acc + [s[0]]); }
        (acc + [s[0]] + s[1..], AdvanceOver(AdvanceOver(q, head), rest));
        == { assert acc + [s[0]] + s[1..] == acc + s;
             AdvanceOverAppend(q, head, rest); }
        (acc + s, AdvanceOver(q, head + rest));
        == { EscapedHead(q, s, acc); }
        (acc + s, AdvanceOver(q, Escape(s)));
      }
    }
  }

  /** The first written character of a literal's body, read. */
  lemma EscapedHead(q: Position, s: string, acc: string)
    requires |s| > 0 && TextAt(q, Escape(s) + "\"")
    ensures Escape(s) == EscapeOne(s[0]) + Escape(s[1..])
    ensures TextAt(AdvanceOver(q, EscapeOne(s[0])), Escape(s[1..]) + "\"")
    ensures StringLoop(q, false, acc) == StringLoop(AdvanceOver(q, EscapeOne(s[0])), false, acc + [s[0]])
  {
    var head, rest := EscapeOne(s[0]), Escape(s[1..]);
    assert Escape(s) + "\"" == head + (rest + "\"");
    EscapedCharStep(q, s[0], rest + "\"", acc);
  }

  /** Walking over `a + b` is walking over `a`, then over `b`. */
  lemma {:induction false} AdvanceOverAppend(p: Position, a: string, b: string)
    ensures AdvanceOver(p, a + b) == AdvanceOver(AdvanceOver(p, a), b)
    decreases |a|
  {
    if |a| > 0 {
      assert (a + b)[1..] == a[1..] + b;
      AdvanceOverAppend(Advance(p, Some(a[0])), a[1..], b);
    } else {
      assert a + b == b;
    }
  }

  /** String literals round-trip: a quoted, escaped `s` lexes to one STRING
      token holding `s`, spanning both quotes. */
  lemma StringRoundTrip(p: Position, s: string)
    requires TextAt(p, "\"" + Escape(s) + "\"")
    ensures var lit := "\"" + Escape(s) + "\"";
            MakeString(p) == (Token(STRING, StrVal(s), p, AdvanceOver(p, lit)), AdvanceOver(p, lit))
  {
    var body := Escape(s) + "\"";
    var lit := "\"" + body;
    assert lit == "\"" + Escape(s) + "\"";
    TextAtHead(p, lit);
    assert lit[1..] == body;
    var p1 := Adv(p);
    StringLoopReads(p1, s, "");
    TextAtSplit(p1, Escape(s), "\"");
    var q := AdvanceOver(p1, Escape(s));
    TextAtHead(q, "\"");
    assert Adv(q) == AdvanceOver(q, "\"");
    AdvanceOverAppend(p1, Escape(s), "\"");
    assert AdvanceOver(p, lit) == AdvanceOver(p1, body);
    assert "" + s == s;
  }

  /** Escapes decode through the table: `\n \t \r \b \f` become control
      characters, any other escaped character stands for itself. */
  lemma EscapedCharacter(p: Position, c: char)
    requires TextAt(p, ['"', '\\', c, '"'])
    ensures MakeString(p).0.value == StrVal([EscapeChar(c)])
    ensures c in "ntrbf" ==> EscapeChar(c) != c
    ensures c !in "ntrbf" ==> EscapeChar(c) == c
  {
    var w := ['"', '\\', c, '"'];
    TextAtHead(p, w);
    assert w[1..] == ['\\', c, '"'];
    EscapeInLoop(Adv(p), c);
    assert "" + [EscapeChar(c)] == [EscapeChar(c)];
  }

  /** The loop of `make_string` over a backslash, a character and the
      closing quote. */
  lemma EscapeInLoop(p1: Position, c: char)
    requires TextAt(p1, ['\\', c, '"'])
    ensures StringLoop(p1, false, "").0 == [EscapeChar(c)]
  {
    var w := ['\\', c, '"'];
    TextAtHead(p1, w);
    assert w[1..] == [c, '"'];
    var p2 := Adv(p1);
    TextAtHead(p2, [c, '"']);
    var p3 := Adv(p2);
    TextAtHead(p3, ['"']);
    assert StringLoop(p3, false, [EscapeChar(c)]) == ([EscapeChar(c)], p3);
    assert "" + [EscapeChar(c)] == [EscapeChar(c)];
    assert StringLoop(p2, true, "") == StringLoop(p3, false, [EscapeChar(c)]);
    assert StringLoop(p1, false, "") == StringLoop(p2, true, "");
  }

  /** A string with no closing quote is not an error: it takes the rest of
      the text and its end lies one step past the end of the text. */
  lemma UnterminatedString(p: Position, body: string)
    requires TextAt(p, "\"" + body) && p.idx + 1 + |body| == |p.ftxt|
    requires '"' !in body && '\\' !in body
    ensures MakeString(p).0.value == StrVal(body)
    ensures MakeString(p).1.idx == |p.ftxt| + 1
  {
    TextAtHead(p, "\"" + body);
    assert ("\"" + body)[1..] == body;
    assert Plain(body) by {
      forall i | 0 <= i < |body| ensures body[i] != '"' && body[i] != '\\' {
        assert body[i] in body;
      }
    }
    StringLoopPlain(Adv(p), body, "");
  }

  /** No quote and no backslash: every character is read as itself. */
  predicate Plain(body: string) {
    forall i | 0 <= i < |body| :: body[i] != '"' && body[i] != '\\'
  }

  lemma {:induction false} StringLoopPlain(q: Position, body: string, acc: string)
    requires TextAt(q, body) && q.idx + |body| == |q.ftxt| && Plain(body)
    ensures StringLoop(q, false, acc).0 == acc + body
    ensures StringLoop(q, false, acc).1.idx == |q.ftxt|
    decreases |body|
  {
    if |body| > 0 {
      PlainTail(q, body);
      StringLoopPlain(Adv(q), body[1..], acc + [body[0]]);
      StringLoopPlainStep(q, body, acc);
    }
  }

  /** What is left of a plain body once its first character is read. */
  lemma PlainTail(q: Position, body: string)
    requires TextAt(q, body) && q.idx + |body| == |q.ftxt| && Plain(body) && |body| > 0
    ensures TextAt(Adv(q), body[1..]) && Adv(q).idx + |body[1..]| == |q.ftxt| && Plain(body[1..])
    ensures body[0] != '"' && body[0] != '\\'
  {
    TextAtHead(q, body);
    var rest := body[1..];
    forall i | 0 <= i < |rest| ensures rest[i] != '"' && rest[i] != '\\' {
      assert rest[i] == body[i + 1];
    }
  }

  /** One plain character of the string loop, given the rest. */
  lemma StringLoopPlainStep(q: Position, body: string, acc: string)
    requires TextAt(q, body) && |body| > 0 && body[0] != '"' && body[0] != '\\'
    requires StringLoop(Adv(q), false, acc + [body[0]]).0 == acc + [body[0]] + body[1..]
    requires StringLoop(Adv(q), false, acc + [body[0]]).1.idx == |q.ftxt|
    ensures StringLoop(q, false, acc).0 == acc + body
    ensures StringLoop(q, false, acc).1.idx == |q.ftxt|
  {
    TextAtHead(q, body);
    assert acc + [body[0]] + body[1..] == acc + body;
  }

  // ---------------------------------------------------------------------
  // Numbers

  lemma {:induction false} NumberLoopDigits(q: Position, dots: nat, acc: string, w: string)
    requires dots <= 1 && (dots == 0 ==> AllDigits(acc))
    requires AllDigits(w) && TextAt(q, w)
    ensures dots == 0 ==> AllDigits(acc + w)
    ensures NumberLoop(q, dots, acc) == NumberLoop(AdvanceOver(q, w), dots, acc + w)
    decreases |w|
  {
    if |w| > 0 {
      TextAtHead(q, w);
      assert AllDigits(w[1..]);
      NumberLoopDigits(Adv(q), dots, acc + [w[0]], w[1..]);
      assert acc + [w[0]] + w[1..] == acc + w;
    } else {
      assert acc + w == acc;
    }
  }

  predicate EndsNumber(c: Option<char>) {
    c.None? || !(IsDigit(c.value) || c.value == '.')
  }

  /** Integer literals round-trip: the decimal text of `n`, not followed by
      a digit or a dot, lexes to one INT token holding `n`. */
  lemma NumberRoundTrip(p: Position, n: nat)
    requires TextAt(p, NatToString(n)) && EndsNumber(Cur(AdvanceOver(p, NatToString(n))))
    ensures var e := AdvanceOver(p, NatToString(n));
            MakeNumber(p) == Some((Token(INT, IntVal(n), p, e), e))
  {
    NumberLoopDigits(p, 0, "", NatToString(n));
    assert "" + NatToString(n) == NatToString(n);
    DecimalRoundTrip(n);
  }

  /** One dot makes a FLOAT, whose text is kept. */
  lemma OneDotIsFloat(p: Position, a: string, b: string)
    requires |a| > 0 && AllDigits(a) && AllDigits(b)
    requires TextAt(p, a + "." + b) && EndsNumber(Cur(AdvanceOver(p, a + "." + b)))
    ensures MakeNumber(p).Some? && MakeNumber(p).value.0.kind == FLOAT
    ensures MakeNumber(p).value.0.value == FloatVal(a + "." + b)
  {
    TextAtSplit(p, a, "." + b);
    NumberLoopDigits(p, 0, "", a);
    var q := AdvanceOver(p, a);
    TextAtHead(q, "." + b);
    assert ("." + b)[1..] == b;
    NumberLoopDigits(Adv(q), 1, a + ".", b);
    AdvanceOverAppend(p, a, "." + b);
    assert AdvanceOver(q, "." + b) == AdvanceOver(Adv(q), b);
    assert "" + a == a;
    assert a + "." + b == a + ("." + b);
  }

  /** A second dot is not a lexing error but an uncaught Python exception. */
  lemma SecondDotRaises(p: Position, a: string, b: string)
    requires |a| > 0 && AllDigits(a) && AllDigits(b)
    requires TextAt(p, a + "." + b + ".")
    ensures MakeNumber(p).None?
    ensures StepAt(p) == Raise(TooManyDots)
  {
    SecondDotLoop(p, a, b);
    TextAtHead(p, a + "." + b + ".");
    assert (a + "." + b + ".")[0] == a[0];
    assert StepAt(p) == StepWord(p);
  }

  lemma SecondDotLoop(p: Position, a: string, b: string)
    requires |a| > 0 && AllDigits(a) && AllDigits(b)
    requires TextAt(p, a + "." + b + ".")
    ensures NumberLoop(p, 0, "") == None
  {
    var rest := "." + (b + ".");
    assert a + "." + b + "." == a + rest;
    TextAtSplit(p, a, rest);
    NumberLoopDigits(p, 0, "", a);
    assert "" + a == a;
    var q := AdvanceOver(p, a);
    assert NumberLoop(p, 0, "") == NumberLoop(q, 0, a);
    TextAtHead(q, rest);
    assert rest[1..] == b + ".";
    var q1 := Adv(q);
    assert NumberLoop(q, 0, a) == NumberLoop(q1, 1, a + ".");
    TextAtSplit(q1, b, ".");
    NumberLoopDigits(q1, 1, a + ".", b);
    var q2 := AdvanceOver(q1, b);
    TextAtHead(q2, ".");
    assert NumberLoop(q2, 1, a + "." + b) == None;
  }

  // ---------------------------------------------------------------------
  // Identifiers and keywords

  lemma {:induction false} IdentLoopWord(q: Position, acc: string, w: string)
    requires (forall i :: 0 <= i < |w| ==> IsIdentChar(w[i])) && TextAt(q, w)
    ensures IdentLoop(q, acc) == IdentLoop(AdvanceOver(q, w), acc + w)
    decreases |w|
  {
    if |w| > 0 {
      TextAtHead(q, w);
      IdentLoopWord(Adv(q), acc + [w[0]], w[1..]);
      assert acc + [w[0]] + w[1..] == acc + w;
    } else {
      assert acc + w == acc;
    }
  }

  /** A word that starts with a letter and runs over letters, digits and
      underscores is one token: KEYWORD exactly when it is a reserved word,
      IDENTIFIER otherwise, holding the word itself. */
  lemma IdentifierWord(p: Position, w: string)
    requires |w| > 0 && IsAsciiLetter(w[0]) && forall i :: 0 <= i < |w| ==> IsIdentChar(w[i])
    requires TextAt(p, w)
    requires var c := Cur(AdvanceOver(p, w)); c.None? || !IsIdentChar(c.value)
    ensures var e := AdvanceOver(p, w);
            MakeIdentifier(p).0 == Token(if IsKeyword(w) then KEYWORD else IDENTIFIER, StrVal(w), p, e)
  {
    TextAtHead(p, w);
    IdentLoopWord(p, "", w);
    assert "" + w == w;
  }
}

=== FILE: parser.dfy ===
/** The recursive-descent parser and its `ParseResult` (eel/parser.py).

    The parser's mutable state is a token index plus the token values the
    parser rewrote (`a::b` is folded into the token of `a`); the token list
    itself never changes. Every grammar rule is a function from a state to a
    `ParseResult` and the state after it. Each rule consumes tokens only
    forward, except where a failed `try_register` is undone by `reverse`, and
    the number of advances it registers never exceeds the number of tokens it
    moved over: that is what makes every `reverse` land inside the list. */
module Parser {
  import opened Basics
  import opened Positions
  import opened Tokens
  import opened Errors
  import opened Ast

  // ---------------------------------------------------------------------------
  // ParseResult

  /** `ParseResult`: the first error that stuck, the node, how many tokens
      were registered as consumed, and how many a failed `try_register` asks
      the caller to give back. */
  datatype PR<T> = PR(error: Option<PErr>, node: Option<T>, count: nat, toReverse: nat)

  function Fresh<T>(): PR<T> {
    PR(None, None, 0, 0)
  }

  /** `register(res)`: adds the sub-result's advances, takes over its error if
      it has one, and hands back its node. */
  function Register<T, U>(self: PR<T>, sub: PR<U>): (PR<T>, Option<U>) {
    (self.(count := self.count + sub.count, error := if sub.error.Some? then sub.error else self.error),
     sub.node)
  }

  /** `try_register(res)`: a failed sub-result is not registered at all; its
      advance count is recorded for the caller to reverse. */
  function TryRegister<T, U>(self: PR<T>, sub: PR<U>): (PR<T>, Option<U>) {
    if sub.error.Some? then (self.(toReverse := sub.count), None) else Register(self, sub)
  }

  function RegisterAdvance<T>(self: PR<T>): PR<T> {
    self.(count := self.count + 1)
  }

  function Success<T>(self: PR<T>, n: T): PR<T> {
    self.(node := Some(n))
  }

  /** `failure(error)`: the new error is kept unless an error is already
      recorded and some token has been consumed. */
  function Failure<T>(self: PR<T>, e: PErr): PR<T> {
    if self.error.None? || self.count == 0 then self.(error := Some(e)) else self
  }

  /** A syntax error spanning token `t`. */
  function Fail<T>(self: PR<T>, msg: Msg, t: Token): PR<T> {
    Failure(self, Syntax(msg, t.start, t.end))
  }

  /** Which error a rule reports when a sub-rule failed and the rule then
      calls `failure` with its own, more general message: the sub-rule's
      error survives exactly when some token was consumed on the way. */
  lemma SpecificErrorWins<T, U>(self: PR<T>, sub: PR<U>, e: PErr)
    requires self.error.None? && sub.error.Some?
    ensures var f := Failure(Register(self, sub).0, e);
            f.error == (if self.count + sub.count > 0 then sub.error else Some(e))
    ensures Failure(Register(self, sub).0, e).count == self.count + sub.count
  {
  }

  /** A failed `try_register` leaves no trace but the amount to reverse; a
      successful one is an ordinary `register`. */
  lemma TryRegisterIsUndoable<T, U>(self: PR<T>, sub: PR<U>)
    ensures sub.error.Some? ==>
      TryRegister(self, sub).0 == self.(toReverse := sub.count) && TryRegister(self, sub).1.None?
    ensures sub.error.None? ==> TryRegister(self, sub) == Register(self, sub)
  {
  }

  /** Once an error is recorded and a token consumed, later failures change
      nothing: the first specific error is the one reported. */
  lemma FailureIsSticky<T>(self: PR<T>, e1: PErr, e2: PErr)
    requires self.count > 0
    ensures Failure(Failure(self, e1), e2) == Failure(self, e1)
    ensures self.error.None? ==> Failure(Failure(self, e1), e2).error == Some(e1)
  {
  }

  // ---------------------------------------------------------------------------
  // The token cursor

  /** The source keeps `tok_idx` and a `current_tok` that `advance` and
      `reverse` update only while the index is inside the list. */
  datatype Cursor = Cursor(idx: int, cur: int)

  function CursorAdvance(n: nat, c: Cursor): Cursor {
    Cursor(c.idx + 1, if 0 <= c.idx + 1 < n then c.idx + 1 else c.cur)
  }

  function CursorReverse(n: nat, c: Cursor, amount: nat): Cursor {
    Cursor(c.idx - amount, if 0 <= c.idx - amount < n then c.idx - amount else c.cur)
  }

  predicate Clamped(n: nat, c: Cursor) {
    c.idx >= 0 && c.cur == (if c.idx < n then c.idx else n - 1)
  }

  /** Construction advances from -1 to the first token; from then on, as long
      as no reverse goes before the start, the current token is always the
      one at the index clamped to the last token. This is what `Cur` reads. */
  lemma CursorIsClamped(n: nat, c: Cursor, amount: nat)
    requires n > 0
    ensures Clamped(n, CursorAdvance(n, Cursor(-1, -1)))
    ensures Clamped(n, c) ==> Clamped(n, CursorAdvance(n, c))
    ensures Clamped(n, c) && amount <= c.idx ==> Clamped(n, CursorReverse(n, c, amount))
  {
  }

  /** The parser state: the token index, and the values of tokens the parser
      has rewritten. */
  datatype PState = PState(idx: nat, vals: map<nat, TokValue>)

  /** A token list as the lexer hands it over: never empty, ending in EOF. */
  predicate Valid(toks: seq<Token>) {
    |toks| > 0 && toks[|toks| - 1].kind == EOF
  }

  function CurIndex(toks: seq<Token>, s: PState): nat
    requires |toks| > 0
  {
    if s.idx < |toks| then s.idx else |toks| - 1
  }

  /** `current_tok`, with any rewritten value. */
  function Cur(toks: seq<Token>, s: PState): Token
    requires Valid(toks)
  {
    var i := CurIndex(toks, s);
    if i in s.vals then toks[i].(value := s.vals[i]) else toks[i]
  }

  function Next(s: PState): PState {
    s.(idx := s.idx + 1)
  }

  function Back(s: PState, amount: nat): PState
    requires amount <= s.idx
  {
    s.(idx := s.idx - amount)
  }

  /** Tokens left before the index runs off the list; the termination
      measure of every rule. */
  function Left(toks: seq<Token>, s: PState): nat {
    if s.idx < |toks| then |toks| - s.idx else 0
  }

  /** Only the last token is EOF, so the cursor sits on any other kind only
      with tokens left after it. */
  lemma NotEofHasNext(toks: seq<Token>, s: PState)
    requires Valid(toks) && Cur(toks, s).kind != EOF
    ensures s.idx + 1 < |toks| && Left(toks, Next(s)) < Left(toks, s)
  {
  }

  /** A rule moved forward from `s` to `s'` and registered at most as many
      advances (on top of `base`) as tokens it moved over. */
  predicate Progress(s: PState, s': PState, count: nat, base: nat) {
    s.idx <= s'.idx && count <= base + (s'.idx - s.idx)
  }

  /** The contract every grammar rule keeps: progress from a fresh result,
      and a node whenever there is no error. */
  predicate Sound<T>(s: PState, r: (PR<T>, PState)) {
    Progress(s, r.1, r.0.count, 0) && (r.0.error.None? ==> r.0.node.Some?)
  }

  // ---------------------------------------------------------------------------
  // Messages

  /** The message of a syntax error. The lists of what may start a rule are
      named; `Expected(w)` reads "Expected " followed by `w`. */
  datatype Msg =
    | StatementExpected | ExprExpected | CompExpected | ArgExpected | AtomExpected | ElementExpected
    | TrailingToken
    | Expected(what: string)

  function MsgText(m: Msg): string {
    match m
    case StatementExpected => "Expected 'RETURN', 'IMPORT', 'CONTINUE', 'BREAK', 'VAR', 'IF', 'FOR', 'WHILE', 'FN', int, float, identifier, '+', '-', '(', '[' or 'NOT'"
    case ExprExpected => "Expected 'VAR', 'IF', 'FOR', 'WHILE', 'FN', int, float, identifier, '+', '-', '(', '[' or 'NOT'"
    case CompExpected => "Expected int, float, identifier, '+', '-', 'NOT', '[', or '('"
    // The source spells the keyword 'FUN' in this one message.
    case ArgExpected => "Expected ')', 'VAR', 'IF', 'FOR', 'WHILE', 'FUN', int, float, identifier, '+', '-', '(', '[' or 'NOT'"
    case AtomExpected => "Expected int, float, identifier, '+', '-', '(', '[', 'IF', 'FOR', 'WHILE', or 'FN'"
    case ElementExpected => "Expected ']', 'VAR', 'IF', 'FOR', 'WHILE', 'FN', int, float, identifier, '+', '-', '(', '[' or 'NOT'"
    case TrailingToken => "Token cannot appear after previous token"
    case Expected(w) => "Expected " + w
  }

  /** The error a parse records: an Invalid Syntax Error, or the Runtime
      Error raised when `::` is not followed by a name. */
  datatype PErr = Syntax(msg: Msg, start: Position, end: Position) | ScopeError(start: Position, end: Position)

  /** The error object the source builds for each. */
  function ToError(e: PErr): (r: Error)
    ensures r.kind == (if e.Syntax? then InvalidSyntax else Runtime)
    ensures r.start == Some(e.start) && r.end == Some(e.end) && r.ctx.None?
  {
    match e
    case Syntax(m, a, b) => InvalidSyntaxError(MsgText(m), a, b)
    case ScopeError(a, b) => RTError("Expected identifier after '::'", Some(a), Some(b), None)
  }

  // ---------------------------------------------------------------------------
  // Binary operator levels

  /** The five `bin_op` call sites, loosest first. */
  datatype Level = LogicOps | CompOps | ArithOps | TermOps | PowOps

  /** The operator tuple of each level; the logical operators are keywords
      and match on (kind, value). */
  predicate IsOp(l: Level, t: Token) {
    match l
    case LogicOps => t.kind == KEYWORD && (t.value == StrVal("AND") || t.value == StrVal("OR") || t.value == StrVal("XOR"))
    case CompOps => t.kind == EE || t.kind == NE || t.kind == LT || t.kind == GT || t.kind == LTE || t.kind == GTE
    case ArithOps => t.kind == PLUS || t.kind == MINUS
    case TermOps => t.kind == MUL || t.kind == DIV || t.kind == MOD
    case PowOps => t.kind == POW
  }

  /** Rank of a rule among those that may run without consuming a token:
      a rule only calls a lower-ranked rule at the same position. */
  function BinOpRank(l: Level): nat {
    match l
    case LogicOps => 85
    case CompOps => 75
    case ArithOps => 65
    case TermOps => 55
    case PowOps => 40
  }

  function OperandRank(l: Level, second: bool): nat {
    if second && l == PowOps then 51 else BinOpRank(l) - 2
  }

  /** The body of a FOR or WHILE, and whether it was a NEWLINE block. */
  datatype Block = Block(body: Node, returnsNull: bool)

  type Cases = (seq<IfCase>, Option<ElseCase>)

  /** `res.register(rule()); if res.error: return res; return res.success(node)`:
      the rule's outcome without its reverse count. */
  function Relay<T>(r: (PR<T>, PState)): (r': (PR<T>, PState))
    requires r.0.error.None? ==> r.0.node.Some?
    ensures r'.1 == r.1 && r'.0.error == r.0.error && r'.0.count == r.0.count && r'.0.toReverse == 0
    ensures r'.0.node == (if r.0.error.None? then r.0.node else None)
  {
    var (res, n) := Register(Fresh<T>(), r.0);
    if res.error.Some? then (res, r.1) else (Success(res, n.value), r.1)
  }

  // ---------------------------------------------------------------------------
  // The grammar

  /** `parse()`: statements, then nothing but EOF. */
  function Parse(toks: seq<Token>): (r: (PR<Node>, PState))
    requires Valid(toks)
    ensures Sound(PState(0, map[]), r)
    ensures r.0.error.None? ==> Cur(toks, r.1).kind == EOF
  {
    var (res, s) := Statements(toks, PState(0, map[]));
    var t := Cur(toks, s);
    if res.error.None? && t.kind != EOF then (Fail(res, TrailingToken, t), s) else (res, s)
  }

  /** Skips NEWLINE tokens, registering each, and says how many. */
  function SkipNewlines(toks: seq<Token>, s: PState, res: PR<Node>): (r: (PR<Node>, PState, nat))
    requires Valid(toks)
    ensures r.1 == s.(idx := s.idx + r.2) && r.0 == res.(count := res.count + r.2)
    ensures Cur(toks, r.1).kind != NEWLINE
    decreases Left(toks, s)
  {
    if Cur(toks, s).kind == NEWLINE then
      var (res1, s1, n) := SkipNewlines(toks, Next(s), RegisterAdvance(res));
      (res1, s1, n + 1)
    else (res, s, 0)
  }

  function Statements(toks: seq<Token>, s: PState): (r: (PR<Node>, PState))
    requires Valid(toks)
    ensures Sound(s, r)
    decreases Left(toks, s), 100
  {
    var start := Cur(toks, s).start;
    var (res1, s1, _) := SkipNewlines(toks, s, Fresh<Node>());
    var (sub, s2) := Statement(toks, s1);
    var (res2, st) := Register(res1, sub);
    if res2.error.Some? then (res2, s2)
    else StatementsLoop(toks, s2, res2, [st.value], start)
  }

  /** The `while True` loop of `statements`: a further statement is tried
      only after at least one NEWLINE; a statement that fails is reversed,
      one more run of NEWLINEs is skipped, and the list ends. */
  function StatementsLoop(toks: seq<Token>, s: PState, res: PR<Node>, stmts: seq<Node>, start: Position)
    : (r: (PR<Node>, PState))
    requires Valid(toks) && res.error.None?
    ensures Progress(s, r.1, r.0.count, res.count)
    ensures r.0.error.None? && r.0.node.Some? && r.0.node.value.ListNode?
    ensures |r.0.node.value.elements| >= |stmts| && r.0.node.value.elements[..|stmts|] == stmts
    decreases Left(toks, s), 99
  {
    var (res1, s1, n) := SkipNewlines(toks, s, res);
    if n == 0 then (Success(res1, ListNode(stmts, start, Cur(toks, s1).end)), s1)
    else
      var (sub, s2) := Statement(toks, s1);
      var (res2, st) := TryRegister(res1, sub);
      if st.None? then
        var (res3, s3, _) := SkipNewlines(toks, Back(s2, res2.toReverse), res2);
        (Success(res3, ListNode(stmts, start, Cur(toks, s3).end)), s3)
      else
        var r := StatementsLoop(toks, s2, res2, stmts + [st.value], start);
        PrefixOfLonger(stmts, [st.value], r.0.node.value.elements);
        r
  }

  function Statement(toks: seq<Token>, s: PState): (r: (PR<Node>, PState))
    requires Valid(toks)
    ensures Sound(s, r)
    decreases Left(toks, s), 95
  {
    var t := Cur(toks, s);
    var start := t.start;
    if IsKeywordTok(t, "RETURN") || IsKeywordTok(t, "IMPORT") then
      var (sub, s1) := Expr(toks, Next(s));
      var (res1, e) := TryRegister(RegisterAdvance(Fresh<Node>()), sub);
      var s2 := if e.None? then Back(s1, res1.toReverse) else s1;
      var end := Cur(toks, s2).start;
      (Success(res1, if IsKeywordTok(t, "RETURN") then ReturnNode(e, start, end) else ImportNode(e, start, end)), s2)
    else if IsKeywordTok(t, "CONTINUE") || IsKeywordTok(t, "BREAK") then
      var s1 := Next(s);
      var end := Cur(toks, s1).start;
      (Success(RegisterAdvance(Fresh<Node>()),
               if IsKeywordTok(t, "CONTINUE") then ContinueNode(start, end) else BreakNode(start, end)), s1)
    else
      var (sub, s1) := Expr(toks, s);
      var (res1, e) := Register(Fresh<Node>(), sub);
      if res1.error.Some? then (Failure(res1, Syntax(StatementExpected, start, Cur(toks, s1).end)), s1)
      else (Success(res1, e.value), s1)
  }

  function Expr(toks: seq<Token>, s: PState): (r: (PR<Node>, PState))
    requires Valid(toks)
    ensures Sound(s, r)
    decreases Left(toks, s), 90
  {
    if IsKeywordTok(Cur(toks, s), "VAR") then
      var s1 := Next(s);
      var res1 := RegisterAdvance(Fresh<Node>());
      var name := Cur(toks, s1);
      if name.kind != IDENTIFIER then (Fail(res1, Expected("Identifier"), name), s1)
      else
        var s2 := Next(s1);
        var res2 := RegisterAdvance(res1);
        if Cur(toks, s2).kind != EQ then (Fail(res2, Expected("'='"), Cur(toks, s2)), s2)
        else
          var (sub, s3) := Expr(toks, Next(s2));
          var (res3, e) := Register(RegisterAdvance(res2), sub);
          if res3.error.Some? then (res3, s3) else (Success(res3, VarAssignNode(name, e.value)), s3)
    else
      var (sub, s1) := BinOp(toks, LogicOps, s);
      var (res1, n) := Register(Fresh<Node>(), sub);
      if res1.error.Some? then (Fail(res1, ExprExpected, Cur(toks, s1)), s1)
      else (Success(res1, n.value), s1)
  }

  function CompExpr(toks: seq<Token>, s: PState): (r: (PR<Node>, PState))
    requires Valid(toks)
    ensures Sound(s, r)
    decreases Left(toks, s), 80
  {
    var t := Cur(toks, s);
    if IsKeywordTok(t, "NOT") then
      var (sub, s1) := CompExpr(toks, Next(s));
      var (res1, n) := Register(RegisterAdvance(Fresh<Node>()), sub);
      if res1.error.Some? then (res1, s1) else (Success(res1, UnaryOpNode(t, n.value)), s1)
    else
      var (sub, s1) := BinOp(toks, CompOps, s);
      var (res1, n) := Register(Fresh<Node>(), sub);
      if res1.error.Some? then (Fail(res1, CompExpected, Cur(toks, s1)), s1)
      else (Success(res1, n.value), s1)
  }

  function ArithExpr(toks: seq<Token>, s: PState): (r: (PR<Node>, PState))
    requires Valid(toks)
    ensures Sound(s, r)
    decreases Left(toks, s), 70
  {
    BinOp(toks, ArithOps, s)
  }

  function Term(toks: seq<Token>, s: PState): (r: (PR<Node>, PState))
    requires Valid(toks)
    ensures Sound(s, r)
    decreases Left(toks, s), 60
  {
    BinOp(toks, TermOps, s)
  }

  function Factor(toks: seq<Token>, s: PState): (r: (PR<Node>, PState))
    requires Valid(toks)
    ensures Sound(s, r)
    decreases Left(toks, s), 50
  {
    var t := Cur(toks, s);
    if t.kind == PLUS || t.kind == MINUS then
      var (sub, s1) := Factor(toks, Next(s));
      var (res1, f) := Register(RegisterAdvance(Fresh<Node>()), sub);
      if res1.error.Some? then (res1, s1) else (Success(res1, UnaryOpNode(t, f.value)), s1)
    else Power(toks, s)
  }

  /** `power`: calls joined by `^`, whose right operands are whole factors. */
  function Power(toks: seq<Token>, s: PState): (r: (PR<Node>, PState))
    requires Valid(toks)
    ensures Sound(s, r)
    decreases Left(toks, s), 45
  {
    BinOp(toks, PowOps, s)
  }

  /** `func_a` (`second` false) or `func_b` (`second` true) of a level. */
  function Operand(toks: seq<Token>, l: Level, second: bool, s: PState): (r: (PR<Node>, PState))
    requires Valid(toks)
    ensures Sound(s, r)
    decreases Left(toks, s), OperandRank(l, second)
  {
    match l
    case LogicOps => CompExpr(toks, s)
    case CompOps => ArithExpr(toks, s)
    case ArithOps => Term(toks, s)
    case TermOps => Factor(toks, s)
    case PowOps => if second then Factor(toks, s) else Call(toks, s)
  }

  /** `bin_op(func_a, ops, func_b)`. */
  function BinOp(toks: seq<Token>, l: Level, s: PState): (r: (PR<Node>, PState))
    requires Valid(toks)
    ensures Sound(s, r)
    decreases Left(toks, s), BinOpRank(l)
  {
    var (sub, s1) := Operand(toks, l, false, s);
    var (res1, left) := Register(Fresh<Node>(), sub);
    if res1.error.Some? then (res1, s1) else BinOpLoop(toks, l, s1, res1, left.value)
  }

  /** The `while` loop of `bin_op`: each operator makes the tree built so far
      the left child of a new node. */
  function BinOpLoop(toks: seq<Token>, l: Level, s: PState, res: PR<Node>, left: Node): (r: (PR<Node>, PState))
    requires Valid(toks) && res.error.None?
    ensures Progress(s, r.1, r.0.count, res.count) && (r.0.error.None? ==> r.0.node.Some?)
    ensures r.0.error.None? ==> !IsOp(l, Cur(toks, r.1))
    decreases Left(toks, s), BinOpRank(l) - 1
  {
    var t := Cur(toks, s);
    if IsOp(l, t) then
      var (sub, s1) := Operand(toks, l, true, Next(s));
      var (res1, right) := Register(RegisterAdvance(res), sub);
      if res1.error.Some? then (res1, s1) else BinOpLoop(toks, l, s1, res1, BinOpNode(left, t, right.value))
    else (Success(res, left), s)
  }

  function Call(toks: seq<Token>, s: PState): (r: (PR<Node>, PState))
    requires Valid(toks)
    ensures Sound(s, r)
    decreases Left(toks, s), 35
  {
    var (sub, s1) := Atom(toks, s);
    var (res1, atom) := Register(Fresh<Node>(), sub);
    if res1.error.Some? then (res1, s1)
    else if Cur(toks, s1).kind != LPAREN then (Success(res1, atom.value), s1)
    else
      var s2 := Next(s1);
      var res2 := RegisterAdvance(res1);
      if Cur(toks, s2).kind == RPAREN then (Success(RegisterAdvance(res2), CallNode(atom.value, [])), Next(s2))
      else
        var (sub3, s3) := Expr(toks, s2);
        var (res3, a) := Register(res2, sub3);
        if res3.error.Some? then (Fail(res3, ArgExpected, Cur(toks, s3)), s3)
        else
          var (res4, s4, args) := ExprListTail(toks, s3, res3, [a.value]);
          if res4.error.Some? then (res4, s4)
          else if Cur(toks, s4).kind != RPAREN then (Fail(res4, Expected("',' or ')'"), Cur(toks, s4)), s4)
          else (Success(RegisterAdvance(res4), CallNode(atom.value, args)), Next(s4))
  }

  /** The `while COMMA` loop shared by call arguments and list elements. */
  function ExprListTail(toks: seq<Token>, s: PState, res: PR<Node>, acc: seq<Node>): (r: (PR<Node>, PState, seq<Node>))
    requires Valid(toks) && res.error.None?
    ensures Progress(s, r.1, r.0.count, res.count)
    ensures r.0.error.None? ==> Cur(toks, r.1).kind != COMMA && |r.2| >= |acc| && r.2[..|acc|] == acc
    decreases Left(toks, s), 10
  {
    if Cur(toks, s).kind != COMMA then (res, s, acc)
    else
      var (sub, s1) := Expr(toks, Next(s));
      var (res1, e) := Register(RegisterAdvance(res), sub);
      if res1.error.Some? then (res1, s1, acc)
      else
        var r := ExprListTail(toks, s1, res1, acc + [e.value]);
        if r.0.error.None? then PrefixOfLonger(acc, [e.value], r.2); r else r
  }

  function Atom(toks: seq<Token>, s: PState): (r: (PR<Node>, PState))
    requires Valid(toks)
    ensures Sound(s, r)
    decreases Left(toks, s), 30
  {
    var t := Cur(toks, s);
    if t.kind == INT || t.kind == FLOAT then (Success(RegisterAdvance(Fresh()), NumberNode(t)), Next(s))
    else if t.kind == STRING then (Success(RegisterAdvance(Fresh()), StringNode(t)), Next(s))
    else if t.kind == IDENTIFIER then NameAtom(toks, s)
    else if t.kind == LPAREN then ParenAtom(toks, s)
    else CompoundAtom(toks, s)
  }

  /** The atoms that are whole constructs: list and dictionary literals, IF,
      FOR, WHILE and FN, each relayed through a fresh result. */
  function CompoundAtom(toks: seq<Token>, s: PState): (r: (PR<Node>, PState))
    requires Valid(toks)
    ensures Sound(s, r)
    decreases Left(toks, s), 29
  {
    var t := Cur(toks, s);
    if t.kind == LBRACKET then Relay(ListExpr(toks, s))
    else if t.kind == LCURLY then Relay(DictExpr(toks, s))
    else if IsKeywordTok(t, "IF") then Relay(IfExpr(toks, s))
    else if IsKeywordTok(t, "FOR") then Relay(ForExpr(toks, s))
    else if IsKeywordTok(t, "WHILE") then Relay(WhileExpr(toks, s))
    else if IsKeywordTok(t, "FN") then Relay(FuncDef(toks, s))
    else (Fail(Fresh(), AtomExpected, t), s)
  }

  /** An identifier, or two joined by `::`. */
  function NameAtom(toks: seq<Token>, s: PState): (r: (PR<Node>, PState))
    requires Valid(toks) && Cur(toks, s).kind == IDENTIFIER
    ensures Sound(s, r)
    decreases Left(toks, s), 29
  {
    var t := Cur(toks, s);
    var s1 := Next(s);
    var res1 := RegisterAdvance(Fresh<Node>());
    if Cur(toks, s1).kind != DUBCOL then (Success(res1, VarAccessNode(t)), s1)
    else
      var s2 := Next(s1);
      var res2 := RegisterAdvance(res1);
      var u := Cur(toks, s2);
      if u.kind == IDENTIFIER then
        // The right-hand name is stepped over without being registered.
        var joined := StrVal(TokText(t) + "::" + TokText(u));
        (Success(res2, VarAccessNode(t.(value := joined))), PState(s2.idx + 1, s2.vals[CurIndex(toks, s) := joined]))
      else (Failure(res2, ScopeError(t.start, u.end)), s2)
  }

  /** A parenthesised expression. */
  function ParenAtom(toks: seq<Token>, s: PState): (r: (PR<Node>, PState))
    requires Valid(toks) && Cur(toks, s).kind == LPAREN
    ensures Sound(s, r)
    decreases Left(toks, s), 29
  {
    var (sub, s1) := Expr(toks, Next(s));
    var (res1, e) := Register(RegisterAdvance(Fresh<Node>()), sub);
    if res1.error.Some? then (res1, s1)
    else if Cur(toks, s1).kind == RPAREN then (Success(RegisterAdvance(res1), e.value), Next(s1))
    else (Fail(res1, Expected("')'"), Cur(toks, s1)), s1)
  }

  function ListExpr(toks: seq<Token>, s: PState): (r: (PR<Node>, PState))
    requires Valid(toks)
    ensures Sound(s, r)
    decreases Left(toks, s), 25
  {
    var start := Cur(toks, s).start;
    if Cur(toks, s).kind != LBRACKET then (Fail(Fresh(), Expected("'['"), Cur(toks, s)), s)
    else
      var s1 := Next(s);
      var res1 := RegisterAdvance(Fresh<Node>());
      if Cur(toks, s1).kind == RBRACKET then
        var s2 := Next(s1);
        (Success(RegisterAdvance(res1), ListNode([], start, Cur(toks, s2).end)), s2)
      else
        var (sub, s2) := Expr(toks, s1);
        var (res2, e) := Register(res1, sub);
        if res2.error.Some? then (Fail(res2, ElementExpected, Cur(toks, s2)), s2)
        else
          var (res3, s3, elems) := ExprListTail(toks, s2, res2, [e.value]);
          if res3.error.Some? then (res3, s3)
          else if Cur(toks, s3).kind != RBRACKET then (Fail(res3, Expected("',' or ']'"), Cur(toks, s3)), s3)
          else
            var s4 := Next(s3);
            (Success(RegisterAdvance(res3), ListNode(elems, start, Cur(toks, s4).end)), s4)
  }

  /** `dict_expr`. After the first entry each key is followed by one token
      that is stepped over unconditionally before the ':' is looked for. An
      empty `{}` is also followed by the closing check, which then needs a
      second '}'. */
  function DictExpr(toks: seq<Token>, s: PState): (r: (PR<Node>, PState))
    requires Valid(toks)
    ensures Sound(s, r)
    decreases Left(toks, s), 25
  {
    var start := Cur(toks, s).start;
    if Cur(toks, s).kind != LCURLY then (Fail(Fresh(), Expected("'{'"), Cur(toks, s)), s)
    else
      var s1 := Next(s);
      var res1 := RegisterAdvance(Fresh<Node>());
      if Cur(toks, s1).kind == RCURLY then DictClose(toks, Next(s1), RegisterAdvance(res1), [], start)
      else
        var (subK, s2) := Expr(toks, s1);
        var (res2, k) := Register(res1, subK);
        if Cur(toks, s2).kind != COLON then
          (Failure(res2, Syntax(Expected("':'"), start, Cur(toks, s2).end)), s2)
        else
          var (subV, s3) := Expr(toks, Next(s2));
          var (res3, v) := Register(RegisterAdvance(res2), subV);
          if res3.error.Some? then (res3, s3)
          else
            var (res4, s4, items) := DictLoop(toks, s3, res3, [DictItem(k.value, v.value)], start);
            if res4.error.Some? then (res4, s4) else DictClose(toks, s4, res4, items, start)
  }

  /** The closing '}' check that ends `dict_expr`. */
  function DictClose(toks: seq<Token>, s: PState, res: PR<Node>, items: seq<DictItem>, start: Position)
    : (r: (PR<Node>, PState))
    requires Valid(toks) && res.error.None?
    ensures Progress(s, r.1, r.0.count, res.count) && (r.0.error.None? ==> r.0.node.Some?)
    ensures r.0.error.None? <==> Cur(toks, s).kind == RCURLY
    ensures r.0.error.None? ==> r.0.node == Some(DictNode(items, start, Cur(toks, r.1).end)) && r.1 == Next(s)
  {
    if Cur(toks, s).kind != RCURLY then (Fail(res, Expected("',' or '}'"), Cur(toks, s)), s)
    else
      var s1 := Next(s);
      (Success(RegisterAdvance(res), DictNode(items, start, Cur(toks, s1).end)), s1)
  }

  /** The `while COMMA` loop of `dict_expr`. */
  function DictLoop(toks: seq<Token>, s: PState, res: PR<Node>, items: seq<DictItem>, start: Position)
    : (r: (PR<Node>, PState, seq<DictItem>))
    requires Valid(toks) && res.error.None?
    ensures Progress(s, r.1, r.0.count, res.count)
    ensures r.0.error.None? ==> Cur(toks, r.1).kind != COMMA
    decreases Left(toks, s), 10
  {
    if Cur(toks, s).kind != COMMA then (res, s, items)
    else
      NotEofHasNext(toks, s);
      var (subK, s1) := Expr(toks, Next(s));
      var (res1, k) := Register(RegisterAdvance(res), subK);
      var s2 := Next(s1);
      var res2 := RegisterAdvance(res1);
      if Cur(toks, s2).kind != COLON then
        (Failure(res2, Syntax(Expected("':'"), start, Cur(toks, s2).end)), s2, items)
      else
        var (subV, s3) := Expr(toks, Next(s2));
        var (res3, v) := Register(RegisterAdvance(res2), subV);
        if res3.error.Some? then (res3, s3, items)
        else DictLoop(toks, s3, res3, items + [DictItem(k.value, v.value)], start)
  }

  function IfExpr(toks: seq<Token>, s: PState): (r: (PR<Node>, PState))
    requires Valid(toks)
    ensures Sound(s, r)
    decreases Left(toks, s), 25
  {
    var (sub, s1) := IfCases(toks, "IF", s);
    var (res1, c) := Register(Fresh<Node>(), sub);
    if res1.error.Some? then (res1, s1) else (Success(res1, IfNode(c.value.0, c.value.1)), s1)
  }

  function IfElif(toks: seq<Token>, s: PState): (r: (PR<Cases>, PState))
    requires Valid(toks)
    ensures Sound(s, r)
    decreases Left(toks, s), 22
  {
    IfCases(toks, "ELIF", s)
  }

  /** `if_expr_else`: no ELSE is a success with no else-branch. */
  function IfElse(toks: seq<Token>, s: PState): (r: (PR<Option<ElseCase>>, PState))
    requires Valid(toks)
    ensures Sound(s, r)
    decreases Left(toks, s), 21
  {
    if !IsKeywordTok(Cur(toks, s), "ELSE") then (Success(Fresh(), None), s)
    else
      var s1 := Next(s);
      var res1 := RegisterAdvance(Fresh<Option<ElseCase>>());
      if Cur(toks, s1).kind == NEWLINE then
        var (sub, s2) := Statements(toks, Next(s1));
        var (res2, st) := Register(RegisterAdvance(res1), sub);
        if res2.error.Some? then (res2, s2)
        else if IsKeywordTok(Cur(toks, s2), "END") then
          (Success(RegisterAdvance(res2), Some(ElseCase(st.value, true))), Next(s2))
        else (Fail(res2, Expected("'END'"), Cur(toks, s2)), s2)
      else
        var (sub, s2) := Statement(toks, s1);
        var (res2, e) := Register(res1, sub);
        if res2.error.Some? then (res2, s2) else (Success(res2, Some(ElseCase(e.value, false))), s2)
  }

  function IfElifOrElse(toks: seq<Token>, s: PState): (r: (PR<Cases>, PState))
    requires Valid(toks)
    ensures Sound(s, r)
    decreases Left(toks, s), 23
  {
    if IsKeywordTok(Cur(toks, s), "ELIF") then
      var (sub, s1) := IfElif(toks, s);
      var (res1, all) := Register(Fresh<Cases>(), sub);
      if res1.error.Some? then (res1, s1) else (Success(res1, all.value), s1)
    else
      var (sub, s1) := IfElse(toks, s);
      var (res1, e) := Register(Fresh<Cases>(), sub);
      if res1.error.Some? then (res1, s1) else (Success(res1, ([], e.value)), s1)
  }

  /** `if_expr_cases(case_keyword)`: a block body closes with END or runs on
      into ELIF/ELSE; a one-line body always runs on into ELIF/ELSE. */
  function IfCases(toks: seq<Token>, kw: string, s: PState): (r: (PR<Cases>, PState))
    requires Valid(toks)
    ensures Sound(s, r)
    decreases Left(toks, s), 20
  {
    if !IsKeywordTok(Cur(toks, s), kw) then (Fail(Fresh(), Expected("'" + kw + "'"), Cur(toks, s)), s)
    else
      var (subC, s1) := Expr(toks, Next(s));
      var (res1, cond) := Register(RegisterAdvance(Fresh<Cases>()), subC);
      if res1.error.Some? then (res1, s1)
      else if !IsKeywordTok(Cur(toks, s1), "THEN") then (Fail(res1, Expected("'THEN'"), Cur(toks, s1)), s1)
      else
        var s2 := Next(s1);
        var res2 := RegisterAdvance(res1);
        if Cur(toks, s2).kind == NEWLINE then
          var (subB, s3) := Statements(toks, Next(s2));
          var (res3, body) := Register(RegisterAdvance(res2), subB);
          if res3.error.Some? then (res3, s3)
          else
            var first := IfCase(cond.value, body.value, true);
            if IsKeywordTok(Cur(toks, s3), "END") then (Success(RegisterAdvance(res3), ([first], None)), Next(s3))
            else
              var (subR, s4) := IfElifOrElse(toks, s3);
              var (res4, rest) := Register(res3, subR);
              if res4.error.Some? then (res4, s4) else (Success(res4, ([first] + rest.value.0, rest.value.1)), s4)
        else
          var (subB, s3) := Statement(toks, s2);
          var (res3, body) := Register(res2, subB);
          if res3.error.Some? then (res3, s3)
          else
            var (subR, s4) := IfElifOrElse(toks, s3);
            var (res4, rest) := Register(res3, subR);
            if res4.error.Some? then (res4, s4)
            else (Success(res4, ([IfCase(cond.value, body.value, false)] + rest.value.0, rest.value.1)), s4)
  }

  /** The `THEN` and body shared by FOR and WHILE: a NEWLINE opens a block
      that must close with END and makes the loop yield null. */
  function LoopBody(toks: seq<Token>, s: PState, res: PR<Node>): (r: (PR<Node>, PState, Option<Block>))
    requires Valid(toks) && res.error.None?
    ensures Progress(s, r.1, r.0.count, res.count) && (r.0.error.None? ==> r.2.Some?)
    decreases Left(toks, s), 15
  {
    if !IsKeywordTok(Cur(toks, s), "THEN") then (Fail(res, Expected("'THEN'"), Cur(toks, s)), s, None)
    else
      var s1 := Next(s);
      var res1 := RegisterAdvance(res);
      if Cur(toks, s1).kind == NEWLINE then
        var (sub, s2) := Statements(toks, Next(s1));
        var (res2, b) := Register(RegisterAdvance(res1), sub);
        if res2.error.Some? then (res2, s2, None)
        else if !IsKeywordTok(Cur(toks, s2), "END") then (Fail(res2, Expected("'END'"), Cur(toks, s2)), s2, None)
        else (RegisterAdvance(res2), Next(s2), Some(Block(b.value, true)))
      else
        var (sub, s2) := Statement(toks, s1);
        var (res2, b) := Register(res1, sub);
        if res2.error.Some? then (res2, s2, None) else (res2, s2, Some(Block(b.value, false)))
  }

  function ForExpr(toks: seq<Token>, s: PState): (r: (PR<Node>, PState))
    requires Valid(toks)
    ensures Sound(s, r)
    decreases Left(toks, s), 25
  {
    if !IsKeywordTok(Cur(toks, s), "FOR") then (Fail(Fresh(), Expected("'FOR'"), Cur(toks, s)), s)
    else
      var s1 := Next(s);
      var res1 := RegisterAdvance(Fresh<Node>());
      var v := Cur(toks, s1);
      if v.kind != IDENTIFIER then (Fail(res1, Expected("identifier"), v), s1)
      else
        var s2 := Next(s1);
        var res2 := RegisterAdvance(res1);
        if Cur(toks, s2).kind != EQ then (Fail(res2, Expected("'='"), Cur(toks, s2)), s2)
        else
          var (subA, s3) := Expr(toks, Next(s2));
          var (res3, a) := Register(RegisterAdvance(res2), subA);
          if res3.error.Some? then (res3, s3) else ForTail(toks, s3, res3, v, a.value)
  }

  /** `TO expr [STEP expr]` and the body of a FOR, once the start value is
      read. */
  function ForTail(toks: seq<Token>, s: PState, res: PR<Node>, v: Token, a: Node): (r: (PR<Node>, PState))
    requires Valid(toks) && res.error.None?
    ensures Progress(s, r.1, r.0.count, res.count) && (r.0.error.None? ==> r.0.node.Some?)
    decreases Left(toks, s), 24
  {
    if !IsKeywordTok(Cur(toks, s), "TO") then (Fail(res, Expected("'TO'"), Cur(toks, s)), s)
    else
      var (subB, s4) := Expr(toks, Next(s));
      var (res4, b) := Register(RegisterAdvance(res), subB);
      if res4.error.Some? then (res4, s4)
      else
        var (subC, s5) := if IsKeywordTok(Cur(toks, s4), "STEP") then Expr(toks, Next(s4))
                          else (Fresh<Node>(), s4);
        var (res5, step) := if IsKeywordTok(Cur(toks, s4), "STEP") then Register(RegisterAdvance(res4), subC)
                            else (res4, None);
        if res5.error.Some? then (res5, s5)
        else
          var (res6, s6, body) := LoopBody(toks, s5, res5);
          if res6.error.Some? then (res6, s6)
          else (Success(res6, ForNode(v, a, b.value, step, body.value.body, body.value.returnsNull)), s6)
  }

  function WhileExpr(toks: seq<Token>, s: PState): (r: (PR<Node>, PState))
    requires Valid(toks)
    ensures Sound(s, r)
    decreases Left(toks, s), 25
  {
    if !IsKeywordTok(Cur(toks, s), "WHILE") then (Fail(Fresh(), Expected("'WHILE'"), Cur(toks, s)), s)
    else
      var (subC, s1) := Expr(toks, Next(s));
      var (res1, c) := Register(RegisterAdvance(Fresh<Node>()), subC);
      if res1.error.Some? then (res1, s1)
      else
        var (res2, s2, body) := LoopBody(toks, s1, res1);
        if res2.error.Some? then (res2, s2)
        else (Success(res2, WhileNode(c.value, body.value.body, body.value.returnsNull)), s2)
  }

  /** The parameter list of `func_def`, from just after '(' up to (not past)
      the ')'. */
  function Params(toks: seq<Token>, s: PState, res: PR<Node>): (r: (PR<Node>, PState, seq<Token>))
    requires Valid(toks) && res.error.None?
    ensures Progress(s, r.1, r.0.count, res.count)
    ensures r.0.error.None? ==> Cur(toks, r.1).kind == RPAREN
    ensures forall i | 0 <= i < |r.2| :: r.2[i].kind == IDENTIFIER
  {
    var t := Cur(toks, s);
    if t.kind == IDENTIFIER then
      var (res1, s1, ps) := ParamTail(toks, Next(s), RegisterAdvance(res), [t]);
      if res1.error.None? && Cur(toks, s1).kind != RPAREN then (Fail(res1, Expected("',' or ')'"), Cur(toks, s1)), s1, ps)
      else (res1, s1, ps)
    else if t.kind != RPAREN then (Fail(res, Expected("identifier or ')'"), t), s, [])
    else (res, s, [])
  }

  function ParamTail(toks: seq<Token>, s: PState, res: PR<Node>, acc: seq<Token>): (r: (PR<Node>, PState, seq<Token>))
    requires Valid(toks) && res.error.None?
    requires forall i | 0 <= i < |acc| :: acc[i].kind == IDENTIFIER
    ensures Progress(s, r.1, r.0.count, res.count)
    ensures r.0.error.None? ==> Cur(toks, r.1).kind != COMMA
    ensures forall i | 0 <= i < |r.2| :: r.2[i].kind == IDENTIFIER
    decreases Left(toks, s)
  {
    if Cur(toks, s).kind != COMMA then (res, s, acc)
    else
      var s1 := Next(s);
      var t := Cur(toks, s1);
      if t.kind != IDENTIFIER then (Fail(RegisterAdvance(res), Expected("identifier"), t), s1, acc)
      else ParamTail(toks, Next(s1), RegisterAdvance(RegisterAdvance(res)), acc + [t])
  }

  /** `func_def`: `->` and one expression (returned automatically), or a
      NEWLINE block closed by END. */
  function FuncDef(toks: seq<Token>, s: PState): (r: (PR<Node>, PState))
    requires Valid(toks)
    ensures Sound(s, r)
    decreases Left(toks, s), 25
  {
    if !IsKeywordTok(Cur(toks, s), "FN") then (Fail(Fresh(), Expected("'FN'"), Cur(toks, s)), s)
    else
      var s1 := Next(s);
      var res1 := RegisterAdvance(Fresh<Node>());
      var t1 := Cur(toks, s1);
      var name := if t1.kind == IDENTIFIER then Some(t1) else None;
      var s2 := if name.Some? then Next(s1) else s1;
      var res2 := if name.Some? then RegisterAdvance(res1) else res1;
      if Cur(toks, s2).kind != LPAREN then
        (Fail(res2, if name.Some? then Expected("'('") else Expected("identifier or '('"), Cur(toks, s2)), s2)
      else
        var (res3, s3, params) := Params(toks, Next(s2), RegisterAdvance(res2));
        if res3.error.Some? then (res3, s3)
        else
          FuncBody(toks, Next(s3), RegisterAdvance(res3), name, params)
  }

  /** What follows the `)` of a function definition: `-> expr`, or a NEWLINE,
      statements and END. */
  function FuncBody(toks: seq<Token>, s: PState, res: PR<Node>, name: Option<Token>, params: seq<Token>): (r: (PR<Node>, PState))
    requires Valid(toks) && res.error.None?
    ensures Progress(s, r.1, r.0.count, res.count) && (r.0.error.None? ==> r.0.node.Some?)
    decreases Left(toks, s), 24
  {
    if Cur(toks, s).kind == ARROW then
      var (sub, s1) := Expr(toks, Next(s));
      var (res1, b) := Register(RegisterAdvance(res), sub);
      if res1.error.Some? then (res1, s1) else (Success(res1, FuncDefNode(name, params, b.value, true)), s1)
    else if Cur(toks, s).kind != NEWLINE then (Fail(res, Expected("'->' or NEWLINE"), Cur(toks, s)), s)
    else
      var (sub, s1) := Statements(toks, Next(s));
      var (res1, b) := Register(RegisterAdvance(res), sub);
      if res1.error.Some? then (res1, s1)
      else if !IsKeywordTok(Cur(toks, s1), "END") then (Fail(res1, Expected("'END'"), Cur(toks, s1)), s1)
      else (Success(RegisterAdvance(res1), FuncDefNode(name, params, b.value, false)), Next(s1))
  }
}

=== FILE: parser_props.dfy ===
/** Properties of the parser (eel/parser.py): how far a number reaches
    through the precedence levels, how operator chains group, which error a
    failing rule reports, and the token-level quirks of `::`, RETURN and
    dictionary literals. */
module ParserProperties {
  import opened Basics
  import opened Positions
  import opened Tokens
  import opened Errors
  import opened Ast
  import opened Parser

  /** The state `j` tokens further on. */
  function At(s: PState, j: nat): PState {
    s.(idx := s.idx + j)
  }

  predicate IsNumberTok(t: Token) {
    t.kind == INT || t.kind == FLOAT
  }

  /** What a rule returns after reading exactly one number token. */
  function Num(toks: seq<Token>, s: PState): (PR<Node>, PState)
    requires Valid(toks)
  {
    (PR(None, Some(NumberNode(Cur(toks, s))), 1, 0), Next(s))
  }

  /** Tokens after which a number is a whole `call`/`power`, `term`,
      `arith_expr` or `expr`. */
  predicate ClosesPower(t: Token) {
    t.kind != LPAREN && !IsOp(PowOps, t)
  }

  predicate ClosesTerm(t: Token) {
    ClosesPower(t) && !IsOp(TermOps, t)
  }

  predicate ClosesArith(t: Token) {
    ClosesTerm(t) && !IsOp(ArithOps, t)
  }

  predicate ClosesExpr(t: Token) {
    ClosesArith(t) && !IsOp(CompOps, t) && !IsOp(LogicOps, t)
  }

  lemma CallOfNumber(toks: seq<Token>, s: PState)
    requires Valid(toks) && IsNumberTok(Cur(toks, s)) && Cur(toks, Next(s)).kind != LPAREN
    ensures Call(toks, s) == Num(toks, s)
  {
    assert Atom(toks, s) == Num(toks, s);
  }

  /** A level whose first operand is the number alone, with no operator of
      the level after it, yields that number. */
  lemma LevelOfNumber(toks: seq<Token>, l: Level, s: PState)
    requires Valid(toks) && Operand(toks, l, false, s) == Num(toks, s) && !IsOp(l, Cur(toks, Next(s)))
    ensures BinOp(toks, l, s) == Num(toks, s)
  {
    var n := NumberNode(Cur(toks, s));
    assert BinOpLoop(toks, l, Next(s), PR(None, None, 1, 0), n) == Num(toks, s);
  }

  /** A number followed by anything but '(' or '^' is a whole factor. */
  lemma PowerOfNumber(toks: seq<Token>, s: PState)
    requires Valid(toks) && IsNumberTok(Cur(toks, s)) && ClosesPower(Cur(toks, Next(s)))
    ensures Factor(toks, s) == Num(toks, s) && BinOp(toks, PowOps, s) == Num(toks, s)
  {
    CallOfNumber(toks, s);
    assert Operand(toks, PowOps, false, s) == Num(toks, s);
    LevelOfNumber(toks, PowOps, s);
    assert Power(toks, s) == Num(toks, s);
  }

  lemma TermOfNumber(toks: seq<Token>, s: PState)
    requires Valid(toks) && IsNumberTok(Cur(toks, s)) && ClosesTerm(Cur(toks, Next(s)))
    ensures Term(toks, s) == Num(toks, s)
  {
    PowerOfNumber(toks, s);
    assert Operand(toks, TermOps, false, s) == Num(toks, s);
    LevelOfNumber(toks, TermOps, s);
  }

  lemma ArithOfNumber(toks: seq<Token>, s: PState)
    requires Valid(toks) && IsNumberTok(Cur(toks, s)) && ClosesArith(Cur(toks, Next(s)))
    ensures ArithExpr(toks, s) == Num(toks, s)
  {
    TermOfNumber(toks, s);
    assert Operand(toks, ArithOps, false, s) == Num(toks, s);
    LevelOfNumber(toks, ArithOps, s);
  }

  /** A number followed by a token that continues no expression is a whole
      expression of one token. */
  lemma ExprOfNumber(toks: seq<Token>, s: PState)
    requires Valid(toks) && IsNumberTok(Cur(toks, s)) && ClosesExpr(Cur(toks, Next(s)))
    ensures Expr(toks, s) == Num(toks, s)
  {
    ArithOfNumber(toks, s);
    assert Operand(toks, CompOps, false, s) == Num(toks, s);
    LevelOfNumber(toks, CompOps, s);
    assert CompExpr(toks, s) == Num(toks, s);
    assert Operand(toks, LogicOps, false, s) == Num(toks, s);
    LevelOfNumber(toks, LogicOps, s);
  }

  // ---------------------------------------------------------------------------
  // Grouping of operator chains

  /** Independent reference: a chain grouped to the left, `((a o b) o c)`. */
  function FoldLeft(left: Node, rest: seq<(Token, Node)>): Node
    decreases |rest|
  {
    if |rest| == 0 then left else FoldLeft(BinOpNode(left, rest[0].0, rest[0].1), rest[1..])
  }

  /** Independent reference: a chain grouped to the right, `(a o (b o c))`. */
  function FoldRight(first: Node, rest: seq<(Token, Node)>): Node
    decreases |rest|
  {
    if |rest| == 0 then first else BinOpNode(first, rest[0].0, FoldRight(rest[0].1, rest[1..]))
  }

  /** The `k` (operator, number) pairs starting at `s`. */
  function OpNumbers(toks: seq<Token>, s: PState, k: nat): seq<(Token, Node)>
    requires Valid(toks)
    decreases k
  {
    if k == 0 then [] else [(Cur(toks, s), NumberNode(Cur(toks, Next(s))))] + OpNumbers(toks, At(s, 2), k - 1)
  }

  /** From `s` on: `k` times an operator of level `l` followed by a number. */
  predicate Chain(toks: seq<Token>, l: Level, s: PState, k: nat)
    requires Valid(toks)
    decreases k
  {
    k == 0 || (IsOp(l, Cur(toks, s)) && IsNumberTok(Cur(toks, Next(s))) && Chain(toks, l, At(s, 2), k - 1))
  }

  /** The tree the `+`/`-` loop builds, pair by pair along the tokens. */
  function LeftTree(toks: seq<Token>, s: PState, left: Node, k: nat): Node
    requires Valid(toks)
    decreases k
  {
    if k == 0 then left
    else LeftTree(toks, At(s, 2), BinOpNode(left, Cur(toks, s), NumberNode(Cur(toks, Next(s)))), k - 1)
  }

  /** The tree the `^` rule builds from the number at `s` and the `k` pairs
      after it. */
  function RightTree(toks: seq<Token>, s: PState, k: nat): Node
    requires Valid(toks)
    decreases k
  {
    if k == 0 then NumberNode(Cur(toks, s))
    else BinOpNode(NumberNode(Cur(toks, s)), Cur(toks, Next(s)), RightTree(toks, At(s, 2), k - 1))
  }

  lemma {:induction false} LeftTreeIsFoldLeft(toks: seq<Token>, s: PState, left: Node, k: nat)
    requires Valid(toks)
    ensures LeftTree(toks, s, left, k) == FoldLeft(left, OpNumbers(toks, s, k))
    decreases k
  {
    if k > 0 {
      var pair := (Cur(toks, s), NumberNode(Cur(toks, Next(s))));
      var rest := OpNumbers(toks, At(s, 2), k - 1);
      assert ([pair] + rest)[0] == pair && ([pair] + rest)[1..] == rest;
      LeftTreeIsFoldLeft(toks, At(s, 2), BinOpNode(left, pair.0, pair.1), k - 1);
    }
  }

  lemma {:induction false} RightTreeIsFoldRight(toks: seq<Token>, s: PState, k: nat)
    requires Valid(toks)
    ensures RightTree(toks, s, k) == FoldRight(NumberNode(Cur(toks, s)), OpNumbers(toks, Next(s), k))
    decreases k
  {
    if k > 0 {
      var pair := (Cur(toks, Next(s)), NumberNode(Cur(toks, At(s, 2))));
      var rest := OpNumbers(toks, Next(At(s, 2)), k - 1);
      assert Next(Next(s)) == At(s, 2) && At(Next(s), 2) == Next(At(s, 2));
      assert OpNumbers(toks, Next(s), k) == [pair] + rest;
      assert ([pair] + rest)[0] == pair && ([pair] + rest)[1..] == rest;
      RightTreeIsFoldRight(toks, At(s, 2), k - 1);
    }
  }

  /** One round of the `bin_op` loop over an operator and a number that is a
      whole operand of level `l`. */
  lemma LoopStep(toks: seq<Token>, l: Level, s: PState, res: PR<Node>, left: Node)
    requires Valid(toks) && res.error.None? && l != PowOps
    requires IsOp(l, Cur(toks, s)) && IsNumberTok(Cur(toks, Next(s)))
    requires Operand(toks, l, true, Next(s)) == Num(toks, Next(s))
    ensures BinOpLoop(toks, l, s, res, left)
         == BinOpLoop(toks, l, At(s, 2), res.(count := res.count + 2), BinOpNode(left, Cur(toks, s), NumberNode(Cur(toks, Next(s)))))
  {
    assert Next(Next(s)) == At(s, 2);
    var n := NumberNode(Cur(toks, Next(s)));
    assert Register(RegisterAdvance(res), Num(toks, Next(s)).0) == (res.(count := res.count + 2), Some(n));
  }

  /** From `s` on: a `+`/`-` chain of `k` pairs, and then nothing that
      continues an `arith_expr`. */
  predicate ArithRun(toks: seq<Token>, s: PState, k: nat) {
    Valid(toks) && Chain(toks, ArithOps, s, k) && ClosesArith(Cur(toks, At(s, 2 * k)))
  }

  /** At `s`: a `+` or `-`, then a number that is a whole term. */
  predicate ArithPair(toks: seq<Token>, s: PState) {
    Valid(toks) && IsOp(ArithOps, Cur(toks, s)) && IsNumberTok(Cur(toks, Next(s))) && ClosesTerm(Cur(toks, At(s, 2)))
  }

  lemma ArithRunTail(toks: seq<Token>, s: PState, k: nat)
    requires ArithRun(toks, s, k) && k > 0
    ensures ArithPair(toks, s) && ArithRun(toks, At(s, 2), k - 1) && At(At(s, 2), 2 * (k - 1)) == At(s, 2 * k)
  {
    assert At(At(s, 2), 2 * (k - 1)) == At(s, 2 * k);
    if k == 1 {
      assert At(s, 2) == At(s, 2 * k);
    } else {
      assert Chain(toks, ArithOps, At(s, 2), k - 1);
      assert IsOp(ArithOps, Cur(toks, At(s, 2)));
    }
  }

  /** One round of the `+`/`-` loop over an operator and a number that no
      `*`, `/`, `%`, `^` or `(` follows. */
  lemma ArithLoopRound(toks: seq<Token>, s: PState, res: PR<Node>, left: Node)
    requires ArithPair(toks, s) && res.error.None?
    ensures BinOpLoop(toks, ArithOps, s, res, left)
         == BinOpLoop(toks, ArithOps, At(s, 2), res.(count := res.count + 2),
                      BinOpNode(left, Cur(toks, s), NumberNode(Cur(toks, Next(s)))))
  {
    assert Next(Next(s)) == At(s, 2);
    TermOfNumber(toks, Next(s));
    LoopStep(toks, ArithOps, s, res, left);
  }

  /** The inductive step of `ArithLoopFoldsLeft`: what the loop builds from
      the next pair on, the whole loop builds too. */
  lemma ArithLoopStep(toks: seq<Token>, s: PState, res: PR<Node>, left: Node, k: nat)
    requires ArithPair(toks, s) && res.error.None? && k > 0 && At(At(s, 2), 2 * (k - 1)) == At(s, 2 * k)
    requires var left' := BinOpNode(left, Cur(toks, s), NumberNode(Cur(toks, Next(s))));
             var res' := res.(count := res.count + 2);
             (BinOpLoop(toks, ArithOps, At(s, 2), res', left')
              == (res'.(node := Some(LeftTree(toks, At(s, 2), left', k - 1)), count := res'.count + 2 * (k - 1)),
                  At(At(s, 2), 2 * (k - 1))))
    ensures BinOpLoop(toks, ArithOps, s, res, left)
         == (res.(node := Some(LeftTree(toks, s, left, k)), count := res.count + 2 * k), At(s, 2 * k))
  {
    ArithLoopRound(toks, s, res, left);
  }

  /** The loop of `bin_op` on `+`/`-` between plain numbers builds the
      left-grouped tree and registers every token it passes. */
  lemma {:induction false} ArithLoopFoldsLeft(toks: seq<Token>, s: PState, res: PR<Node>, left: Node, k: nat)
    requires ArithRun(toks, s, k) && res.error.None?
    ensures BinOpLoop(toks, ArithOps, s, res, left)
         == (res.(node := Some(LeftTree(toks, s, left, k)), count := res.count + 2 * k), At(s, 2 * k))
    decreases k
  {
    if k == 0 {
      assert At(s, 2 * k) == s;
    } else {
      ArithRunTail(toks, s, k);
      var left' := BinOpNode(left, Cur(toks, s), NumberNode(Cur(toks, Next(s))));
      ArithLoopFoldsLeft(toks, At(s, 2), res.(count := res.count + 2), left', k - 1);
      ArithLoopStep(toks, s, res, left, k);
    }
  }

  /** An `arith_expr` that starts with a number followed by no `*`, `/`,
      `%`, `^` or `(` goes straight to the `+`/`-` loop. */
  lemma ArithOfNumberStart(toks: seq<Token>, s: PState)
    requires Valid(toks) && IsNumberTok(Cur(toks, s)) && ClosesTerm(Cur(toks, Next(s)))
    ensures ArithExpr(toks, s) == BinOpLoop(toks, ArithOps, Next(s), PR(None, None, 1, 0), NumberNode(Cur(toks, s)))
  {
    TermOfNumber(toks, s);
    assert Operand(toks, ArithOps, false, s) == Num(toks, s);
    assert Register(Fresh<Node>(), Num(toks, s).0).0 == PR(None, None, 1, 0);
    assert ArithExpr(toks, s) == BinOp(toks, ArithOps, s);
  }

  /** At `s`: a number that is a whole term, then a `+`/`-` chain of `k`
      pairs. */
  predicate NumberThenArith(toks: seq<Token>, s: PState, k: nat) {
    Valid(toks) && IsNumberTok(Cur(toks, s)) && ClosesTerm(Cur(toks, Next(s))) && ArithRun(toks, Next(s), k)
  }

  lemma ArithChainStart(toks: seq<Token>, s: PState, k: nat)
    requires Valid(toks) && IsNumberTok(Cur(toks, s))
    requires Chain(toks, ArithOps, Next(s), k) && ClosesArith(Cur(toks, At(s, 2 * k + 1)))
    ensures NumberThenArith(toks, s, k) && At(Next(s), 2 * k) == At(s, 2 * k + 1)
  {
    assert At(Next(s), 2 * k) == At(s, 2 * k + 1);
    if k == 0 {
      assert Next(s) == At(s, 2 * k + 1);
    }
  }

  /** An `arith_expr` over a number and `k` more `+`/`-` number pairs
      builds the tree of the loop and stops after the last number. */
  lemma ArithBuildsLeftTree(toks: seq<Token>, s: PState, k: nat)
    requires NumberThenArith(toks, s, k)
    ensures ArithExpr(toks, s)
         == (PR(None, Some(LeftTree(toks, Next(s), NumberNode(Cur(toks, s)), k)), 2 * k + 1, 0), At(Next(s), 2 * k))
  {
    var r0: PR<Node> := PR(None, None, 1, 0);
    var tree := LeftTree(toks, Next(s), NumberNode(Cur(toks, s)), k);
    ArithOfNumberStart(toks, s);
    ArithLoopFoldsLeft(toks, Next(s), r0, NumberNode(Cur(toks, s)), k);
    assert r0.(node := Some(tree), count := r0.count + 2 * k) == PR(None, Some(tree), 2 * k + 1, 0);
  }

  /** `a - b - c` and longer chains of numbers group to the left. */
  lemma ArithGroupsLeft(toks: seq<Token>, s: PState, k: nat)
    requires Valid(toks) && IsNumberTok(Cur(toks, s))
    requires Chain(toks, ArithOps, Next(s), k) && ClosesArith(Cur(toks, At(s, 2 * k + 1)))
    ensures ArithExpr(toks, s)
         == (PR(None, Some(FoldLeft(NumberNode(Cur(toks, s)), OpNumbers(toks, Next(s), k))), 2 * k + 1, 0),
             At(s, 2 * k + 1))
  {
    ArithChainStart(toks, s, k);
    ArithBuildsLeftTree(toks, s, k);
    LeftTreeIsFoldLeft(toks, Next(s), NumberNode(Cur(toks, s)), k);
  }

  /** The first round of the `^` loop after a number: its right operand is
      the factor that starts two tokens on, and nothing follows that. */
  lemma PowLoopFirstRound(toks: seq<Token>, s: PState, rhs: (PR<Node>, PState))
    requires Valid(toks) && IsOp(PowOps, Cur(toks, Next(s)))
    requires Factor(toks, At(s, 2)) == rhs && rhs.0.error.None? && rhs.0.node.Some? && rhs.0.toReverse == 0
    requires ClosesPower(Cur(toks, rhs.1))
    ensures BinOpLoop(toks, PowOps, Next(s), PR(None, None, 1, 0), NumberNode(Cur(toks, s)))
         == (PR(None, Some(BinOpNode(NumberNode(Cur(toks, s)), Cur(toks, Next(s)), rhs.0.node.value)), rhs.0.count + 2, 0), rhs.1)
  {
    assert Next(Next(s)) == At(s, 2);
    assert Operand(toks, PowOps, true, At(s, 2)) == rhs;
  }

  /** A factor that starts with a number goes straight to the `^` loop. */
  lemma FactorOfNumberStart(toks: seq<Token>, s: PState)
    requires Valid(toks) && IsNumberTok(Cur(toks, s)) && Cur(toks, Next(s)).kind != LPAREN
    ensures Factor(toks, s) == BinOpLoop(toks, PowOps, Next(s), PR(None, None, 1, 0), NumberNode(Cur(toks, s)))
  {
    assert Factor(toks, s) == Power(toks, s) == BinOp(toks, PowOps, s);
    CallOfNumber(toks, s);
    assert Operand(toks, PowOps, false, s) == Num(toks, s);
    assert Register(Fresh<Node>(), Num(toks, s).0).0 == PR(None, None, 1, 0);
  }

  /** From `s` on: a number, a `^` chain of `k` pairs, and then nothing
      that continues a factor. */
  predicate PowRun(toks: seq<Token>, s: PState, k: nat) {
    Valid(toks) && IsNumberTok(Cur(toks, s)) && Chain(toks, PowOps, Next(s), k) && ClosesPower(Cur(toks, At(s, 2 * k + 1)))
  }

  /** At `s`: a number and a `^`. */
  predicate PowPair(toks: seq<Token>, s: PState) {
    Valid(toks) && IsNumberTok(Cur(toks, s)) && IsOp(PowOps, Cur(toks, Next(s)))
  }

  lemma PowRunTail(toks: seq<Token>, s: PState, k: nat)
    requires PowRun(toks, s, k) && k > 0
    ensures PowPair(toks, s) && PowRun(toks, At(s, 2), k - 1) && At(At(s, 2), 2 * (k - 1) + 1) == At(s, 2 * k + 1)
  {
    assert Next(Next(s)) == At(s, 2) && At(Next(s), 2) == Next(At(s, 2));
    assert At(At(s, 2), 2 * (k - 1) + 1) == At(s, 2 * k + 1);
  }

  /** One level of the right grouping: given the factor two tokens on, the
      factor at `s` puts it under the first `^`. */
  lemma PowerStep(toks: seq<Token>, s: PState, k: nat, e: PState)
    requires PowPair(toks, s) && k > 0
    requires Factor(toks, At(s, 2)) == (PR(None, Some(RightTree(toks, At(s, 2), k - 1)), 2 * (k - 1) + 1, 0), e)
    requires ClosesPower(Cur(toks, e))
    ensures Factor(toks, s) == (PR(None, Some(RightTree(toks, s, k)), 2 * k + 1, 0), e)
  {
    FactorOfNumberStart(toks, s);
    PowLoopFirstRound(toks, s, Factor(toks, At(s, 2)));
  }

  /** The `^` rule over a number and `k` more `^ number` pairs builds the
      right-grouped tree: the right operand of `^` is a whole factor, which
      swallows the rest of the chain. */
  lemma {:induction false} PowerBuildsRightTree(toks: seq<Token>, s: PState, k: nat)
    requires PowRun(toks, s, k)
    ensures Factor(toks, s) == (PR(None, Some(RightTree(toks, s, k)), 2 * k + 1, 0), At(s, 2 * k + 1))
    decreases k
  {
    if k == 0 {
      assert At(s, 2 * 0 + 1) == Next(s);
      PowerOfNumber(toks, s);
    } else {
      PowRunTail(toks, s, k);
      PowerBuildsRightTree(toks, At(s, 2), k - 1);
      PowerStep(toks, s, k, At(s, 2 * k + 1));
    }
  }

  /** `a ^ b ^ c` and longer chains of numbers group to the right. */
  lemma PowerGroupsRight(toks: seq<Token>, s: PState, k: nat)
    requires Valid(toks) && IsNumberTok(Cur(toks, s))
    requires Chain(toks, PowOps, Next(s), k) && ClosesPower(Cur(toks, At(s, 2 * k + 1)))
    ensures Factor(toks, s)
         == (PR(None, Some(FoldRight(NumberNode(Cur(toks, s)), OpNumbers(toks, Next(s), k))), 2 * k + 1, 0),
             At(s, 2 * k + 1))
  {
    PowerBuildsRightTree(toks, s, k);
    RightTreeIsFoldRight(toks, s, k);
  }

  /** The two-operator chain starting at `s`, spelled out. */
  lemma TwoPairs(toks: seq<Token>, l: Level, s: PState)
    requires Valid(toks)
    requires IsNumberTok(Cur(toks, At(s, 2))) && IsNumberTok(Cur(toks, At(s, 4)))
    requires IsOp(l, Cur(toks, At(s, 1))) && IsOp(l, Cur(toks, At(s, 3)))
    ensures Chain(toks, l, Next(s), 2)
    ensures OpNumbers(toks, Next(s), 2)
         == [(Cur(toks, At(s, 1)), NumberNode(Cur(toks, At(s, 2)))), (Cur(toks, At(s, 3)), NumberNode(Cur(toks, At(s, 4))))]
    ensures At(s, 2 * 2 + 1) == At(s, 5)
  {
    assert Next(s) == At(s, 1) && Next(At(s, 1)) == At(s, 2) && At(At(s, 1), 2) == At(s, 3);
    assert Next(At(s, 3)) == At(s, 4) && At(At(s, 3), 2) == At(s, 5);
    assert Chain(toks, l, At(s, 3), 1);
    assert OpNumbers(toks, At(s, 3), 1) == [(Cur(toks, At(s, 3)), NumberNode(Cur(toks, At(s, 4))))];
  }

  /** An instance: `1 - 2 - 3` is `(1 - 2) - 3`. */
  lemma MinusChainGroupsLeft(toks: seq<Token>, s: PState)
    requires Valid(toks)
    requires IsNumberTok(Cur(toks, s)) && IsNumberTok(Cur(toks, At(s, 2))) && IsNumberTok(Cur(toks, At(s, 4)))
    requires Cur(toks, At(s, 1)).kind == MINUS && Cur(toks, At(s, 3)).kind == MINUS
    requires Cur(toks, At(s, 5)).kind == EOF
    ensures ArithExpr(toks, s).0.node
         == Some(BinOpNode(BinOpNode(NumberNode(Cur(toks, s)), Cur(toks, At(s, 1)), NumberNode(Cur(toks, At(s, 2)))),
                           Cur(toks, At(s, 3)), NumberNode(Cur(toks, At(s, 4)))))
  {
    TwoPairs(toks, ArithOps, s);
    ArithGroupsLeft(toks, s, 2);
    var ops := OpNumbers(toks, Next(s), 2);
    var left1 := BinOpNode(NumberNode(Cur(toks, s)), ops[0].0, ops[0].1);
    assert ops[1..] == [ops[1]];
    assert [ops[1]][1..] == [];
    assert FoldLeft(NumberNode(Cur(toks, s)), ops) == FoldLeft(left1, [ops[1]]);
  }

  /** An instance: `2 ^ 3 ^ 2` is `2 ^ (3 ^ 2)`. */
  lemma PowChainGroupsRight(toks: seq<Token>, s: PState)
    requires Valid(toks)
    requires IsNumberTok(Cur(toks, s)) && IsNumberTok(Cur(toks, At(s, 2))) && IsNumberTok(Cur(toks, At(s, 4)))
    requires Cur(toks, At(s, 1)).kind == POW && Cur(toks, At(s, 3)).kind == POW
    requires Cur(toks, At(s, 5)).kind == EOF
    ensures Factor(toks, s).0.node
         == Some(BinOpNode(NumberNode(Cur(toks, s)), Cur(toks, At(s, 1)),
                           BinOpNode(NumberNode(Cur(toks, At(s, 2))), Cur(toks, At(s, 3)), NumberNode(Cur(toks, At(s, 4))))))
  {
    TwoPairs(toks, PowOps, s);
    PowerGroupsRight(toks, s, 2);
    var ops := OpNumbers(toks, Next(s), 2);
    assert ops[1..] == [ops[1]];
    assert [ops[1]][1..] == [];
    assert FoldRight(ops[0].1, [ops[1]]) == BinOpNode(ops[0].1, ops[1].0, ops[1].1);
  }

  // ---------------------------------------------------------------------------
  // Which error is reported

  /** The tokens `expr` can start with. */
  predicate StartsExpr(t: Token) {
    IsNumberTok(t) || t.kind == STRING || t.kind == IDENTIFIER || t.kind == LPAREN
    || t.kind == LBRACKET || t.kind == LCURLY || t.kind == PLUS || t.kind == MINUS
    || IsKeywordTok(t, "IF") || IsKeywordTok(t, "FOR") || IsKeywordTok(t, "WHILE")
    || IsKeywordTok(t, "FN") || IsKeywordTok(t, "NOT") || IsKeywordTok(t, "VAR")
  }

  /** A rule that failed on its first token without consuming anything. */
  function Rejects<T>(s: PState, msg: Msg, t: Token): (PR<T>, PState) {
    (PR(Some(Syntax(msg, t.start, t.end)), None, 0, 0), s)
  }

  lemma CallRejectsNonStarter(toks: seq<Token>, s: PState)
    requires Valid(toks) && !StartsExpr(Cur(toks, s))
    ensures Call(toks, s) == Rejects(s, AtomExpected, Cur(toks, s))
  {
    assert Atom(toks, s) == Rejects(s, AtomExpected, Cur(toks, s));
  }

  /** Nothing was consumed, so each level's `failure` overwrites the error of
      the level below: the message that survives is that of `expr`, spanning
      the offending token. */
  lemma ExprRejectsNonStarter(toks: seq<Token>, s: PState)
    requires Valid(toks) && !StartsExpr(Cur(toks, s))
    ensures Expr(toks, s) == Rejects(s, ExprExpected, Cur(toks, s))
  {
    var t := Cur(toks, s);
    var e := Rejects<Node>(s, AtomExpected, t);
    CallRejectsNonStarter(toks, s);
    assert Operand(toks, PowOps, false, s) == e;
    assert BinOp(toks, PowOps, s) == e;
    assert Power(toks, s) == e;
    assert Factor(toks, s) == e;
    assert Operand(toks, TermOps, false, s) == e;
    assert BinOp(toks, TermOps, s) == e;
    assert Term(toks, s) == e;
    assert Operand(toks, ArithOps, false, s) == e;
    assert BinOp(toks, ArithOps, s) == e;
    assert ArithExpr(toks, s) == e;
    assert Operand(toks, CompOps, false, s) == e;
    assert BinOp(toks, CompOps, s) == e;
    assert CompExpr(toks, s) == Rejects(s, CompExpected, t);
    assert Operand(toks, LogicOps, false, s) == Rejects(s, CompExpected, t);
  }

  /** A statement that cannot start reports the statement-level message. */
  lemma StatementRejectsNonStarter(toks: seq<Token>, s: PState)
    requires Valid(toks) && !StartsExpr(Cur(toks, s))
    requires !IsKeywordTok(Cur(toks, s), "RETURN") && !IsKeywordTok(Cur(toks, s), "IMPORT")
    requires !IsKeywordTok(Cur(toks, s), "CONTINUE") && !IsKeywordTok(Cur(toks, s), "BREAK")
    ensures Statement(toks, s) == Rejects(s, StatementExpected, Cur(toks, s))
  {
    ExprRejectsNonStarter(toks, s);
  }

  /** After `VAR name` the missing '=' is reported as such: a token has been
      consumed, so the statement's general message does not replace it. */
  lemma VarNeedsEquals(toks: seq<Token>, s: PState)
    requires Valid(toks) && IsKeywordTok(Cur(toks, s), "VAR")
    ensures Cur(toks, Next(s)).kind != IDENTIFIER ==>
      Statement(toks, s).0.error == Some(Syntax(Expected("Identifier"), Cur(toks, Next(s)).start, Cur(toks, Next(s)).end))
    ensures Cur(toks, Next(s)).kind == IDENTIFIER && Cur(toks, At(s, 2)).kind != EQ ==>
      Statement(toks, s).0.error == Some(Syntax(Expected("'='"), Cur(toks, At(s, 2)).start, Cur(toks, At(s, 2)).end))
  {
    assert Next(Next(s)) == At(s, 2);
  }

  /** RETURN with nothing expression-like after it returns no value; the
      failed attempt at an expression consumed nothing, so nothing is
      reversed and the statement ends right after RETURN. */
  lemma BareReturn(toks: seq<Token>, s: PState)
    requires Valid(toks) && IsKeywordTok(Cur(toks, s), "RETURN") && !StartsExpr(Cur(toks, Next(s)))
    ensures Statement(toks, s)
         == (PR(None, Some(ReturnNode(None, Cur(toks, s).start, Cur(toks, Next(s)).start)), 1, 0), Next(s))
  {
    ExprRejectsNonStarter(toks, Next(s));
    assert Back(Next(s), 0) == Next(s);
  }

  /** `parse()` succeeds exactly when the statements do and the cursor then
      sits on EOF. */
  lemma ParseNeedsEof(toks: seq<Token>)
    requires Valid(toks)
    ensures var (res, s) := Statements(toks, PState(0, map[]));
            Parse(toks).0.error.None? <==> res.error.None? && Cur(toks, s).kind == EOF
  {
  }

  // ---------------------------------------------------------------------------
  // Block forms

  /** After THEN, a NEWLINE opens a block of statements that must close with
      END and makes the loop yield Null; anything else is a single statement
      and the loop collects its values. Without THEN nothing is read. */
  lemma LoopBodyForms(toks: seq<Token>, s: PState, res: PR<Node>)
    requires Valid(toks) && res.error.None?
    ensures !IsKeywordTok(Cur(toks, s), "THEN") ==>
            LoopBody(toks, s, res) == (Fail(res, Expected("'THEN'"), Cur(toks, s)), s, None)
    ensures IsKeywordTok(Cur(toks, s), "THEN") && Cur(toks, Next(s)).kind == NEWLINE ==>
            var (sub, s2) := Statements(toks, At(s, 2));
            var r := LoopBody(toks, s, res);
            (sub.error.Some? ==> r.0.error == sub.error && r.2.None?) &&
            (sub.error.None? && !IsKeywordTok(Cur(toks, s2), "END") ==>
               r.0.error == Some(Syntax(Expected("'END'"), Cur(toks, s2).start, Cur(toks, s2).end)) && r.2.None?) &&
            (sub.error.None? && IsKeywordTok(Cur(toks, s2), "END") ==>
               r.0.error.None? && r.1 == Next(s2) && r.2 == Some(Block(sub.node.value, true)))
    ensures IsKeywordTok(Cur(toks, s), "THEN") && Cur(toks, Next(s)).kind != NEWLINE ==>
            var (sub, s2) := Statement(toks, Next(s));
            var r := LoopBody(toks, s, res);
            (sub.error.Some? ==> r.0.error == sub.error && r.2.None?) &&
            (sub.error.None? ==> r.0.error.None? && r.1 == s2 && r.2 == Some(Block(sub.node.value, false)))
  {
    assert Next(Next(s)) == At(s, 2);
  }

  /** A WHILE is its condition and the loop body that follows it: the body's
      error is the WHILE's, and otherwise the node takes the body and its
      block flag as they were read. */
  lemma WhileTakesLoopBody(toks: seq<Token>, s: PState)
    requires Valid(toks) && IsKeywordTok(Cur(toks, s), "WHILE")
    ensures var (subC, s1) := Expr(toks, Next(s));
            var w := WhileExpr(toks, s);
            (subC.error.Some? ==> w.0.error == subC.error) &&
            (subC.error.None? ==>
               var lb := LoopBody(toks, s1, Register(RegisterAdvance(Fresh<Node>()), subC).0);
               (lb.0.error.Some? ==> w.0.error == lb.0.error) &&
               (lb.0.error.None? ==>
                  w.0.error.None? && w.1 == lb.1 &&
                  w.0.node == Some(WhileNode(subC.node.value, lb.2.value.body, lb.2.value.returnsNull))))
  {
  }

  /** The FOR node takes its body and block flag from the loop body read
      after `TO end` and the optional `STEP step`; an error in that body is
      the FOR's. */
  lemma ForTakesLoopBody(toks: seq<Token>, s: PState, res: PR<Node>, v: Token, a: Node)
    requires Valid(toks) && res.error.None? && IsKeywordTok(Cur(toks, s), "TO")
    ensures var (subB, s4) := Expr(toks, Next(s));
            var res4 := Register(RegisterAdvance(res), subB).0;
            subB.error.None? && !IsKeywordTok(Cur(toks, s4), "STEP") ==>
              var lb := LoopBody(toks, s4, res4);
              var f := ForTail(toks, s, res, v, a);
              (lb.0.error.Some? ==> f.0.error == lb.0.error) &&
              (lb.0.error.None? ==>
                 f.0.error.None? && f.1 == lb.1 &&
                 f.0.node == Some(ForNode(v, a, subB.node.value, None, lb.2.value.body, lb.2.value.returnsNull)))
    ensures var (subB, s4) := Expr(toks, Next(s));
            var res4 := Register(RegisterAdvance(res), subB).0;
            subB.error.None? && IsKeywordTok(Cur(toks, s4), "STEP") ==>
              var (subC, s5) := Expr(toks, Next(s4));
              subC.error.None? ==>
                var lb := LoopBody(toks, s5, Register(RegisterAdvance(res4), subC).0);
                var f := ForTail(toks, s, res, v, a);
                (lb.0.error.Some? ==> f.0.error == lb.0.error) &&
                (lb.0.error.None? ==>
                   f.0.error.None? && f.1 == lb.1 &&
                   f.0.node == Some(ForNode(v, a, subB.node.value, subC.node, lb.2.value.body, lb.2.value.returnsNull)))
  {
  }

  /** After the `)` of a function definition, `->` and one expression make
      a function that returns its value automatically; a NEWLINE opens a
      block that must close with END and returns only through RETURN; any
      other token is reported as such. */
  lemma FuncBodyForms(toks: seq<Token>, s: PState, res: PR<Node>, name: Option<Token>, params: seq<Token>)
    requires Valid(toks) && res.error.None?
    ensures Cur(toks, s).kind == ARROW ==>
            var (sub, s1) := Expr(toks, Next(s));
            var r := FuncBody(toks, s, res, name, params);
            (sub.error.Some? ==> r.0.error == sub.error) &&
            (sub.error.None? ==> r.0.error.None? && r.1 == s1 && r.0.node == Some(FuncDefNode(name, params, sub.node.value, true)))
    ensures Cur(toks, s).kind == NEWLINE ==>
            var (sub, s1) := Statements(toks, Next(s));
            var r := FuncBody(toks, s, res, name, params);
            (sub.error.Some? ==> r.0.error == sub.error) &&
            (sub.error.None? && !IsKeywordTok(Cur(toks, s1), "END") ==>
               r.0.error == Some(Syntax(Expected("'END'"), Cur(toks, s1).start, Cur(toks, s1).end))) &&
            (sub.error.None? && IsKeywordTok(Cur(toks, s1), "END") ==>
               r.0.error.None? && r.1 == Next(s1) && r.0.node == Some(FuncDefNode(name, params, sub.node.value, false)))
    ensures Cur(toks, s).kind != ARROW && Cur(toks, s).kind != NEWLINE ==>
            FuncBody(toks, s, res, name, params) == (Fail(res, Expected("'->' or NEWLINE"), Cur(toks, s)), s)
  {
  }

  // ---------------------------------------------------------------------------
  // Token-level quirks

  /** `a::b` becomes one variable access named "a::b": the token of `a` is
      rewritten in place, so a later parse from the same token sees the
      joined name, and only two of the three tokens are registered. A
      non-identifier after `::` is a runtime error without a context. */
  lemma ScopedName(toks: seq<Token>, s: PState)
    requires Valid(toks) && Cur(toks, s).kind == IDENTIFIER && Cur(toks, Next(s)).kind == DUBCOL
    ensures var a, b := Cur(toks, s), Cur(toks, At(s, 2));
            var joined := StrVal(TokText(a) + "::" + TokText(b));
            var r := Atom(toks, s);
            b.kind == IDENTIFIER ==>
              r.0 == PR(None, Some(VarAccessNode(a.(value := joined))), 2, 0)
              && r.1.idx == s.idx + 3 && Cur(toks, Back(r.1, 3)).value == joined
    ensures var a, b := Cur(toks, s), Cur(toks, At(s, 2));
            b.kind != IDENTIFIER ==>
              Atom(toks, s).0.error == Some(ScopeError(a.start, b.end))
              && Atom(toks, s).1 == At(s, 2)
  {
    assert Next(Next(s)) == At(s, 2);
  }

  /** `{}` closes only when a second '}' follows: after the empty body the
      final check looks for '}' once more. */
  lemma EmptyDictNeedsSecondBrace(toks: seq<Token>, s: PState)
    requires Valid(toks) && Cur(toks, s).kind == LCURLY && Cur(toks, Next(s)).kind == RCURLY
    ensures DictExpr(toks, s).0.error.None? <==> Cur(toks, At(s, 2)).kind == RCURLY
    ensures DictExpr(toks, s).0.error.None? ==>
      DictExpr(toks, s).0.node == Some(DictNode([], Cur(toks, s).start, Cur(toks, At(s, 3)).end))
  {
    assert Next(Next(s)) == At(s, 2) && Next(At(s, 2)) == At(s, 3);
  }

  /** `{1: 2, 3: 4}` is rejected: after a later key one token is skipped
      unconditionally, so the parser looks for ':' where the value is. The
      error spans from '{' to the end of that value. */
  lemma SecondDictEntryMisread(toks: seq<Token>, s: PState)
    requires Valid(toks) && Cur(toks, s).kind == LCURLY
    requires IsNumberTok(Cur(toks, At(s, 1))) && Cur(toks, At(s, 2)).kind == COLON
    requires IsNumberTok(Cur(toks, At(s, 3))) && Cur(toks, At(s, 4)).kind == COMMA
    requires IsNumberTok(Cur(toks, At(s, 5))) && Cur(toks, At(s, 6)).kind == COLON
    requires IsNumberTok(Cur(toks, At(s, 7)))
    ensures DictExpr(toks, s).0.error
         == Some(Syntax(Expected("':'"), Cur(toks, s).start, Cur(toks, At(s, 7)).end))
  {
    var items := [DictItem(NumberNode(Cur(toks, At(s, 1))), NumberNode(Cur(toks, At(s, 3))))];
    DictLoopMisread(toks, At(s, 4), PR(None, None, 4, 0), items, Cur(toks, s).start);
    DictFirstEntry(toks, s, items);
  }

  /** After `{ a : b`, a dictionary literal reports whatever error the loop
      over further entries reports. */
  lemma DictFirstEntry(toks: seq<Token>, s: PState, items: seq<DictItem>)
    requires Valid(toks) && Cur(toks, s).kind == LCURLY
    requires IsNumberTok(Cur(toks, At(s, 1))) && Cur(toks, At(s, 2)).kind == COLON
    requires IsNumberTok(Cur(toks, At(s, 3))) && Cur(toks, At(s, 4)).kind == COMMA
    requires items == [DictItem(NumberNode(Cur(toks, At(s, 1))), NumberNode(Cur(toks, At(s, 3))))]
    requires DictLoop(toks, At(s, 4), PR(None, None, 4, 0), items, Cur(toks, s).start).0.error.Some?
    ensures DictExpr(toks, s).0.error == DictLoop(toks, At(s, 4), PR(None, None, 4, 0), items, Cur(toks, s).start).0.error
  {
    KeyAndValueOfNumbers(toks, s);
    DictEntryOfNumbers(toks, s, items);
  }

  /** `a : b ,` with numbers `a` and `b`: each is a whole expression. */
  lemma KeyAndValueOfNumbers(toks: seq<Token>, s: PState)
    requires Valid(toks)
    requires IsNumberTok(Cur(toks, At(s, 1))) && Cur(toks, At(s, 2)).kind == COLON
    requires IsNumberTok(Cur(toks, At(s, 3))) && Cur(toks, At(s, 4)).kind == COMMA
    ensures Expr(toks, At(s, 1)) == Num(toks, At(s, 1)) && Expr(toks, At(s, 3)) == Num(toks, At(s, 3))
  {
    NumberBeforeSeparator(toks, At(s, 1));
    NumberBeforeSeparator(toks, At(s, 3));
  }

  /** A number followed by ':' or ',' is a whole expression. */
  lemma NumberBeforeSeparator(toks: seq<Token>, s: PState)
    requires Valid(toks) && IsNumberTok(Cur(toks, s)) && Cur(toks, At(s, 1)).kind in {COLON, COMMA}
    ensures Expr(toks, s) == Num(toks, s)
  {
    assert Next(s) == At(s, 1);
    ExprOfNumber(toks, s);
  }

  /** The first entry of a dictionary literal, when key and value are each
      one number: the loop over further entries starts after the value. */
  lemma DictEntryOfNumbers(toks: seq<Token>, s: PState, items: seq<DictItem>)
    requires Valid(toks) && Cur(toks, s).kind == LCURLY
    requires Cur(toks, At(s, 1)).kind != RCURLY && Cur(toks, At(s, 2)).kind == COLON
    requires Expr(toks, At(s, 1)) == Num(toks, At(s, 1)) && Expr(toks, At(s, 3)) == Num(toks, At(s, 3))
    requires items == [DictItem(NumberNode(Cur(toks, At(s, 1))), NumberNode(Cur(toks, At(s, 3))))]
    requires DictLoop(toks, At(s, 4), PR(None, None, 4, 0), items, Cur(toks, s).start).0.error.Some?
    ensures DictExpr(toks, s).0.error == DictLoop(toks, At(s, 4), PR(None, None, 4, 0), items, Cur(toks, s).start).0.error
  {
    assert Next(s) == At(s, 1) && Next(At(s, 1)) == At(s, 2) && Next(At(s, 2)) == At(s, 3);
    assert Next(At(s, 3)) == At(s, 4);
  }

  /** `, c : d` read by the loop of `dict_expr`: the unconditional advance
      after the key skips the ':', so the check lands on `d`, and the error
      spans from the '{' to the end of `d`. */
  lemma DictLoopMisread(toks: seq<Token>, s: PState, res: PR<Node>, items: seq<DictItem>, start: Position)
    requires Valid(toks) && res.error.None? && Cur(toks, s).kind == COMMA
    requires IsNumberTok(Cur(toks, At(s, 1))) && Cur(toks, At(s, 2)).kind == COLON
    requires IsNumberTok(Cur(toks, At(s, 3)))
    ensures DictLoop(toks, s, res, items, start).0.error == Some(Syntax(Expected("':'"), start, Cur(toks, At(s, 3)).end))
  {
    assert Next(s) == At(s, 1) && Next(At(s, 1)) == At(s, 2) && Next(At(s, 2)) == At(s, 3);
    ExprOfNumber(toks, At(s, 1));
  }
}

=== FILE: positions.dfy ===
/** Source positions (eel/base.py, class Position): an offset, a line and a
    column, plus the file name and the full text. The source mutates a
    Position in place and copies it whenever a token keeps one; here a
    position is a value, so every stored position is already a copy. */
module Positions {
  import opened Basics

  datatype Position = Position(idx: int, ln: int, col: int, fn: string, ftxt: string)

  /** `Position.advance(curr_char)`: one step forward; stepping over a
      newline starts the next line at column 0. */
  function Advance(p: Position, c: Option<char>): (q: Position)
    ensures q.idx == p.idx + 1
    ensures c == Some('\n') ==> q.ln == p.ln + 1 && q.col == 0
    ensures c != Some('\n') ==> q.ln == p.ln && q.col == p.col + 1
    ensures q.fn == p.fn && q.ftxt == p.ftxt
  {
    if c == Some('\n') then p.(idx := p.idx + 1, ln := p.ln + 1, col := 0)
    else p.(idx := p.idx + 1, col := p.col + 1)
  }

  /** Advancing over each character of `s` in turn, as the lexer does. */
  function AdvanceOver(p: Position, s: string): Position
    decreases |s|
  {
    if |s| == 0 then p else AdvanceOver(Advance(p, Some(s[0])), s[1..])
  }

  /** Number of newline characters in `s`. */
  function Newlines(s: string): nat {
    if |s| == 0 then 0 else Newlines(s[..|s| - 1]) + (if s[|s| - 1] == '\n' then 1 else 0)
  }

  /** Number of characters after the last newline of `s` (all of `s` when
      it has none). */
  function TailLength(s: string): nat {
    if |s| == 0 then 0 else if s[|s| - 1] == '\n' then 0 else TailLength(s[..|s| - 1]) + 1
  }

  /** Stepping over one more character extends the walk by one step. */
  lemma {:induction false} AdvanceOverSnoc(p: Position, s: string, c: char)
    ensures AdvanceOver(p, s + [c]) == Advance(AdvanceOver(p, s), Some(c))
    decreases |s|
  {
    if |s| > 0 {
      assert (s + [c])[1..] == s[1..] + [c];
      AdvanceOverSnoc(Advance(p, Some(s[0])), s[1..], c);
    }
  }

  /** After walking over `s`, the offset has moved by |s|, the line by the
      number of newlines in `s`, and the column counts the characters since
      the last newline (continuing the old column when there is none). */
  lemma {:induction false} AdvanceOverCounts(p: Position, s: string)
    ensures AdvanceOver(p, s).idx == p.idx + |s|
    ensures AdvanceOver(p, s).ln == p.ln + Newlines(s)
    ensures AdvanceOver(p, s).col == if Newlines(s) == 0 then p.col + |s| else TailLength(s) as int
    ensures AdvanceOver(p, s).fn == p.fn && AdvanceOver(p, s).ftxt == p.ftxt
    decreases |s|
  {
    if |s| > 0 {
      var init := s[..|s| - 1];
      var c := s[|s| - 1];
      assert s == init + [c];
      AdvanceOverSnoc(p, init, c);
      AdvanceOverCounts(p, init);
      if Newlines(init) == 0 && c != '\n' {
        TailOfNewlineFree(init);
      }
    }
  }

  /** A text without newlines is all tail. */
  lemma {:induction false} TailOfNewlineFree(s: string)
    requires Newlines(s) == 0
    ensures TailLength(s) == |s|
    decreases |s|
  {
    if |s| > 0 {
      TailOfNewlineFree(s[..|s| - 1]);
    }
  }
}

=== FILE: signals.dfy ===
/** The evaluation signal `RTResult` (eel/base.py): the value of a step, or
    the error, return value, continue or break that cuts it short. */
module Signals {
  import opened Basics
  import opened Errors

  datatype RTResult<V> = RTResult(value: Option<V>, error: Option<Error>, funcReturn: Option<V>,
                                  loopContinue: bool, loopBreak: bool)

  /** `RTResult()`, and the state every `reset` returns to. */
  function Fresh<V>(): RTResult<V> {
    RTResult(None, None, None, false, false)
  }

  /** How many of the five fields are set. */
  function SetCount<V>(r: RTResult<V>): nat {
    (if r.value.Some? then 1 else 0) + (if r.error.Some? then 1 else 0)
    + (if r.funcReturn.Some? then 1 else 0) + (if r.loopContinue then 1 else 0)
    + (if r.loopBreak then 1 else 0)
  }

  /** A signal that at most one of its fields describes: the shape every
      `success*`/`failure` leaves behind. */
  predicate Exclusive<V>(r: RTResult<V>) {
    SetCount(r) <= 1
  }

  function Success<V>(v: V): (r: RTResult<V>)
    ensures r.value == Some(v) && SetCount(r) == 1
  {
    Fresh<V>().(value := Some(v))
  }

  function SuccessReturn<V>(v: V): (r: RTResult<V>)
    ensures r.funcReturn == Some(v) && SetCount(r) == 1
  {
    Fresh<V>().(funcReturn := Some(v))
  }

  function SuccessContinue<V>(): (r: RTResult<V>)
    ensures r.loopContinue && SetCount(r) == 1
  {
    Fresh<V>().(loopContinue := true)
  }

  function SuccessBreak<V>(): (r: RTResult<V>)
    ensures r.loopBreak && SetCount(r) == 1
  {
    Fresh<V>().(loopBreak := true)
  }

  function Failure<V>(e: Error): (r: RTResult<V>)
    ensures r.error == Some(e) && SetCount(r) == 1
  {
    Fresh<V>().(error := Some(e))
  }

  /** `register(res)`: the receiver takes over the sub-result's error,
      return value, continue and break flags, keeps its own value, and hands
      back the sub-result's value. */
  function Register<V>(self: RTResult<V>, sub: RTResult<V>): (r: (RTResult<V>, Option<V>))
    ensures r.0.value == self.value && r.1 == sub.value
    ensures r.0.error == sub.error && r.0.funcReturn == sub.funcReturn
    ensures r.0.loopContinue == sub.loopContinue && r.0.loopBreak == sub.loopBreak
  {
    (sub.(value := self.value), sub.value)
  }

  /** `should_return()`: some signal other than a plain value is set. Values
      and errors have no `__bool__`, so a set return value counts whatever
      it is. */
  predicate ShouldReturn<V>(r: RTResult<V>) {
    r.error.Some? || r.funcReturn.Some? || r.loopContinue || r.loopBreak
  }

  /** A plain success is the only outcome that lets the caller carry on;
      every other constructor makes the caller return. */
  lemma ShouldReturnOfConstructors<V>(v: V, e: Error)
    ensures !ShouldReturn(Success(v))
    ensures ShouldReturn(SuccessReturn(v)) && ShouldReturn(SuccessContinue<V>())
    ensures ShouldReturn(SuccessBreak<V>()) && ShouldReturn(Failure<V>(e))
  {
  }

  /** Of an exclusive signal, `should_return` holds exactly when it carries
      no value and is not the empty result. */
  lemma ShouldReturnOfExclusive<V>(r: RTResult<V>)
    requires Exclusive(r)
    ensures ShouldReturn(r) <==> (r.value.None? && r != Fresh())
  {
  }

  /** `return res` right after `res.register(sub)`: the receiver never holds a
      value of its own at that point, so what goes back is the sub-result
      without its value. */
  function Propagate<V>(sub: RTResult<V>): RTResult<V> {
    Register(Fresh<V>(), sub).0
  }

  /** Registering into any result that holds no value is `Propagate`; an
      exclusive signal that makes the caller return is handed back unchanged. */
  lemma PropagateHandsBackSignal<V>(self: RTResult<V>, sub: RTResult<V>)
    requires self.value.None?
    ensures Register(self, sub).0 == Propagate(sub)
    ensures Exclusive(sub) && ShouldReturn(sub) ==> Propagate(sub) == sub
  {
  }

  /** After `register`, the receiver must return exactly when the
      sub-result had to; registering into a fresh result gives back the
      sub-result's signals minus its value, so exclusivity carries over. */
  lemma RegisterPropagates<V>(self: RTResult<V>, sub: RTResult<V>)
    ensures ShouldReturn(Register(self, sub).0) <==> ShouldReturn(sub)
    ensures self == Fresh() && Exclusive(sub) ==> Exclusive(Register(self, sub).0)
    ensures self == Fresh() && ShouldReturn(sub) ==> Register(self, sub).0 == sub.(value := None)
  {
  }
}

=== FILE: tokens.dfy ===
/** Tokens (eel/tokens.py): a kind, an optional literal payload and a span.
    The kinds MOD, COLON, DUBCOL, LCURLY and RCURLY are produced by the lexer
    and read by the parser although eel/tokens.py does not declare them. */
module Tokens {
  import opened Basics
  import opened Positions

  datatype Kind =
    | INT | FLOAT | STRING | IDENTIFIER | KEYWORD
    | PLUS | MINUS | MUL | DIV | POW | MOD
    | LPAREN | RPAREN | LBRACKET | RBRACKET | LCURLY | RCURLY
    | EQ | NE | EE | LT | GT | LTE | GTE
    | COMMA | ARROW | COLON | DUBCOL | NEWLINE | EOF

  /** The literal payload: absent, an integer, the text of a float literal
      (floating point is not modelled), or a string. */
  datatype TokValue = NoValue | IntVal(i: int) | FloatVal(text: string) | StrVal(s: string)

  datatype Token = Token(kind: Kind, value: TokValue, start: Position, end: Position)

  /** `Token(type_, value, pos_start, pos_end)`: without an explicit end, the
      end is the start advanced by one column. */
  function MakeToken(kind: Kind, value: TokValue, start: Position, end: Option<Position>): (t: Token)
    ensures t.kind == kind && t.value == value && t.start == start
    ensures end.Some? ==> t.end == end.value
    ensures end.None? ==> t.end.idx == start.idx + 1 && t.end.ln == start.ln && t.end.col == start.col + 1
    ensures end.None? ==> t.end.fn == start.fn && t.end.ftxt == start.ftxt
  {
    Token(kind, value, start, if end.Some? then end.value else Advance(start, None))
  }

  /** `Token.matches(type_, value)`. */
  predicate Matches(t: Token, kind: Kind, value: TokValue) {
    t.kind == kind && t.value == value
  }

  predicate IsKeywordTok(t: Token, word: string) {
    Matches(t, KEYWORD, StrVal(word))
  }

  /** The reserved words, in the order eel/tokens.py lists them. */
  const KEYWORDS: seq<string> := [
    "VAR", "AND", "OR", "XOR", "NOT", "IF", "THEN", "ELIF", "ELSE",
    "FOR", "TO", "STEP", "WHILE", "CONTINUE", "BREAK", "FN", "RETURN",
    "IMPORT", "END"
  ]

  predicate IsKeyword(s: string) {
    s in KEYWORDS
  }

  /** The keyword list holds 19 distinct words; membership is exact string
      equality, so the check is case-sensitive: "var" is not a keyword. */
  lemma KeywordsAreNineteenWords()
    ensures |KEYWORDS| == 19
    ensures forall i, j | 0 <= i < j < |KEYWORDS| :: KEYWORDS[i] != KEYWORDS[j]
    ensures !IsKeyword("var") && IsKeyword("VAR") && !IsKeyword("PRINT")
  {
    forall i, j | 0 <= i < j < |KEYWORDS|
      ensures KEYWORDS[i] != KEYWORDS[j]
    {
      var a, b := KEYWORDS[i], KEYWORDS[j];
      assert |a| != |b| || a[0] != b[0] || a[1] != b[1] || a[2] != b[2] || a[3] != b[3];
    }
  }
}

=== FILE: values.dfy ===
/** Run-time values (eel/values.py): the value kinds, their operator
    tables, `copy`, argument checking and the built-in functions that do no
    I/O.

    A Python value object carries a span and a context besides its payload;
    here that is `Value(kind, start, end, ctx)`. A value is an immutable
    record, and `set_pos` and `set_context` build a new record, although in
    the source they mutate and return the receiver. The one place where the
    identity of a value object is observable, a dictionary literal whose keys
    are the same object, is not modelled (see `Insert`). The storage behind a List is shared
    and mutated in place, so it lives in the heap and a List names it. A
    Dictionary's item map is never mutated after it is built, so its entries
    are held in the value itself. Floating point is not modelled: the
    numeric payload is an integer, and the results of `/` and of `**` with a
    negative exponent, and the value of a float literal, come from the
    `Host` record. */
module Values {
  import opened Basics
  import opened Positions
  import opened Contexts
  import opened Errors
  import opened Signals
  import opened Ast

  /** The built-in functions that do no I/O. */
  datatype Builtin = IsNum | IsStr | IsList | IsFunc | LsAppend | LsPop | LsExtend | DictGet | Len

  /** The payload of each value class. `Dict(None)` is a Dictionary object
      without an `items` attribute: an empty dictionary literal builds one. */
  datatype Kind =
    | Number(n: int)
    | Boolean(b: bool)
    | Null
    | Str(s: string)
    | List(ref: nat)
    | Dict(items: Option<seq<Entry>>)
    | Function(name: string, body: Node, params: seq<string>, autoReturn: bool)
    | BuiltIn(fn: Builtin)

  /** One `key: value` pair of a dictionary, in insertion order. A key is
      absent when its expression failed (see the evaluator). */
  datatype Entry = Entry(key: Option<Value>, val: Value)

  datatype Value = Value(kind: Kind, start: Option<Position>, end: Option<Position>, ctx: Option<Ctx>)

  /** The mutable state: symbol tables and the storage of every List. A List
      element is absent when `List + x` appended Python's `None`. */
  datatype Heap = Heap(tables: seq<Table<Value>>, lists: seq<seq<Option<Value>>>)

  /** Why Python would raise instead of returning a result. */
  datatype Reason = AttributeError | TypeError | ZeroDivision | OutOfFuel | NotModelled

  datatype Outcome<T> = Ok(val: T) | Crash(why: Reason)

  /** What the host computes and this model does not: float arithmetic and
      literals, and `str()` of a value. */
  datatype Host = Host(div: (int, int) -> int, negPow: (int, int) -> int,
                       floatLit: string -> int, show: (Heap, Option<Value>) -> string)

  /** A freshly constructed object: no span, no context. */
  function New(k: Kind): Value {
    Value(k, None, None, None)
  }

  /** `set_pos(start, end)`. */
  function At(v: Value, start: Option<Position>, end: Option<Position>): Value {
    v.(start := start, end := end)
  }

  /** The `type` attribute each class sets. */
  function TypeName(k: Kind): string {
    match k
    case Number(_) => "Number"
    case Boolean(_) => "Boolean"
    case Null => "Null"
    case Str(_) => "String"
    case List(_) => "List"
    case Dict(_) => "Type"
    case Function(_, _, _, _) => "Function"
    case BuiltIn(_) => "Function"
  }

  function BuiltinName(b: Builtin): string {
    match b
    case IsNum => "is_num"
    case IsStr => "is_str"
    case IsList => "is_list"
    case IsFunc => "is_func"
    case LsAppend => "ls_append"
    case LsPop => "ls_pop"
    case LsExtend => "ls_extend"
    case DictGet => "dict_get"
    case Len => "len"
  }

  /** The `arg_names` attached to each `execute_*` method. */
  function BuiltinParams(b: Builtin): seq<string> {
    match b
    case IsNum => ["value"]
    case IsStr => ["value"]
    case IsList => ["value"]
    case IsFunc => ["value"]
    case LsAppend => ["list", "value"]
    case LsPop => ["list", "index"]
    case LsExtend => ["list1", "list2"]
    case DictGet => ["dict", "key"]
    case Len => ["item"]
  }

  // ---------------------------------------------------------------------
  // List storage

  function Elems(h: Heap, r: nat): seq<Option<Value>> {
    if r < |h.lists| then h.lists[r] else []
  }

  function SetElems(h: Heap, r: nat, es: seq<Option<Value>>): Heap {
    if r < |h.lists| then h.(lists := h.lists[r := es]) else h
  }

  /** New storage holding `es`, named by the returned index. */
  function Alloc(h: Heap, es: seq<Option<Value>>): (r: (Heap, nat))
    ensures r.1 == |h.lists| && r.0.lists == h.lists + [es] && r.0.tables == h.tables
    ensures Elems(r.0, r.1) == es
  {
    (h.(lists := h.lists + [es]), |h.lists|)
  }

  // ---------------------------------------------------------------------
  // The Python payload behind `.value`

  /** `isinstance(x, Number)`: Boolean is a subclass of Number. */
  predicate IsNumber(k: Kind) {
    k.Number? || k.Boolean?
  }

  /** The numeric payload; a Boolean stores `bool(v)`, which counts as 0 or 1. */
  function NumOf(k: Kind): int
    requires IsNumber(k)
  {
    if k.Number? then k.n else if k.b then 1 else 0
  }

  /** The Python objects a `.value` attribute can hold here. */
  datatype Py = PyInt(i: int) | PyStr(s: string)

  /** `x.value`, or nothing when the class has no such attribute. */
  function PyValue(k: Kind): Option<Py> {
    match k
    case Number(n) => Some(PyInt(n))
    case Boolean(b) => Some(PyInt(if b then 1 else 0))
    case Str(s) => Some(PyStr(s))
    case _ => None
  }

  /** `str(x.value)` for a String, Number or Boolean; `str(True)` is "True". */
  function ValueText(k: Kind): string
    requires k.Str? || IsNumber(k)
  {
    match k
    case Str(s) => s
    case Number(n) => IntToString(n)
    case Boolean(b) => if b then "True" else "False"
  }

  // ---------------------------------------------------------------------
  // Operators

  datatype Op = Add | Sub | Mul | Div | Mod | Pow | Eq | Ne | Lt | Gt | Lte | Gte | And | Or | Xor

  /** A value method's `(result, error)` pair: exactly one is present. */
  datatype OpOut = Made(v: Value) | Failed(e: Error)

  /** `illegal_operation(other)`: from the left operand's start to the right
      operand's end, or to the left operand's own end when there is no right
      operand (every value object is truthy, so only `None` falls back). */
  function IllegalOperation(self: Value, other: Option<Value>): (e: Error)
    ensures e.kind == Runtime && e.details == "Illegal Operation" && e.ctx == self.ctx
  {
    RTError("Illegal Operation", self.start, if other.Some? then other.value.end else self.end, self.ctx)
  }

  function DivisionByZero(self: Value, other: Value): Error {
    RTError("Division by zero", other.start, other.end, self.ctx)
  }

  /** A result object built by a method of `self`: it takes `self`'s context
      and has no span. */
  function Derived(k: Kind, self: Value): Value {
    Value(k, None, None, self.ctx)
  }

  /** `x ** y` for a non-negative integer exponent. */
  function IntPow(x: int, y: nat): int {
    if y == 0 then 1 else x * IntPow(x, y - 1)
  }

  /** The operators of Number (and of its subclass Boolean). */
  function NumberOp(host: Host, op: Op, l: Value, r: Option<Value>): (o: Outcome<OpOut>)
    requires IsNumber(l.kind)
    ensures o.Ok? && o.val.Made? ==> o.val.v.ctx == l.ctx && o.val.v.start.None?
    ensures r.None? || !IsNumber(r.value.kind) ==> o == Ok(Failed(IllegalOperation(l, r)))
  {
    if r.None? || !IsNumber(r.value.kind) then Ok(Failed(IllegalOperation(l, r)))
    else
      var a, b := NumOf(l.kind), NumOf(r.value.kind);
      match op
      case Add => Ok(Made(Derived(Number(a + b), l)))
      case Sub => Ok(Made(Derived(Number(a - b), l)))
      case Mul => Ok(Made(Derived(Number(a * b), l)))
      case Div => if b == 0 then Ok(Failed(DivisionByZero(l, r.value))) else Ok(Made(Derived(Number(host.div(a, b)), l)))
      case Mod => if b == 0 then Ok(Failed(DivisionByZero(l, r.value))) else Ok(Made(Derived(Number(PyMod(a, b)), l)))
      case Pow =>
        // Python raises ZeroDivisionError for 0 to a negative power.
        if b >= 0 then Ok(Made(Derived(Number(IntPow(a, b)), l)))
        else if a == 0 then Crash(ZeroDivision)
        else Ok(Made(Derived(Number(host.negPow(a, b)), l)))
      case Eq => Ok(Made(Derived(Boolean(a == b), l)))
      case Ne => Ok(Made(Derived(Boolean(a != b), l)))
      case Lt => Ok(Made(Derived(Boolean(a < b), l)))
      case Gt => Ok(Made(Derived(Boolean(a > b), l)))
      case Lte => Ok(Made(Derived(Boolean(a <= b), l)))
      case Gte => Ok(Made(Derived(Boolean(a >= b), l)))
      case And => Ok(Made(Derived(Boolean(a != 0 && b != 0), l)))
      case Or => Ok(Made(Derived(Boolean(a != 0 || b != 0), l)))
      case Xor => Ok(Made(Derived(Boolean((a != 0) != (b != 0)), l)))
  }

  /** Null overrides only `==` and `!=`. */
  function NullOp(op: Op, l: Value, r: Option<Value>): (o: OpOut)
    requires l.kind.Null?
    ensures o.Made? ==> op in {Eq, Ne} && o.v.kind.Boolean? && o.v.ctx == l.ctx
  {
    var isNull := r.Some? && r.value.kind.Null?;
    match op
    case Eq => Made(Derived(Boolean(isNull), l))
    case Ne => Made(Derived(Boolean(!isNull), l))
    case _ => Failed(IllegalOperation(l, r))
  }

  /** The operators of String: concatenation with a String or Number's text,
      repetition, comparison by text, and ordering by code-point sum. */
  function StringOp(op: Op, l: Value, r: Option<Value>): (o: OpOut)
    requires l.kind.Str?
    ensures o.Made? ==> o.v.ctx == l.ctx && r.Some? && (r.value.kind.Str? || IsNumber(r.value.kind))
  {
    var s := l.kind.s;
    if r.None? then Failed(IllegalOperation(l, r))
    else
      var k := r.value.kind;
      match op
      case Add => if k.Str? || IsNumber(k) then Made(Derived(Str(s + ValueText(k)), l)) else Failed(IllegalOperation(l, r))
      case Mul => if IsNumber(k) then Made(Derived(Str(Repeat(s, NumOf(k))), l)) else Failed(IllegalOperation(l, r))
      case Eq => if k.Str? || IsNumber(k) then Made(Derived(Boolean(s == ValueText(k)), l)) else Failed(IllegalOperation(l, r))
      case Ne => if k.Str? || IsNumber(k) then Made(Derived(Boolean(s != ValueText(k)), l)) else Failed(IllegalOperation(l, r))
      case Lt => if k.Str? || IsNumber(k) then Made(Derived(Boolean(OrdSum(s) < Weight(k)), l)) else Failed(IllegalOperation(l, r))
      case Gt => if k.Str? || IsNumber(k) then Made(Derived(Boolean(OrdSum(s) > Weight(k)), l)) else Failed(IllegalOperation(l, r))
      case Lte => if k.Str? || IsNumber(k) then Made(Derived(Boolean(OrdSum(s) <= Weight(k)), l)) else Failed(IllegalOperation(l, r))
      case Gte => if k.Str? || IsNumber(k) then Made(Derived(Boolean(OrdSum(s) >= Weight(k)), l)) else Failed(IllegalOperation(l, r))
      case _ => Failed(IllegalOperation(l, r))
  }

  /** What a String's ordering compares the right operand by: another
      String's code-point sum, or a Number's value. */
  function Weight(k: Kind): int
    requires k.Str? || IsNumber(k)
  {
    if k.Str? then OrdSum(k.s) else NumOf(k)
  }

  /** `elem.type == other.type and elem.value == other.value`, with the
      AttributeError Python raises on `None` or on a class without `.value`
      (only reached when the types agree). */
  function SameAs(e: Option<Value>, x: Option<Value>): Outcome<bool> {
    if e.None? || x.None? then Crash(AttributeError)
    else if TypeName(e.value.kind) != TypeName(x.value.kind) then Ok(false)
    else if PyValue(e.value.kind).None? then Crash(AttributeError)
    else Ok(PyValue(e.value.kind) == PyValue(x.value.kind))
  }

  /** The elements of `es` that are not the same as `x`, in order. */
  function Without(es: seq<Option<Value>>, x: Option<Value>): Outcome<seq<Option<Value>>>
    decreases |es|
  {
    if |es| == 0 then Ok([])
    else match SameAs(es[0], x)
      case Crash(why) => Crash(why)
      case Ok(same) =>
        match Without(es[1..], x)
        case Crash(why) => Crash(why)
        case Ok(rest) => Ok(if same then rest else [es[0]] + rest)
  }

  /** `es` extended by itself `k` times: `extend` with the very list being
      extended doubles it each time. */
  function Doubled(es: seq<Option<Value>>, k: int): seq<Option<Value>>
    decreases if k <= 0 then 0 else k
  {
    if k <= 0 then es else Doubled(es + es, k - 1)
  }

  /** The operators of List. `+` and `*` mutate the storage the left operand
      shares with every copy of it; `-` builds new storage. */
  function ListOp(op: Op, h: Heap, l: Value, r: Option<Value>): (o: Outcome<(Heap, OpOut)>)
    requires l.kind.List?
    ensures o.Ok? ==> o.val.0.tables == h.tables && |o.val.0.lists| >= |h.lists|
  {
    var ref := l.kind.ref;
    var es := Elems(h, ref);
    match op
    case Add =>
      if r.Some? && r.value.kind.List? then Ok((SetElems(h, ref, es + Elems(h, r.value.kind.ref)), Made(l)))
      else Ok((SetElems(h, ref, es + [r]), Made(l)))
    case Sub =>
      (match Without(es, r)
       case Crash(why) => Crash(why)
       case Ok(kept) =>
         var (h1, ref1) := Alloc(h, kept);
         Ok((h1, Made(l.(kind := List(ref1))))))
    case Mul =>
      if r.Some? && IsNumber(r.value.kind) then Ok((SetElems(h, ref, Doubled(es, NumOf(r.value.kind) - 1)), Made(l)))
      else Ok((h, Failed(IllegalOperation(l, r))))
    case Pow =>
      if r.Some? && IsNumber(r.value.kind) then
        var n := NumOf(r.value.kind);
        if -|es| <= n < |es| then
          var e := es[if n >= 0 then n else |es| + n];
          // The element itself is the result; the only caller calls
          // `set_pos` on it, which raises for a `None` element.
          if e.None? then Crash(AttributeError) else Ok((h, Made(e.value)))
        else Ok((h, Failed(RTError("Index Out of Bounds", r.value.start, r.value.end, l.ctx))))
      else Ok((h, Failed(IllegalOperation(l, r))))
    case _ => Ok((h, Failed(IllegalOperation(l, r))))
  }

  /** Dispatch on the left operand's class; Dictionary, Function and the
      built-ins override nothing. */
  function Binary(host: Host, op: Op, h: Heap, l: Value, r: Option<Value>): (o: Outcome<(Heap, OpOut)>)
    ensures o.Ok? ==> o.val.0.tables == h.tables && |o.val.0.lists| >= |h.lists|
    ensures o.Ok? && !l.kind.List? ==> o.val.0 == h
  {
    match l.kind
    case Number(_) => (match NumberOp(host, op, l, r) case Crash(why) => Crash(why) case Ok(out) => Ok((h, out)))
    case Boolean(_) => (match NumberOp(host, op, l, r) case Crash(why) => Crash(why) case Ok(out) => Ok((h, out)))
    case Null => Ok((h, NullOp(op, l, r)))
    case Str(_) => Ok((h, StringOp(op, l, r)))
    case List(_) => ListOp(op, h, l, r)
    case _ => Ok((h, Failed(IllegalOperation(l, r))))
  }

  /** `notted()`: Number and Boolean give whether the value is 0; every
      other class fails over its own span. */
  function Notted(l: Value): (o: OpOut)
    ensures o.Made? <==> IsNumber(l.kind)
  {
    if IsNumber(l.kind) then Made(Derived(Boolean(NumOf(l.kind) == 0), l))
    else Failed(IllegalOperation(l, None))
  }

  /** `is_true()`. */
  predicate IsTrue(v: Value) {
    match v.kind
    case Number(n) => n != 0
    case Boolean(b) => b
    case Str(s) => |s| > 0
    case _ => false
  }

  /** `copy()`: every class copies payload, span and context, and a List's
      copy names the same storage. A Dictionary built from an empty literal
      has no `items` attribute, so copying it raises. */
  function CopyOf(v: Value): (o: Outcome<Value>)
    ensures o.Crash? <==> v.kind == Dict(None)
  {
    if v.kind == Dict(None) then Crash(AttributeError) else Ok(v)
  }

  /** `items[k] = v` on a Python dict whose keys are value objects, which
      hash by identity. Every present key is taken to be a distinct object,
      which holds for keys built by the evaluator but not for a stored List
      element handed back twice by `^`; the key `None` (a key expression
      that failed) can occur once, and storing it again replaces its value in
      place. */
  function Insert(es: seq<Entry>, key: Option<Value>, val: Value): seq<Entry>
    decreases |es|
  {
    if |es| == 0 then [Entry(key, val)]
    else if key.None? && es[0].key.None? then [Entry(None, val)] + es[1..]
    else [es[0]] + Insert(es[1..], key, val)
  }

  // ---------------------------------------------------------------------
  // Calling

  /** `generate_new_context()`: a frame named after the function, whose
      parent is the function's context and whose entry position is the
      function's start; when there is a parent, the frame's table is a new
      table whose parent is the parent context's table. */
  function NewFrame(h: Heap, name: string, ctx: Option<Ctx>, entry: Option<Position>): (r: (Heap, Ctx))
    ensures r.1.name == name && r.1.parent == ctx && r.1.entryPos == entry
    ensures |r.0.tables| > |h.tables| && r.0.tables[..|h.tables|] == h.tables && r.0.lists == h.lists
    ensures |h.tables| <= r.1.table < |r.0.tables|
    ensures r.0.tables[r.1.table].symbols == map[]
    ensures r.0.tables[r.1.table].parent == if ctx.Some? then Some(ctx.value.table) else None
  {
    var (ts1, c) := NewContext(h.tables, name, ctx, entry);
    if ctx.Some? then
      var (ts2, t) := NewTable(ts1, Some(ctx.value.table));
      assert ts2[..|h.tables|] == ts1[..|h.tables|];
      (h.(tables := ts2), c.(table := t))
    else (h.(tables := ts1), c)
  }

  function ArgsMessage(more: bool, k: nat, name: string): string {
    (if more then "Too many args (" else "Too few args (") + NatToString(k) + ") passed into '" + name + "'"
  }

  /** `check_args(arg_names, args)`: the error spans the function value and
      names the exact surplus or shortfall. */
  function CheckArgs(f: Value, name: string, params: seq<string>, args: seq<Value>): (r: RTResult<Value>)
    ensures SetCount(r) == 1
    ensures ShouldReturn(r) <==> |args| != |params|
  {
    if |args| > |params| then
      Failure(RTError(ArgsMessage(true, |args| - |params|, name), f.start, f.end, f.ctx))
    else if |args| < |params| then
      Failure(RTError(ArgsMessage(false, |params| - |args|, name), f.start, f.end, f.ctx))
    else Success(New(Null))
  }

  /** `populate_args`: bind the arguments in order into table `t`, each
      re-homed to the new frame's context. */
  function Populate(ts: seq<Table<Value>>, t: nat, params: seq<string>, args: seq<Value>, frame: Ctx)
    : (r: seq<Table<Value>>)
    requires |args| <= |params|
    ensures |r| == |ts|
    ensures forall u | 0 <= u < |ts| && u != t :: r[u] == ts[u]
    decreases |args|
  {
    if |args| == 0 then ts
    else Populate(Set(ts, t, params[0], args[0].(ctx := Some(frame))), t, params[1..], args[1..], frame)
  }

  // ---------------------------------------------------------------------
  // Built-in functions

  function BuiltinError(msg: string, f: Value, frame: Ctx): RTResult<Value> {
    Failure(RTError(msg, f.start, f.end, Some(frame)))
  }

  /** The first entry whose key's `.value` equals `key.value`, raising as
      Python does when a key (or the looked-up key) has no `.value`. */
  function DictLookup(es: seq<Entry>, key: Option<Value>): Outcome<Option<Value>>
    decreases |es|
  {
    if |es| == 0 then Ok(None)
    else if es[0].key.None? || PyValue(es[0].key.value.kind).None? then Crash(AttributeError)
    else if key.None? || PyValue(key.value.kind).None? then Crash(AttributeError)
    else if PyValue(es[0].key.value.kind) == PyValue(key.value.kind) then Ok(Some(es[0].val))
    else DictLookup(es[1..], key)
  }

  /** An argument read back from the frame's table with `symbol_table.get`. */
  function Arg(h: Heap, frame: Ctx, name: string): Option<Value> {
    Get(h.tables, frame.table, name)
  }

  /** `execute_is_num`, `execute_is_str`, `execute_is_list`, `execute_is_func`:
      a Boolean telling whether the argument is an instance of the class;
      Boolean counts as a Number, and a built-in as a function. */
  function TypeTest(b: Builtin, v: Option<Value>): (r: bool)
    requires b in {IsNum, IsStr, IsList, IsFunc}
  {
    if v.None? then false
    else if b == IsNum then IsNumber(v.value.kind)
    else if b == IsStr then v.value.kind.Str?
    else if b == IsList then v.value.kind.List?
    else v.value.kind.Function? || v.value.kind.BuiltIn?
  }

  /** `execute_ls_append`, `execute_ls_pop`, `execute_ls_extend`. */
  function ListBuiltin(h: Heap, b: Builtin, f: Value, frame: Ctx): (o: Outcome<(Heap, RTResult<Value>)>)
    requires b in {LsAppend, LsPop, LsExtend}
    ensures o.Ok? ==> SetCount(o.val.1) == 1 && o.val.0.tables == h.tables
  {
    if b == LsAppend then
      var l := Arg(h, frame, "list");
      if l.None? || !l.value.kind.List? then Ok((h, BuiltinError("First argument of 'append' must be a list", f, frame)))
      else Ok((SetElems(h, l.value.kind.ref, Elems(h, l.value.kind.ref) + [Arg(h, frame, "value")]), Success(New(Null))))
    else if b == LsPop then
      var l, i := Arg(h, frame, "list"), Arg(h, frame, "index");
      if l.None? || !l.value.kind.List? then Ok((h, BuiltinError("First argument of 'pop' must be a list", f, frame)))
      else if i.None? || !IsNumber(i.value.kind) then Ok((h, BuiltinError("Second argument of 'pop' must be a number", f, frame)))
      // `list.pop` is handed the Number object itself, not an int.
      else Crash(TypeError)
    else
      var l1, l2 := Arg(h, frame, "list1"), Arg(h, frame, "list2");
      if l1.None? || !l1.value.kind.List? then Ok((h, BuiltinError("First argument of 'extend' must be a list", f, frame)))
      else if l2.None? || !l2.value.kind.List? then Ok((h, BuiltinError("Second argument of 'extend' must be a list", f, frame)))
      else Ok((SetElems(h, l1.value.kind.ref, Elems(h, l1.value.kind.ref) + Elems(h, l2.value.kind.ref)), Success(New(Null))))
  }

  /** `execute_dict_get`: the value of the first entry whose key matches,
      else an error naming the key's text. */
  function DictGetBuiltin(host: Host, h: Heap, f: Value, frame: Ctx): (o: Outcome<RTResult<Value>>)
    ensures o.Ok? ==> SetCount(o.val) == 1
  {
    var d, key := Arg(h, frame, "dict"), Arg(h, frame, "key");
    if d.None? || !d.value.kind.Dict? || d.value.kind.items.None? then Crash(AttributeError)
    else
      match DictLookup(d.value.kind.items.value, key)
      case Crash(why) => Crash(why)
      case Ok(found) =>
        if found.Some? then Ok(Success(found.value))
        else Ok(BuiltinError("Key '" + host.show(h, key) + "' is not in dictionary", f, frame))
  }

  /** `execute_len`: the number of elements of a List or entries of a
      Dictionary. */
  function LenBuiltin(h: Heap, f: Value, frame: Ctx): (o: Outcome<RTResult<Value>>)
    ensures o.Ok? ==> SetCount(o.val) == 1
  {
    var item := Arg(h, frame, "item");
    if item.Some? && item.value.kind.List? then Ok(Success(New(Number(|Elems(h, item.value.kind.ref)|))))
    else if item.Some? && item.value.kind.Dict? then
      if item.value.kind.items.None? then Crash(AttributeError)
      else Ok(Success(New(Number(|item.value.kind.items.value|))))
    else Ok(BuiltinError("Argument must be list or dictionary", f, frame))
  }

  /** The body of `execute_<name>`, reading its arguments back from the
      frame's table. */
  function RunBuiltin(host: Host, h: Heap, b: Builtin, f: Value, frame: Ctx): (o: Outcome<(Heap, RTResult<Value>)>)
    ensures o.Ok? ==> SetCount(o.val.1) == 1 && o.val.0.tables == h.tables
  {
    if b in {IsNum, IsStr, IsList, IsFunc} then Ok((h, Success(New(Boolean(TypeTest(b, Arg(h, frame, "value")))))))
    else if b in {LsAppend, LsPop, LsExtend} then ListBuiltin(h, b, f, frame)
    else
      var r := if b == DictGet then DictGetBuiltin(host, h, f, frame) else LenBuiltin(h, f, frame);
      match r
      case Crash(why) => Crash(why)
      case Ok(res) => Ok((h, res))
  }

  /** `BuiltInFunction.execute(args)`: open a frame, check and bind the
      arguments, run the body. */
  function BuiltinExecute(host: Host, h: Heap, f: Value, b: Builtin, args: seq<Value>): (o: Outcome<(Heap, RTResult<Value>)>)
    ensures o.Ok? ==> SetCount(o.val.1) == 1
  {
    var (h1, frame) := NewFrame(h, BuiltinName(b), f.ctx, f.start);
    var params := BuiltinParams(b);
    var chk := CheckArgs(f, BuiltinName(b), params, args);
    if ShouldReturn(chk) then Ok((h1, Propagate(chk)))
    else
      var h2 := h1.(tables := Populate(h1.tables, frame.table, params, args, frame));
      match RunBuiltin(host, h2, b, f, frame)
      case Crash(why) => Crash(why)
      case Ok((h3, r)) => if ShouldReturn(r) then Ok((h3, Propagate(r))) else Ok((h3, Success(r.value.value)))
  }
}

=== FILE: values_props.dfy ===
/** Properties of the value model (eel/values.py): the operator tables and
    their error cases, the aliasing of List storage, argument binding and
    the built-in functions. */
module ValueProperties {
  import opened Basics
  import opened Contexts
  import opened Errors
  import opened Signals
  import opened Values

  /** The operator produced a value of kind `k`. */
  predicate Gives(o: Outcome<(Heap, OpOut)>, k: Kind) {
    o.Ok? && o.val.1.Made? && o.val.1.v.kind == k
  }

  /** The operator produced a value that `is_true` accepts. */
  predicate GivesTrue(o: Outcome<(Heap, OpOut)>) {
    o.Ok? && o.val.1.Made? && IsTrue(o.val.1.v)
  }

  // ---------------------------------------------------------------------
  // The fallback

  /** Dictionary, Function and the built-ins override no operator: each one
      fails "Illegal Operation" from the left operand's start to the right
      operand's end (its own end for `notted`), in its context, and changes
      nothing. */
  lemma UnsupportedOperatorsAreIllegal(host: Host, op: Op, h: Heap, l: Value, r: Option<Value>)
    requires l.kind.Dict? || l.kind.Function? || l.kind.BuiltIn?
    ensures Binary(host, op, h, l, r) == Ok((h, Failed(IllegalOperation(l, r))))
    ensures Notted(l) == Failed(RTError("Illegal Operation", l.start, l.end, l.ctx))
    ensures r.Some? ==> IllegalOperation(l, r) == RTError("Illegal Operation", l.start, r.value.end, l.ctx)
  {
  }

  /** Null overrides only `==` and `!=`, which say whether the other operand
      is Null; every other operator is illegal. */
  lemma NullComparesOnlyForEquality(host: Host, op: Op, h: Heap, l: Value, r: Option<Value>)
    requires l.kind.Null?
    ensures op == Eq ==> Binary(host, op, h, l, r).Ok? && Binary(host, op, h, l, r).val.1.Made?
    ensures op == Eq ==> (GivesTrue(Binary(host, op, h, l, r)) <==> r.Some? && r.value.kind.Null?)
    ensures op == Ne ==> (GivesTrue(Binary(host, op, h, l, r)) <==> !(r.Some? && r.value.kind.Null?))
    ensures op !in {Eq, Ne} ==> Binary(host, op, h, l, r) == Ok((h, Failed(IllegalOperation(l, r))))
    ensures !IsTrue(l) && Notted(l).Failed?
  {
  }

  // ---------------------------------------------------------------------
  // Number and Boolean

  /** `/` and `%` with a Number on both sides fail "Division by zero" over
      the right operand's span exactly when the divisor is 0; any other
      divisor gives a result. */
  lemma DivisionByZeroIsCheckedFirst(host: Host, op: Op, h: Heap, l: Value, r: Value)
    requires IsNumber(l.kind) && IsNumber(r.kind) && op in {Div, Mod}
    ensures NumOf(r.kind) == 0 <==>
            Binary(host, op, h, l, Some(r)) == Ok((h, Failed(RTError("Division by zero", r.start, r.end, l.ctx))))
    ensures NumOf(r.kind) != 0 ==> Binary(host, op, h, l, Some(r)).Ok? && Binary(host, op, h, l, Some(r)).val.1.Made?
  {
  }

  /** Only a Number left operand checks the divisor: a String or List
      divided by 0 is an illegal operation, not a division by zero. */
  lemma DivisionByZeroNeedsANumber(host: Host, h: Heap, l: Value, r: Value)
    requires (l.kind.Str? || l.kind.List?) && IsNumber(r.kind) && NumOf(r.kind) == 0
    ensures Binary(host, Div, h, l, Some(r)) == Ok((h, Failed(IllegalOperation(l, Some(r)))))
    ensures IllegalOperation(l, Some(r)).details != "Division by zero"
  {
  }

  /** Python's `%` takes the sign of the divisor. */
  lemma ModuloFollowsTheDivisor(host: Host, h: Heap, l: Value, r: Value)
    requires IsNumber(l.kind) && IsNumber(r.kind) && NumOf(r.kind) != 0
    ensures var o := Binary(host, Mod, h, l, Some(r));
            o.Ok? && o.val.1.Made? && o.val.1.v.kind.Number? &&
            (NumOf(r.kind) > 0 ==> 0 <= o.val.1.v.kind.n < NumOf(r.kind)) &&
            (NumOf(r.kind) < 0 ==> NumOf(r.kind) < o.val.1.v.kind.n <= 0)
  {
  }

  /** Subtracting what was added gives back the left operand's number. */
  lemma AddThenSubtract(host: Host, h: Heap, l: Value, r: Value)
    requires IsNumber(l.kind) && IsNumber(r.kind)
    ensures var sum := Binary(host, Add, h, l, Some(r));
            sum.Ok? && sum.val.1.Made? &&
            Gives(Binary(host, Sub, h, sum.val.1.v, Some(r)), Number(NumOf(l.kind)))
  {
  }

  /** AND, OR, XOR and NOT answer with a Boolean that agrees with `is_true`
      of the operands: XOR holds when exactly one operand is nonzero, NOT
      when the operand is 0. */
  lemma LogicAgreesWithTruth(host: Host, h: Heap, l: Value, r: Value)
    requires IsNumber(l.kind) && IsNumber(r.kind)
    ensures Gives(Binary(host, And, h, l, Some(r)), Boolean(IsTrue(l) && IsTrue(r)))
    ensures Gives(Binary(host, Or, h, l, Some(r)), Boolean(IsTrue(l) || IsTrue(r)))
    ensures Gives(Binary(host, Xor, h, l, Some(r)), Boolean(IsTrue(l) != IsTrue(r)))
    ensures Notted(l).Made? && Notted(l).v.kind == Boolean(!IsTrue(l))
    ensures IsTrue(l) <==> NumOf(l.kind) != 0
  {
  }

  /** The comparisons answer with Booleans, whose numeric value is 0 or 1,
      and are consistent: exactly one of `<`, `==`, `>` holds, `<=` and `>=`
      are the negations of `>` and `<`, and `!=` of `==`. */
  lemma ComparisonsAreConsistent(host: Host, h: Heap, l: Value, r: Value)
    requires IsNumber(l.kind) && IsNumber(r.kind)
    ensures forall op | op in {Eq, Ne, Lt, Gt, Lte, Gte} ::
              Binary(host, op, h, l, Some(r)).Ok? && Binary(host, op, h, l, Some(r)).val.1.Made? &&
              Binary(host, op, h, l, Some(r)).val.1.v.kind.Boolean? &&
              NumOf(Binary(host, op, h, l, Some(r)).val.1.v.kind) in {0, 1}
    ensures (if GivesTrue(Binary(host, Lt, h, l, Some(r))) then 1 else 0)
          + (if GivesTrue(Binary(host, Eq, h, l, Some(r))) then 1 else 0)
          + (if GivesTrue(Binary(host, Gt, h, l, Some(r))) then 1 else 0) == 1
    ensures GivesTrue(Binary(host, Lte, h, l, Some(r))) <==> !GivesTrue(Binary(host, Gt, h, l, Some(r)))
    ensures GivesTrue(Binary(host, Gte, h, l, Some(r))) <==> !GivesTrue(Binary(host, Lt, h, l, Some(r)))
    ensures GivesTrue(Binary(host, Ne, h, l, Some(r))) <==> !GivesTrue(Binary(host, Eq, h, l, Some(r)))
  {
  }

  // ---------------------------------------------------------------------
  // String

  /** `+` appends the right operand's text; the text of a Number reads back
      as that number, and that of a non-negative one is plain digits. */
  lemma ConcatenationAppendsText(l: Value, r: Value)
    requires l.kind.Str? && (r.kind.Str? || IsNumber(r.kind))
    ensures var o := StringOp(Add, l, Some(r));
            o.Made? && o.v.kind.Str? && o.v.ctx == l.ctx &&
            |o.v.kind.s| == |l.kind.s| + |ValueText(r.kind)| && o.v.kind.s[..|l.kind.s|] == l.kind.s
    ensures r.kind.Number? && r.kind.n >= 0 ==>
            var t := StringOp(Add, l, Some(r)).v.kind.s[|l.kind.s|..];
            (forall i | 0 <= i < |t| :: IsDigit(t[i])) && DecimalValue(t) == r.kind.n
    ensures r.kind.Number? ==>
            var t := StringOp(Add, l, Some(r)).v.kind.s[|l.kind.s|..];
            IsIntText(t) && SignedValue(t) == r.kind.n
  {
    var o := StringOp(Add, l, Some(r));
    assert o.v.kind.s == l.kind.s + ValueText(r.kind);
    assert o.v.kind.s[|l.kind.s|..] == ValueText(r.kind);
    if r.kind.Number? {
      IntegerRoundTrip(r.kind.n);
    }
  }

  lemma MulNonNeg(x: int, y: int)
    requires x >= 0 && y >= 0
    ensures x * y >= 0
  {
  }

  /** Euclidean division has one remainder. */
  lemma ModUnique(i: int, m: int, a: int, b: int)
    requires m > 0 && 0 <= b < m && i == m * a + b
    ensures i % m == b
  {
    var q, r := i / m, i % m;
    assert i == m * q + r;
    var d := a - q;
    assert m * d == m * a - m * q;
    assert m * d == r - b;
    if d > 0 {
      MulNonNeg(m, d - 1);
    } else if d < 0 {
      MulNonNeg(m, -d - 1);
    }
  }

  lemma ModShift(i: int, m: int)
    requires m > 0
    ensures (i - m) % m == i % m
  {
    assert i == m * (i / m) + i % m;
    ModUnique(i - m, m, i / m - 1, i % m);
  }

  lemma ModOfDoubleMod(i: int, m: int)
    requires m > 0
    ensures (i % (2 * m)) % m == i % m
  {
    var r := i % (2 * m);
    var q := i / (2 * m);
    assert i == 2 * m * q + r;
    assert r == m * (r / m) + r % m;
    assert i == m * (2 * q + r / m) + r % m;
    ModUnique(i, m, 2 * q + r / m, r % m);
  }

  lemma {:induction false} RepeatCharAt(s: string, n: int, i: int)
    requires 0 <= i < |Repeat(s, n)|
    ensures |s| > 0 && Repeat(s, n)[i] == s[i % |s|]
    decreases if n <= 0 then 0 else n
  {
    assert n > 0;
    var rest := Repeat(s, n - 1);
    assert Repeat(s, n) == s + rest;
    assert |s| > 0;
    if i < |s| {
      ModUnique(i, |s|, 0, i);
    } else {
      assert Repeat(s, n)[i] == rest[i - |s|];
      RepeatCharAt(s, n - 1, i - |s|);
      ModShift(i, |s|);
    }
  }

  /** `*` by a Number repeats the text that many times, none for a count
      of 0 or less. */
  lemma RepetitionRepeatsText(l: Value, r: Value)
    requires l.kind.Str? && IsNumber(r.kind)
    ensures var o := StringOp(Mul, l, Some(r));
            o.Made? && o.v.kind.Str? &&
            |o.v.kind.s| == (if NumOf(r.kind) <= 0 then 0 else |l.kind.s| * NumOf(r.kind)) &&
            forall i | 0 <= i < |o.v.kind.s| :: o.v.kind.s[i] == l.kind.s[i % |l.kind.s|]
  {
    var o := StringOp(Mul, l, Some(r));
    forall i | 0 <= i < |o.v.kind.s|
      ensures o.v.kind.s[i] == l.kind.s[i % |l.kind.s|]
    {
      RepeatCharAt(l.kind.s, NumOf(r.kind), i);
    }
  }

  /** `==` against a String or Number compares texts, so "1" equals 1 and
      "True" equals a true Boolean; `!=` is its negation. */
  lemma EqualityComparesText(l: Value, r: Value)
    requires l.kind.Str? && (r.kind.Str? || IsNumber(r.kind))
    ensures StringOp(Eq, l, Some(r)).Made? && StringOp(Ne, l, Some(r)).Made?
    ensures IsTrue(StringOp(Eq, l, Some(r)).v) <==> l.kind.s == ValueText(r.kind)
    ensures IsTrue(StringOp(Ne, l, Some(r)).v) <==> !IsTrue(StringOp(Eq, l, Some(r)).v)
    ensures r.kind == Number(1) && l.kind.s == "1" ==> IsTrue(StringOp(Eq, l, Some(r)).v)
    ensures r.kind == Boolean(true) && l.kind.s == "True" ==> IsTrue(StringOp(Eq, l, Some(r)).v)
  {
  }

  /** Ordering compares code-point sums, so it ignores the order of the
      characters: "ab" is neither less nor greater than "ba", though it is
      smaller in Python's own string order, and it is not equal to it. */
  lemma OrderingIgnoresCharacterOrder(l: Value, r: Value)
    requires l.kind == Str("ab") && r.kind == Str("ba")
    ensures !IsTrue(StringOp(Lt, l, Some(r)).v) && !IsTrue(StringOp(Gt, l, Some(r)).v)
    ensures IsTrue(StringOp(Lte, l, Some(r)).v) && !IsTrue(StringOp(Eq, l, Some(r)).v)
    ensures StrLess("ab", "ba")
  {
    assert OrdSum("ab") == OrdSum("ab"[..1]) + 'b' as nat;
    assert OrdSum("ba") == OrdSum("ba"[..1]) + 'a' as nat;
    assert "ab"[..1] == "a" && "ba"[..1] == "b";
  }

  /** Against a Number, ordering compares the code-point sum with the
      number. */
  lemma OrderingAgainstANumber(l: Value, r: Value)
    requires l.kind.Str? && IsNumber(r.kind)
    ensures IsTrue(StringOp(Lt, l, Some(r)).v) <==> OrdSum(l.kind.s) < NumOf(r.kind)
    ensures IsTrue(StringOp(Gte, l, Some(r)).v) <==> !IsTrue(StringOp(Lt, l, Some(r)).v)
  {
  }

  // ---------------------------------------------------------------------
  // List

  /** `^` with a negative index counts from the end, as Python indexing
      does. */
  lemma NegativeIndexCountsFromEnd(h: Heap, l: Value, k: int)
    requires l.kind.List? && 0 <= k < |Elems(h, l.kind.ref)|
    ensures ListOp(Pow, h, l, Some(New(Number(k - |Elems(h, l.kind.ref)|)))) == ListOp(Pow, h, l, Some(New(Number(k))))
    ensures Elems(h, l.kind.ref)[k].Some? ==>
            ListOp(Pow, h, l, Some(New(Number(k)))) == Ok((h, Made(Elems(h, l.kind.ref)[k].value)))
  {
  }

  /** `^` fails "Index Out of Bounds" over the index's span exactly when the
      index is outside `-len .. len-1`. */
  lemma IndexOutOfBounds(h: Heap, l: Value, r: Value)
    requires l.kind.List? && IsNumber(r.kind)
    ensures var es, n := Elems(h, l.kind.ref), NumOf(r.kind);
            ListOp(Pow, h, l, Some(r)) == Ok((h, Failed(RTError("Index Out of Bounds", r.start, r.end, l.ctx))))
            <==> !(-|es| <= n < |es|)
  {
  }

  /** A copy of a List names the same storage, so `+` on the copy extends
      what the original sees: by the right operand's elements when it is a
      List, by the operand itself otherwise. No other storage changes. */
  lemma AdditionExtendsSharedStorage(h: Heap, l: Value, x: Option<Value>)
    requires l.kind.List? && l.kind.ref < |h.lists|
    ensures CopyOf(l).Ok?
    ensures var c := CopyOf(l).val; var o := ListOp(Add, h, c, x);
            o.Ok? && o.val.1 == Made(c) && c.kind == l.kind &&
            Elems(o.val.0, l.kind.ref) ==
              Elems(h, l.kind.ref) + (if x.Some? && x.value.kind.List? then Elems(h, x.value.kind.ref) else [x]) &&
            forall q | 0 <= q < |h.lists| && q != l.kind.ref :: Elems(o.val.0, q) == Elems(h, q)
  {
  }

  lemma {:induction false} WithoutKeepsTheOthers(es: seq<Option<Value>>, x: Option<Value>)
    requires Without(es, x).Ok?
    ensures forall e | e in Without(es, x).val :: e in es && SameAs(e, x) == Ok(false)
    ensures forall e | e in es :: SameAs(e, x).Ok?
    ensures forall e | e in es && SameAs(e, x) == Ok(false) :: e in Without(es, x).val
    decreases |es|
  {
    if |es| > 0 {
      WithoutKeepsTheOthers(es[1..], x);
      assert es == [es[0]] + es[1..];
    }
  }

  /** `-` leaves the left operand's storage alone and answers with new
      storage holding exactly the elements that are not the same as the
      right operand (same type and same `.value`). Removing from an empty
      List never looks at the right operand; a non-empty one raises when the
      right operand is `None`. */
  lemma SubtractionBuildsNewStorage(h: Heap, l: Value, x: Option<Value>)
    requires l.kind.List?
    ensures var o := ListOp(Sub, h, l, x);
            o.Ok? <==> Without(Elems(h, l.kind.ref), x).Ok?
    ensures var o := ListOp(Sub, h, l, x);
            o.Ok? ==>
              o.val.1.Made? && o.val.1.v.kind == List(|h.lists|) &&
              Elems(o.val.0, l.kind.ref) == Elems(h, l.kind.ref) &&
              (forall e | e in Elems(o.val.0, |h.lists|) :: e in Elems(h, l.kind.ref) && SameAs(e, x) == Ok(false)) &&
              (forall e | e in Elems(h, l.kind.ref) && SameAs(e, x) == Ok(false) :: e in Elems(o.val.0, |h.lists|))
    ensures |Elems(h, l.kind.ref)| == 0 ==> ListOp(Sub, h, l, x).Ok?
    ensures |Elems(h, l.kind.ref)| > 0 && x.None? ==> ListOp(Sub, h, l, x) == Crash(AttributeError)
  {
    var es := Elems(h, l.kind.ref);
    if Without(es, x).Ok? {
      WithoutKeepsTheOthers(es, x);
      var (h1, ref1) := Alloc(h, Without(es, x).val);
      assert Elems(h1, l.kind.ref) == es;
    }
  }

  function Pow2(k: nat): nat {
    if k == 0 then 1 else 2 * Pow2(k - 1)
  }

  /** Reading the doubled sequence cyclically is reading the original
      cyclically. */
  lemma CyclicOfDouble(es: seq<Option<Value>>, i: int)
    requires |es| > 0 && 0 <= i
    ensures (es + es)[i % (2 * |es|)] == es[i % |es|]
  {
    var m := |es|;
    var j := i % (2 * m);
    ModOfDoubleMod(i, m);
    if j < m {
      ModUnique(j, m, 0, j);
    } else {
      ModUnique(j, m, 1, j - m);
      assert (es + es)[j] == es[j - m];
    }
  }

  lemma CyclicWithin(es: seq<Option<Value>>, i: int)
    requires 0 <= i < |es|
    ensures es[i % |es|] == es[i]
  {
    ModUnique(i, |es|, 0, i);
  }

  lemma {:induction false} DoubledLength(es: seq<Option<Value>>, k: nat)
    ensures |Doubled(es, k)| == |es| * Pow2(k)
    decreases k
  {
    if k > 0 {
      DoubledLength(es + es, k - 1);
      assert 2 * |es| * Pow2(k - 1) == |es| * (2 * Pow2(k - 1));
    }
  }

  lemma {:induction false} DoubledIndex(es: seq<Option<Value>>, k: nat, i: int)
    requires 0 <= i < |Doubled(es, k)|
    ensures |es| > 0 && Doubled(es, k)[i] == es[i % |es|]
    decreases k
  {
    if k > 0 {
      var ee := es + es;
      assert Doubled(es, k) == Doubled(ee, k - 1);
      DoubledIndex(ee, k - 1, i);
      CyclicOfDouble(es, i);
    } else {
      CyclicWithin(es, i);
    }
  }

  /** `*` by n extends the shared storage with itself n-1 times, doubling it
      each time: the storage ends up 2^(n-1) times as long, the original
      elements over and over. */
  lemma MultiplicationDoublesStorage(h: Heap, l: Value, r: Value)
    requires l.kind.List? && l.kind.ref < |h.lists| && IsNumber(r.kind) && NumOf(r.kind) >= 1
    ensures var es := Elems(h, l.kind.ref); var o := ListOp(Mul, h, l, Some(r));
            o.Ok? && o.val.1 == Made(l) &&
            |Elems(o.val.0, l.kind.ref)| == |es| * Pow2(NumOf(r.kind) - 1) &&
            forall i | 0 <= i < |Elems(o.val.0, l.kind.ref)| :: Elems(o.val.0, l.kind.ref)[i] == es[i % |es|]
  {
    DoubledLength(Elems(h, l.kind.ref), NumOf(r.kind) - 1);
    var es, k := Elems(h, l.kind.ref), NumOf(r.kind) - 1;
    forall i | 0 <= i < |Doubled(es, k)| ensures Doubled(es, k)[i] == es[i % |es|] {
      DoubledIndex(es, k, i);
    }
  }

  // ---------------------------------------------------------------------
  // Calling

  /** The arity message determines the count it names: two messages of the
      same kind for the same function are equal only for the same count. */
  lemma {:induction false} ArityMessageNamesTheCount(more: bool, k1: nat, k2: nat, name: string)
    requires ArgsMessage(more, k1, name) == ArgsMessage(more, k2, name)
    ensures k1 == k2
  {
    var p := if more then "Too many args (" else "Too few args (";
    var t1, t2 := NatToString(k1), NatToString(k2);
    var tail := ") passed into '" + name + "'";
    assert ArgsMessage(more, k1, name) == p + t1 + tail;
    assert ArgsMessage(more, k2, name) == p + t2 + tail;
    assert t1 == (p + t1 + tail)[|p|..|p| + |t1|];
    assert t2 == (p + t2 + tail)[|p|..|p| + |t2|];
    DecimalRoundTrip(k1);
    DecimalRoundTrip(k2);
  }

  /** A call with the wrong number of arguments fails before anything is
      bound, naming the exact surplus or shortfall and spanning the
      function value. */
  lemma ArityIsCheckedExactly(f: Value, name: string, params: seq<string>, args: seq<Value>)
    ensures |args| > |params| ==>
            CheckArgs(f, name, params, args).error ==
            Some(RTError(ArgsMessage(true, |args| - |params|, name), f.start, f.end, f.ctx))
    ensures |args| < |params| ==>
            CheckArgs(f, name, params, args).error ==
            Some(RTError(ArgsMessage(false, |params| - |args|, name), f.start, f.end, f.ctx))
    ensures |args| == |params| ==> CheckArgs(f, name, params, args).value == Some(New(Null))
  {
  }

  /** Arguments bind positionally: a parameter name holds the argument at
      its last position, re-homed to the frame; other names and other tables
      keep what they had. */
  lemma {:induction false} PopulateBindsPositionally(ts: seq<Table<Value>>, t: nat, params: seq<string>,
                                                    args: seq<Value>, frame: Ctx)
    requires |args| == |params| && t < |ts|
    ensures forall i | 0 <= i < |args| && (forall j | i < j < |params| :: params[j] != params[i]) ::
              Local(Populate(ts, t, params, args, frame), t, params[i]) == Some(args[i].(ctx := Some(frame)))
    ensures forall nm | nm !in params :: Local(Populate(ts, t, params, args, frame), t, nm) == Local(ts, t, nm)
    ensures Populate(ts, t, params, args, frame)[t].parent == ts[t].parent
    decreases |args|
  {
    if |args| > 0 {
      var ts1 := Set(ts, t, params[0], args[0].(ctx := Some(frame)));
      PopulateBindsPositionally(ts1, t, params[1..], args[1..], frame);
      var r := Populate(ts, t, params, args, frame);
      forall i | 0 <= i < |args| && (forall j | i < j < |params| :: params[j] != params[i])
        ensures Local(r, t, params[i]) == Some(args[i].(ctx := Some(frame)))
      {
        if i > 0 {
          assert params[1..][i - 1] == params[i];
          assert forall j | i - 1 < j < |params| - 1 :: params[1..][j] != params[1..][i - 1] by {
            forall j | i - 1 < j < |params| - 1 ensures params[1..][j] != params[1..][i - 1] {
              assert params[1..][j] == params[j + 1];
            }
          }
        } else {
          assert params[0] !in params[1..] by {
            forall j | 0 <= j < |params| - 1 ensures params[1..][j] != params[0] {
              assert params[1..][j] == params[j + 1];
            }
          }
        }
      }
      forall nm | nm !in params
        ensures Local(r, t, nm) == Local(ts, t, nm)
      {
        assert nm !in params[1..] && nm != params[0];
      }
    }
  }

  // ---------------------------------------------------------------------
  // Built-in functions

  /** The type tests: IS_NUM accepts Booleans too, IS_FUNC accepts built-ins
      too, and no value passes two of the tests. */
  lemma TypeTestsAreDisjoint(v: Value)
    ensures TypeTest(IsNum, Some(v)) <==> v.kind.Number? || v.kind.Boolean?
    ensures TypeTest(IsFunc, Some(v)) <==> v.kind.Function? || v.kind.BuiltIn?
    ensures (if TypeTest(IsNum, Some(v)) then 1 else 0) + (if TypeTest(IsStr, Some(v)) then 1 else 0)
          + (if TypeTest(IsList, Some(v)) then 1 else 0) + (if TypeTest(IsFunc, Some(v)) then 1 else 0) <= 1
  {
  }

  lemma {:induction false} LookupFindsFirstMatch(es: seq<Entry>, key: Option<Value>)
    requires DictLookup(es, key).Ok?
    ensures var found := DictLookup(es, key).val;
            found.Some? ==>
              exists i | 0 <= i < |es| ::
                es[i].val == found.value && es[i].key.Some? && key.Some? &&
                PyValue(es[i].key.value.kind) == PyValue(key.value.kind) &&
                forall j | 0 <= j < i :: es[j].key.Some? && PyValue(es[j].key.value.kind) != PyValue(key.value.kind)
    ensures var found := DictLookup(es, key).val;
            found.None? <==>
              forall i | 0 <= i < |es| :: es[i].key.Some? && key.Some? &&
                PyValue(es[i].key.value.kind) != PyValue(key.value.kind)
    decreases |es|
  {
    if |es| > 0 && PyValue(es[0].key.value.kind) != PyValue(key.value.kind) {
      LookupFindsFirstMatch(es[1..], key);
      var found := DictLookup(es, key).val;
      if found.Some? {
        var i :| 0 <= i < |es| - 1 && es[1..][i].val == found.value && es[1..][i].key.Some? &&
                 PyValue(es[1..][i].key.value.kind) == PyValue(key.value.kind) &&
                 forall j | 0 <= j < i :: es[1..][j].key.Some? && PyValue(es[1..][j].key.value.kind) != PyValue(key.value.kind);
        assert es[i + 1] == es[1..][i];
        forall j | 0 <= j < i + 1
          ensures es[j].key.Some? && PyValue(es[j].key.value.kind) != PyValue(key.value.kind)
        {
          if j > 0 { assert es[j] == es[1..][j - 1]; }
        }
      } else {
        forall i | 0 <= i < |es|
          ensures es[i].key.Some? && key.Some? && PyValue(es[i].key.value.kind) != PyValue(key.value.kind)
        {
          if i > 0 { assert es[i] == es[1..][i - 1]; }
        }
      }
    }
  }

  /** The heap and frame a built-in's body runs in once its arguments are
      bound. */
  function Bound(h: Heap, b: Builtin, f: Value, args: seq<Value>): (Heap, Ctx)
    requires |args| <= |BuiltinParams(b)|
  {
    var (h1, frame) := NewFrame(h, BuiltinName(b), f.ctx, f.start);
    (h1.(tables := Populate(h1.tables, frame.table, BuiltinParams(b), args, frame)), frame)
  }

  /** How `execute` finishes once the body ran. */
  function Finish(o: Outcome<(Heap, RTResult<Value>)>): Outcome<(Heap, RTResult<Value>)>
    requires o.Ok? ==> SetCount(o.val.1) == 1
  {
    match o
    case Crash(why) => Crash(why)
    case Ok((h3, r)) => if ShouldReturn(r) then Ok((h3, Propagate(r))) else Ok((h3, Success(r.value.value)))
  }

  lemma ExecuteInFrame(host: Host, h: Heap, f: Value, b: Builtin, args: seq<Value>)
    requires |args| == |BuiltinParams(b)|
    ensures var (h2, frame) := Bound(h, b, f, args);
            BuiltinExecute(host, h, f, b, args) == Finish(RunBuiltin(host, h2, b, f, frame))
    ensures Bound(h, b, f, args).0.lists == h.lists
  {
  }

  /** The frame a built-in runs in binds each parameter to its argument,
      re-homed to the frame. */
  lemma {:induction false} ArgumentsAreBound(h: Heap, b: Builtin, f: Value, args: seq<Value>)
    requires |args| == |BuiltinParams(b)|
    requires |args| == 2 ==> BuiltinParams(b)[0] != BuiltinParams(b)[1]
    ensures var (h2, frame) := Bound(h, b, f, args);
            forall i | 0 <= i < |args| :: Arg(h2, frame, BuiltinParams(b)[i]) == Some(args[i].(ctx := Some(frame)))
  {
    var (h1, frame) := NewFrame(h, BuiltinName(b), f.ctx, f.start);
    PopulateBindsPositionally(h1.tables, frame.table, BuiltinParams(b), args, frame);
  }

  /** LEN of a List is its number of elements, of a Dictionary its number
      of entries. */
  lemma {:induction false} LenCountsElements(host: Host, h: Heap, f: Value, l: Value)
    requires l.kind.List? || (l.kind.Dict? && l.kind.items.Some?)
    ensures BuiltinExecute(host, h, f, Len, [l]).Ok?
    ensures BuiltinExecute(host, h, f, Len, [l]).val.1 ==
            Success(New(Number(if l.kind.List? then |Elems(h, l.kind.ref)| else |l.kind.items.value|)))
  {
    ExecuteInFrame(host, h, f, Len, [l]);
    ArgumentsAreBound(h, Len, f, [l]);
    var (h2, frame) := Bound(h, Len, f, [l]);
    assert Arg(h2, frame, "item") == Some(l.(ctx := Some(frame)));
  }

  /** LS_APPEND adds one element at the end of the shared storage, answers
      Null, and leaves every other storage as it was. */
  lemma {:induction false} AppendAddsAtEnd(host: Host, h: Heap, f: Value, l: Value, x: Value)
    requires l.kind.List? && l.kind.ref < |h.lists|
    ensures var o := BuiltinExecute(host, h, f, LsAppend, [l, x]);
            o.Ok? && o.val.1 == Success(New(Null)) &&
            |Elems(o.val.0, l.kind.ref)| == |Elems(h, l.kind.ref)| + 1 &&
            Elems(o.val.0, l.kind.ref)[..|Elems(h, l.kind.ref)|] == Elems(h, l.kind.ref) &&
            Elems(o.val.0, l.kind.ref)[|Elems(h, l.kind.ref)|].Some? &&
            Elems(o.val.0, l.kind.ref)[|Elems(h, l.kind.ref)|].value.kind == x.kind
    ensures var o := BuiltinExecute(host, h, f, LsAppend, [l, x]);
            |o.val.0.lists| == |h.lists| &&
            forall r | 0 <= r < |h.lists| && r != l.kind.ref :: Elems(o.val.0, r) == Elems(h, r)
  {
    ExecuteInFrame(host, h, f, LsAppend, [l, x]);
    ArgumentsAreBound(h, LsAppend, f, [l, x]);
    var (h2, frame) := Bound(h, LsAppend, f, [l, x]);
    assert Arg(h2, frame, "list") == Some(l.(ctx := Some(frame)));
    assert Arg(h2, frame, "value") == Some(x.(ctx := Some(frame)));
  }

  /** So LEN of the same List afterwards is one more. */
  lemma {:induction false} AppendGrowsLenByOne(host: Host, h: Heap, f: Value, l: Value, x: Value)
    requires l.kind.List? && l.kind.ref < |h.lists|
    ensures var o := BuiltinExecute(host, h, f, LsAppend, [l, x]);
            o.Ok? && BuiltinExecute(host, o.val.0, f, Len, [l]).Ok? &&
            BuiltinExecute(host, o.val.0, f, Len, [l]).val.1 == Success(New(Number(|Elems(h, l.kind.ref)| + 1)))
  {
    AppendAddsAtEnd(host, h, f, l, x);
    var o := BuiltinExecute(host, h, f, LsAppend, [l, x]);
    LenCountsElements(host, o.val.0, f, l);
  }

  /** LS_EXTEND appends the second List's elements to the first's storage,
      answers Null, and leaves every other storage as it was. */
  lemma {:induction false} ExtendJoinsStorage(host: Host, h: Heap, f: Value, l1: Value, l2: Value)
    requires l1.kind.List? && l2.kind.List? && l1.kind.ref < |h.lists|
    ensures var o := BuiltinExecute(host, h, f, LsExtend, [l1, l2]);
            o.Ok? && o.val.1 == Success(New(Null)) &&
            Elems(o.val.0, l1.kind.ref) == Elems(h, l1.kind.ref) + Elems(h, l2.kind.ref)
    ensures var o := BuiltinExecute(host, h, f, LsExtend, [l1, l2]);
            |o.val.0.lists| == |h.lists| &&
            forall r | 0 <= r < |h.lists| && r != l1.kind.ref :: Elems(o.val.0, r) == Elems(h, r)
  {
    ExecuteInFrame(host, h, f, LsExtend, [l1, l2]);
    ArgumentsAreBound(h, LsExtend, f, [l1, l2]);
    var (h2, frame) := Bound(h, LsExtend, f, [l1, l2]);
    assert Arg(h2, frame, "list1") == Some(l1.(ctx := Some(frame)));
    assert Arg(h2, frame, "list2") == Some(l2.(ctx := Some(frame)));
  }

  /** So LEN of the first List afterwards is the sum of both lengths. */
  lemma {:induction false} ExtendAddsLengths(host: Host, h: Heap, f: Value, l1: Value, l2: Value)
    requires l1.kind.List? && l2.kind.List? && l1.kind.ref < |h.lists|
    ensures var o := BuiltinExecute(host, h, f, LsExtend, [l1, l2]);
            o.Ok? && BuiltinExecute(host, o.val.0, f, Len, [l1]).Ok? &&
            BuiltinExecute(host, o.val.0, f, Len, [l1]).val.1 ==
              Success(New(Number(|Elems(h, l1.kind.ref)| + |Elems(h, l2.kind.ref)|)))
  {
    ExtendJoinsStorage(host, h, f, l1, l2);
    var o := BuiltinExecute(host, h, f, LsExtend, [l1, l2]);
    LenCountsElements(host, o.val.0, f, l1);
  }

  /** The call returned an error with message `msg`. */
  predicate FailsWith(o: Outcome<(Heap, RTResult<Value>)>, msg: string) {
    o.Ok? && o.val.1.error.Some? && o.val.1.error.value.details == msg
  }

  /** LS_APPEND, LS_POP and LS_EXTEND on a first argument that is not a List
      fail with the message naming the operation. */
  lemma {:induction false} ListBuiltinsNeedAList(host: Host, h: Heap, f: Value, b: Builtin, x: Value, y: Value)
    requires b in {LsAppend, LsPop, LsExtend} && !x.kind.List?
    ensures FailsWith(BuiltinExecute(host, h, f, b, [x, y]),
              if b == LsAppend then "First argument of 'append' must be a list"
              else if b == LsPop then "First argument of 'pop' must be a list"
              else "First argument of 'extend' must be a list")
  {
    ExecuteInFrame(host, h, f, b, [x, y]);
    ArgumentsAreBound(h, b, f, [x, y]);
    var (h2, frame) := Bound(h, b, f, [x, y]);
    assert Arg(h2, frame, BuiltinParams(b)[0]) == Some(x.(ctx := Some(frame)));
    var o := ListBuiltin(h2, b, f, frame);
    assert o.Ok? && ShouldReturn(o.val.1);
  }

  /** LS_POP hands the Number object itself to Python's `list.pop`, so every
      call that gets past the argument checks raises. */
  lemma {:induction false} PopAlwaysRaises(host: Host, h: Heap, f: Value, l: Value, i: Value)
    requires l.kind.List? && IsNumber(i.kind)
    ensures BuiltinExecute(host, h, f, LsPop, [l, i]) == Crash(TypeError)
  {
    ExecuteInFrame(host, h, f, LsPop, [l, i]);
    ArgumentsAreBound(h, LsPop, f, [l, i]);
    var (h2, frame) := Bound(h, LsPop, f, [l, i]);
    assert Arg(h2, frame, "list") == Some(l.(ctx := Some(frame)));
    assert Arg(h2, frame, "index") == Some(i.(ctx := Some(frame)));
  }

  /** IS_NUM, IS_STR, IS_LIST and IS_FUNC answer with a Boolean telling the
      argument's class. */
  lemma {:induction false} TypeTestsAnswerBooleans(host: Host, h: Heap, f: Value, b: Builtin, x: Value)
    requires b in {IsNum, IsStr, IsList, IsFunc}
    ensures BuiltinExecute(host, h, f, b, [x]).Ok?
    ensures BuiltinExecute(host, h, f, b, [x]).val.1 == Success(New(Boolean(TypeTest(b, Some(x)))))
  {
    ExecuteInFrame(host, h, f, b, [x]);
    ArgumentsAreBound(h, b, f, [x]);
    var (h2, frame) := Bound(h, b, f, [x]);
    assert Arg(h2, frame, "value") == Some(x.(ctx := Some(frame)));
  }

  lemma {:induction false} LookupByKind(es: seq<Entry>, k1: Value, k2: Value)
    requires k1.kind == k2.kind
    ensures DictLookup(es, Some(k1)) == DictLookup(es, Some(k2))
    decreases |es|
  {
    if |es| > 0 {
      LookupByKind(es[1..], k1, k2);
    }
  }

  /** DICT_GET answers with the value of the first entry whose key has the
      same `.value`, and fails naming the key when there is none. */
  lemma {:induction false} DictGetReturnsFirstMatch(host: Host, h: Heap, f: Value, d: Value, key: Value)
    requires d.kind.Dict? && d.kind.items.Some?
    ensures var o := BuiltinExecute(host, h, f, DictGet, [d, key]);
            var found := DictLookup(d.kind.items.value, Some(key));
            (o.Ok? <==> found.Ok?) &&
            (found.Ok? && found.val.Some? ==> o.val.1 == Success(found.val.value)) &&
            (found.Ok? && found.val.None? ==>
               (o.val.1.error.Some? && o.val.1.error.value.details ==
                "Key '" + host.show(Bound(h, DictGet, f, [d, key]).0, Some(key.(ctx := Some(Bound(h, DictGet, f, [d, key]).1))))
                + "' is not in dictionary"))
  {
    ExecuteInFrame(host, h, f, DictGet, [d, key]);
    ArgumentsAreBound(h, DictGet, f, [d, key]);
    var (h2, frame) := Bound(h, DictGet, f, [d, key]);
    assert Arg(h2, frame, "dict") == Some(d.(ctx := Some(frame)));
    assert Arg(h2, frame, "key") == Some(key.(ctx := Some(frame)));
    LookupByKind(d.kind.items.value, key.(ctx := Some(frame)), key);
  }

  // ---------------------------------------------------------------------
  // Dictionary literals

  /** How many entries have an absent key. */
  function AbsentKeys(es: seq<Entry>): nat {
    if |es| == 0 then 0 else (if es[0].key.None? then 1 else 0) + AbsentKeys(es[1..])
  }

  /** A present key is taken to be a distinct object, so storing it always
      adds an entry at the end. */
  lemma {:induction false} PresentKeyAppends(es: seq<Entry>, k: Value, v: Value)
    ensures Insert(es, Some(k), v) == es + [Entry(Some(k), v)]
    decreases |es|
  {
    if |es| > 0 {
      PresentKeyAppends(es[1..], k, v);
      assert es == [es[0]] + es[1..];
    }
  }

  /** The absent key occurs at most once: storing it again replaces the
      earlier value where it stands and keeps the length. */
  lemma {:induction false} AbsentKeyIsUnique(es: seq<Entry>, key: Option<Value>, v: Value)
    requires AbsentKeys(es) <= 1
    ensures AbsentKeys(Insert(es, key, v)) == if key.None? then 1 else AbsentKeys(es)
    ensures key.None? && AbsentKeys(es) == 1 ==> |Insert(es, key, v)| == |es|
    ensures key.None? && AbsentKeys(es) == 0 ==> Insert(es, key, v) == es + [Entry(None, v)]
    decreases |es|
  {
    if |es| > 0 {
      var r := Insert(es, key, v);
      if key.None? && es[0].key.None? {
        assert r[1..] == es[1..];
      } else {
        AbsentKeyIsUnique(es[1..], key, v);
        assert r[1..] == Insert(es[1..], key, v);
        assert es == [es[0]] + es[1..];
      }
    }
  }
}
